=== FILE: README.md ===
# Warp transfer rules of the pruv Hyperlane UI, in Dafny

This project models the decision logic of a Hyperlane warp-route web app. This fork adds a
USDC fee for transfers that leave the pruv chains. The model covers:

- **Tokens and token lists.** When a token is a multi-collateral router. Which routers wrap
  the same collateral. How the token picker de-duplicates them. How tokens are grouped by
  symbol and chain.
- **Best-route selection** (`getTransferToken`). Among routers that wrap the same collateral,
  pick the one whose destination side holds the most. Ties go to the earliest.
- **The pruv USDC fee.** The eligibility rule, and the exact decimal sum of amount and fee.
- **Form validation** (`validateForm`). The ordered early-return checks, the override token,
  and the form-level message for thrown errors. `Validation.ValidateForm` picks that message
  with the gas-funds pattern exactly as the application writes it. `Validation.ValidateFormIntended`
  is the same checks with the pattern as evidently intended (see "## Findings").
- **The transfer executor** (`executeTransfer`). It is a run over the transaction list that
  produces a trace of effects:
  - status changes
  - the history record
  - toasts
  - the loading flag
  - the completion callback

  It also covers the USDC approval that is prepended, the batched and sequential sending
  paths, and the choice of failure message.
- **The form around them.**
  - The override hand-off to the executor.
  - The sanction gate.
  - The done and edit resets.
  - When submitting enters review and when it asks to confirm the recipient.
  - The initial values.
  - The origin/destination swap.
- **The service worker's static-asset cache.**
  - Which requests it answers.
  - Which caches activation drops.
  - The cache-first fetch, over an abstract cache map.

Every SDK, wallet, chain and network call is a parameter. It is a function-typed field of an
environment datatype (`ValidationEnv`, `WalletEnv`, `DefaultsEnv`) or a plain outcome value.
A call that may throw returns `Fallible<T>`: either `Ok(value)` or `Threw(Failure(message, text))`.

Amounts are exact decimals. `Decimal.Dec(mant, exp)` denotes `mant / 10^exp`, and
`Decimal.Value` gives its real value. The decimal library's text form is `Decimal.ToText`, which
prints plain notation. Parsing is `Decimal.Parse`, over the grammar `[+-] digits [. digits]`.

Modules, one per file: `Wrappers`, `Strings`, `Decimal`, `AppConfig`, `Tokens`, `TokenLists`,
`PruvFee`, `RouteSelection`, `ErrorPatterns`, `TransferTypes`, `Validation`, `Executor`,
`FormFlow`, `FormDefaults`, `ServiceWorker`.

`src/features/tokens/utils.ts` is not part of this model. The multi-collateral rules are modelled
as the contract its test file pins down.

## Model

| member | source | states |
|---|---|---|
| Decimal.Add | src/features/transfer/pruvFee.ts:44 | the sum has exactly the value of the two amounts added |
| Decimal.Normalize | src/features/transfer/pruvFee.ts:44 | drops trailing fraction zeros, as the decimal library prints, and keeps the value |
| Decimal.RenderRoundTrip | src/features/transfer/pruvFee.ts:44 | a printed decimal parses back to the same decimal |
| Decimal.ToTextRoundTrip | src/features/transfer/pruvFee.ts:44 | the library's text of a number parses back to a number of the same value |
| Decimal.ToText | src/features/transfer/pruvFee.ts:44 | the printed text reads back as the number with trailing fraction zeros dropped |
| Decimal.Parse | src/features/transfer/pruvFee.ts:41-42 | empty text is not a number (the caller substitutes 0 for an empty amount first); plain digits read as that whole number; a leading minus gives a number not above zero, any other text one not below zero |
| Decimal.Shift | src/features/transfer/useTokenTransfer.ts:183 | multiplying by 10^k is exact: the result read with k more fraction digits is the input again |
| Tokens.FirstOnChain | src/features/transfer/_utils/transfer.ts:36 | the connection found is on the asked chain; none is found exactly when no connection is on that chain |
| Tokens.FirstOnChainIsFirst | src/features/transfer/_utils/transfer.ts:36 | the connection found is the earliest one on the asked chain, as `find` returns |
| Tokens.IsValidMultiCollateralToken | src/features/tokens/utils.test.ts:96-143 | a token pair is multi-collateral exactly when both ends carry a non-empty collateral address and a collateralised standard, and the destination resolves; its lemmas below state the tested cases |
| Tokens.InvalidWhenAnyConditionFails | src/features/tokens/utils.test.ts:101-128 | each of the five conditions alone makes `isValidMultiCollateralToken` false: origin collateral missing, origin not collateralised, no connection, destination collateral missing, destination not collateralised |
| Tokens.ChainAndTokenDestinationsAgree | src/features/tokens/utils.test.ts:130-143 | naming the destination by chain or by its resolved token gives the same verdict |
| Tokens.TokensWithSameCollateral | src/features/tokens/utils.test.ts:158-186 | the candidates are exactly the registered route tokens on the origin chain that are multi-collateral, share the origin's lower-cased collateral, and whose own connection to the destination chain shares the destination's lower-cased collateral; none when the origin is not multi-collateral |
| Tokens.OriginIsOwnCandidate | src/features/tokens/utils.test.ts:158-186 | a registered, routed origin is among its own candidates exactly when it passes the check, so candidates exist exactly then |
| Tokens.NoRouteNoCandidates | src/features/tokens/utils.test.ts:188-201 | an empty route query gives no candidates |
| TokenLists.Dedupe | src/features/tokens/utils.test.ts:213-243 | the map's keys are exactly the lower-cased collateral pairs of the multi-collateral entries |
| TokenLists.KeepLastIffNew | src/features/tokens/utils.test.ts:213-243 | an entry is shown exactly when it is not multi-collateral or its pair was not seen before |
| TokenLists.DedupeTokensAreKept | src/features/tokens/utils.test.ts:213-243 | the shown entries equal the reference selection: the first entry of each pair, plus every other entry, in order |
| TokenLists.DedupeGroupsAreGroups | src/features/tokens/utils.test.ts:239-242 | under each pair, the map holds exactly the origin tokens of all entries with that pair, in input order |
| TokenLists.KeptPairsDistinct | src/features/tokens/utils.test.ts:230-232 | no two shown multi-collateral entries share a pair |
| TokenLists.KeptCoversPairs | src/features/tokens/utils.test.ts:230-232 | every pair of the input has a shown representative |
| TokenLists.GroupHoldsMembers | src/features/tokens/utils.test.ts:239-242 | every multi-collateral entry's token stays listed under its pair |
| TokenLists.KeptPassesThrough | src/features/tokens/utils.test.ts:245-259 | entries that are not multi-collateral are shown |
| TokenLists.DedupeWithoutMulti | src/features/tokens/utils.test.ts:245-259 | a list with no multi-collateral entry comes back unchanged with an empty map |
| TokenLists.DedupeContract | src/features/tokens/utils.test.ts:213-259 | the combined de-duplication contract: shown entries come from the input, pairs distinct and covered, groups complete |
| TokenLists.AssembleBySymbol | src/features/tokens/utils.test.ts:46-74 | the map's symbols are exactly those of the multi-chain tokens |
| TokenLists.AssembleFirstToken | src/features/tokens/utils.test.ts:70-71 | each symbol's entry names the first multi-chain token with that symbol |
| TokenLists.AssembleChainsSound | src/features/tokens/utils.test.ts:72-73 | a chain listed under a symbol is enabled and holds a multi-chain token of that symbol |
| TokenLists.AssembleChainsComplete | src/features/tokens/utils.test.ts:72-73 | every enabled chain of a multi-chain token is listed under its symbol |
| TokenLists.DisabledChainSkipped | src/features/tokens/utils.test.ts:76-93 | a token on a disabled chain opens its symbol's entry with no chains |
| PruvFee.OriginFeeUsdc | src/features/transfer/pruvFee.ts:4-6 | the configured fee for the destination, zero when none is configured |
| PruvFee.LeavesPruv | src/features/transfer/useTokenTransfer.ts:172-174 | the fee is on and the origin's name starts with "pruv" while the destination's does not |
| PruvFee.ShouldApplyUsdcBonus | src/features/transfer/pruvFee.ts:8-24 | the bonus applies to a USDC transfer that leaves the pruv chains towards a destination with a positive fee |
| PruvFee.BonusOnlyOneWay | src/features/transfer/pruvFee.ts:17-23 | the reverse of a route that leaves the pruv chains does not leave them, so it never gets the bonus |
| PruvFee.AmountWithUsdcBonus | src/features/transfer/pruvFee.ts:26-45 | the amount is unchanged when the bonus does not apply or is not a number; when it applies, the result reads as amount plus fee exactly, and an empty amount counts as 0 |
| PruvFee.BonusExample | src/features/transfer/pruvFee.ts:37-44 | with a fee of 2 towards ethereum, "10" sent from pruvtest in USDC becomes "12" |
| RouteSelection.Probes | src/features/transfer/_utils/transfer.ts:124-139 | every successful balance probe is kept and nothing else; none exactly when every probe failed |
| RouteSelection.ProbesOfOne | src/features/transfer/_utils/transfer.ts:124-139 | one candidate gives its probe when its query succeeds, and nothing when it fails |
| RouteSelection.ProbesAppend | src/features/transfer/_utils/transfer.ts:124-139 | probing keeps candidate order: the probes of two lists joined are the first list's probes followed by the second's |
| RouteSelection.SortDesc | src/features/transfer/_utils/transfer.ts:144-148 | the sort is a permutation ordered by descending balance |
| RouteSelection.SortHeadIsEarliestMax | src/features/transfer/_utils/transfer.ts:144-151 | the stable sort puts first the earliest probe with the highest balance |
| RouteSelection.GetTransferToken | src/features/transfer/_utils/transfer.ts:102-152 | the origin token when it is not multi-collateral, has at most one candidate, or every probe failed; otherwise a candidate's origin token |
| RouteSelection.SelectsEarliestHighestBalance | src/features/transfer/_utils/transfer.ts:141-151 | otherwise the chosen router is the earliest successful probe with maximal balance |
| ErrorPatterns.IntendedImpliesAsWritten | src/features/transfer/_utils/transfer.ts:21 | every message the intended gas-funds pattern matches, the written one matches too |
| ErrorPatterns.AllowanceMessageMisread | src/features/transfer/_utils/transfer.ts:21 | "insufficient allowance" matches the written pattern and not the intended one |
| ErrorPatterns.AllowanceFormTextMisread | src/features/transfer/_utils/transfer.ts:21-22 | the same for the text the form tests, and the account pattern does not match it either |
| Validation.FailureMessage | src/features/transfer/_utils/transfer.ts:88-96 | the gas-funds message replaces the summary exactly when the intended pattern or the account pattern matches "summary message" |
| Validation.FailureMessageAsWritten | src/features/transfer/_utils/transfer.ts:90-95 | the same selection with the pattern as written: the result is the gas-funds message or the summary |
| Validation.AllowanceFailureMisreported | src/features/transfer/_utils/transfer.ts:90-95 | an allowance failure is shown as missing gas funds as written, and as itself with the intended pattern |
| Validation.IsRouterRecipient | src/features/transfer/_utils/transfer.ts:39-42 | the recipient is listed among the router addresses of the destination chain |
| Validation.BelowPruvMinimum | src/features/transfer/_utils/transfer.ts:46-53 | with the fee on, a USDC amount from pruvtest that reads as a number no greater than a positive fee |
| Validation.ValidateForm | src/features/transfer/_utils/transfer.ts:24-97 | the checks as the application runs them, the thrown-error message chosen by the written pattern; a missing token or route gives exactly the token error with no override; an override only comes with a valid form |
| Validation.RouterRecipientRefused | src/features/transfer/_utils/transfer.ts:39-44 | a router address of the destination as recipient gives the recipient error |
| Validation.PruvMinimumRefused | src/features/transfer/_utils/transfer.ts:46-54 | on pruvtest with USDC, an amount not above a positive fee gives the amount error that names the fee |
| Validation.LocalChecksComeFirst | src/features/transfer/_utils/transfer.ts:34-56 | when the token, route, recipient or minimum check fails, that is the verdict whatever the SDK and wallet would answer |
| Validation.LimitComesBeforeSdk | src/features/transfer/_utils/transfer.ts:56-67 | a positive exceeded limit gives the limit message in the token's units, independently of the sender and the SDK validation |
| Validation.ZeroLimitIsNoLimit | src/features/transfer/_utils/transfer.ts:58-60 | a limit answer of zero is falsy: the verdict is exactly the one with no limit answer |
| Validation.PastLocalChecks | src/features/transfer/_utils/transfer.ts:34-57 | once the token, route, recipient and minimum checks pass, what follows is the amount conversion for the token to transfer |
| Validation.ValidMeansEveryCheckPassed | src/features/transfer/_utils/transfer.ts:56-85 | a valid form means the amount converted, no positive limit was returned, the sender was read and the SDK returned nothing |
| Validation.SdkVerdictDecides | src/features/transfer/_utils/transfer.ts:75-87 | SDK errors are returned verbatim with no override; without them the override is present exactly when the transfer token's address differs, and is that token |
| Validation.OverrideSharesCollateral | src/features/transfer/_utils/transfer.ts:85-87 | an override is another registered router on the same origin chain with the same collateral and a route to the destination |
| Validation.ThrownIsFormError | src/features/transfer/_utils/transfer.ts:57-96 | once the local checks pass, an error thrown by the amount conversion, the sender lookup or the SDK's validation becomes the one form-level error, with the message the written pattern selects, and no override |
| Validation.ReadingsDifferOnlyOnGasFunds | src/features/transfer/_utils/transfer.ts:88-96 | the written and the intended pattern give the same override and the same valid/invalid verdict; where they differ, the application shows the gas-funds message and the intended reading does not |
| Validation.AllowanceThrowMisreported | src/features/transfer/_utils/transfer.ts:57-96 | an "insufficient allowance" error thrown by the amount conversion is shown as missing gas funds by the form, and as itself under the intended pattern |
| TransferTypes.TokenAt | src/features/transfer/_utils/transfer.ts:34 | a token is found exactly for an index inside the registry |
| Executor.CategoryStatusesPaired | src/features/transfer/useTokenTransfer.ts:294-298 | each category maps to a signing status and the confirming status that belongs to it |
| Executor.StageMessage | src/features/transfer/useTokenTransfer.ts:285-292 | a stage has a message exactly when it is preparing, creating, or signing or confirming an approve or a transfer |
| Executor.FailureNotice | src/features/transfer/useTokenTransfer.ts:262-279 | the chain-mismatch message first, then the timeout message with the chain name, then the stage's message, else the generic one |
| Executor.UnlistedStagesGetGenericNotice | src/features/transfer/useTokenTransfer.ts:277 | failures during a revoke get the generic message |
| Executor.RouteOf | src/features/transfer/useTokenTransfer.ts:115-117 | a route exists exactly when the token exists and connects to the destination |
| Executor.AmountFor | src/features/transfer/useTokenTransfer.ts:119-134 | an NFT's id is passed as typed; any other amount is the typed amount with the USDC bonus, converted to smallest units, and succeeds exactly when that conversion does |
| Executor.ApprovalFor | src/features/transfer/useTokenTransfer.ts:172-194 | an approval is needed exactly when the route leaves pruv, the token is not USDC and the fee is positive; it lets the token's router spend the fee in USDC's smallest units, i.e. an amount that read with USDC's decimals is the fee |
| Executor.CreateTxs | src/features/transfer/useTokenTransfer.ts:163-205 | the list is made exactly when the SDK's transactions and, if one is needed, the approval are; an error from either is the one thrown; the approval, when needed, comes first and the SDK's transactions follow unchanged |
| Executor.WithApproval | src/features/transfer/useTokenTransfer.ts:196-204 | the approval, when needed, goes first and the SDK's transactions follow unchanged |
| Executor.ApprovalAndBonusExclusive | src/features/transfer/useTokenTransfer.ts:121-205 | no transfer gets both the approval and the USDC bonus |
| Executor.Batched | src/features/transfer/useTokenTransfer.ts:210 | the list is sent as one batch exactly when it holds more than one transaction and every one is a Starknet one |
| Executor.SendEach | src/features/transfer/useTokenTransfer.ts:230-252 | sequential sending: one hash per transaction in list order, each confirming status right after its signing status, a failure stops at a signing or confirming stage |
| Executor.SendEachFollowsCategories | src/features/transfer/useTokenTransfer.ts:230-252 | each transaction sent gets its own category's signing status, then that category's confirming status, then its success toast with its hash; a failure is at the next transaction, under its category's signing status when the send threw and its confirming status when the wait threw |
| Executor.SendBatch | src/features/transfer/useTokenTransfer.ts:210-229 | whatever the transactions' categories, only the transfer statuses are set: SigningTransfer first, ConfirmingTransfer once the batch is sent, a failure at the stage it happened, and on success one Transfer toast with the one hash |
| Executor.SendAll | src/features/transfer/useTokenTransfer.ts:210-252 | either way, statuses are paired and a failure is at a sending stage |
| Executor.LastOf | src/features/transfer/useTokenTransfer.ts:259 | the last hash, or none for no hashes |
| Executor.Prepare | src/features/transfer/useTokenTransfer.ts:114-149 | every failure before the record is at the preparing stage, with at most the collateral toast |
| Executor.PrepareProceedsIffChecksPass | src/features/transfer/useTokenTransfer.ts:115-149 | preparation succeeds exactly with a route, a converted amount, a non-empty sender and enough destination collateral |
| Executor.TryTransfer | src/features/transfer/useTokenTransfer.ts:114-261 | the `try` stops at Preparing exactly when preparation fails; any other stop is while creating the transactions or at a signing or confirming stage |
| Executor.TryTransferStopsAtLastStatus | src/features/transfer/useTokenTransfer.ts:114-265 | wherever the `try` throws, the stage it stops at is the status it set last, Preparing when it set none: the value `transferStatus` holds in the `catch` |
| Executor.CatchEvents | src/features/transfer/useTokenTransfer.ts:262-280 | nothing when nothing threw; otherwise the Failed status and then the error toast for the stage the run stopped at |
| Executor.FailureToastNamesLastStage | src/features/transfer/useTokenTransfer.ts:262-280 | in a run whose `try` throws, Failed is set right after the `try`'s effects, and the toast after it is the failure message for the status the run had set last |
| Executor.ExecuteTransfer | src/features/transfer/useTokenTransfer.ts:83-283 | a run starts with loading on and Preparing, and ends with loading off and then the callback |
| Executor.RunEndsConfirmedOrFailed | src/features/transfer/useTokenTransfer.ts:254-265 | the final status is ConfirmedTransfer when nothing threw and Failed otherwise |
| Executor.RunStatusesPaired | src/features/transfer/useTokenTransfer.ts:230-252 | throughout a run each confirming status comes right after its signing status |
| Executor.RecordedBeforeSigning | src/features/transfer/useTokenTransfer.ts:115-163 | nothing is signed before the checks pass and the history record of this transfer is added |
| Executor.AttemptRecordsFirst | src/features/transfer/useTokenTransfer.ts:115-163 | inside the `try` the record is the first effect, only after preparation passed, and CreatingTxs follows it |
| Executor.RecordedOnlyAfterPreparation | src/features/transfer/useTokenTransfer.ts:115-163 | a run adds its history record only as its third effect, only when route, amount, sender and collateral were established, and sets CreatingTxs right after; a run that fails in preparation records nothing |
| Executor.ConfirmedCarriesLastHash | src/features/transfer/useTokenTransfer.ts:207-261 | a confirmed transfer carries the last transaction's hash (the batch's when batched), or none when nothing was sent |
| Executor.NoRouteRun | src/features/transfer/useTokenTransfer.ts:106-283 | with no route the run fails at once with the preparation message and records nothing |
| Executor.LowCollateralRun | src/features/transfer/useTokenTransfer.ts:142-149 | with too little destination collateral the run shows the collateral toast, then fails with the preparation message |
| FormFlow.IndexOfToken | src/features/transfer/_components/ButtonSection.tsx:58 | the index found selects the token and is its first position; none when the token is not registered |
| FormFlow.OnValidated | src/features/transfer/TransferTokenForm.tsx:51-63 | the form gets the errors as they are, and the stored override is replaced, even by none |
| FormFlow.HandOff | src/features/transfer/_components/ButtonSection.tsx:54-61 | without an override the values are unchanged; with one, the index selects the override and the origin is its chain, other fields unchanged |
| FormFlow.Trigger | src/features/transfer/_components/ButtonSection.tsx:47-61 | sanctioned: no change and nothing handed over; otherwise review off and loading on before the hand-off |
| FormFlow.OnDone | src/features/transfer/_components/ButtonSection.tsx:35-40 | completion clears review, loading and the override |
| FormFlow.OnEdit | src/features/transfer/_components/ButtonSection.tsx:68-71 | edit clears review and the override, leaving loading |
| FormFlow.SendPressed | src/features/transfer/_components/ButtonSection.tsx:47-66 | a sanctioned sender changes nothing and runs nothing; otherwise the run is the executor's on the values handed off with the stored override, with the completion callback |
| FormFlow.SanctionedSendsNothing | src/features/transfer/_components/ButtonSection.tsx:49-51 | a sanctioned account runs nothing and changes nothing |
| FormFlow.SendEndsReset | src/features/transfer/_components/ButtonSection.tsx:35-61 | after any run the form is out of review, not loading and without an override |
| FormFlow.ValidatedOverrideReachesExecutor | src/features/transfer/_components/ButtonSection.tsx:57-61 | the override found by validation is the token the executor receives, on the selected token's chain |
| FormFlow.OnSubmit | src/features/transfer/TransferTokenForm.tsx:65-77 | submitting changes review or opens the confirmation, as decided, and nothing else |
| FormFlow.SubmitDecision | src/features/transfer/TransferTokenForm.tsx:65-77 | nothing for an unread balance; review for a positive balance or a gasless destination; otherwise the recipient confirmation |
| FormFlow.SubmitDecisionCases | src/features/transfer/TransferTokenForm.tsx:67-76 | review exactly for a positive balance or a gasless destination; confirmation exactly for zero on a non-gasless one; nothing for an unread balance |
| FormFlow.NoGaslessListAsksConfirmation | src/features/transfer/TransferTokenForm.tsx:69 | with no gasless list a zero balance asks for confirmation |
| FormFlow.OnConfirmRecipient | src/features/transfer/TransferTokenForm.tsx:112 | confirming the recipient enters review |
| FormFlow.ReviewReachedAfterSubmit | src/features/transfer/TransferTokenForm.tsx:65-112 | a read balance leads to review, directly or through the confirmation |
| FormDefaults.DefaultOriginToken | src/features/transfer/_hooks/useFormInititialValues.ts:21-23 | the default origin token is the earliest registered token on the configured default chain, as `[0]` picks it, and exists when one is there |
| FormDefaults.FeeTokenIndex | src/features/transfer/_hooks/useFormInititialValues.ts:34-44 | an index is kept exactly for a non-empty parameter that resolves to a non-zero index |
| FormDefaults.FeeTokenAtZeroDropped | src/features/transfer/_hooks/useFormInititialValues.ts:34-44 | a fee token resolved to index 0 is dropped |
| FormDefaults.FeeTokenResolvedLikeToken | src/features/transfer/_hooks/useFormInititialValues.ts:25-44 | a fee-token parameter resolves, on the same query chains, to the index the token parameter would get, except that index 0 is dropped |
| FormDefaults.FallbackDestination | src/features/transfer/_hooks/useFormInititialValues.ts:48-55 | the configured default destination, else the first connection's chain, else the empty string |
| FormDefaults.InitialValues | src/features/transfer/_hooks/useFormInititialValues.ts:13-61 | empty amount and recipient; the token index resolved from the token parameter and the query chains; both chains from the query when both are valid, otherwise both fallbacks |
| FormDefaults.FallbackIgnoresQueryChains | src/features/transfer/_hooks/useFormInititialValues.ts:49-55 | when the query pair is not valid the chains do not depend on it: query and defaults never mix |
| FormDefaults.FallbackOrigin | src/features/transfer/_hooks/useFormInititialValues.ts:47-52 | the fallback origin is the default origin chain when a token lives there, else the first token's chain |
| FormDefaults.SwapChains | src/features/transfer/_components/SwapChainsButton.tsx:16-23 | disabled: nothing changes and no callback; otherwise the chains swap, the recipient is cleared, the callback gets (old destination, old origin), token and amount stay |
| FormDefaults.SwapTwiceRestores | src/features/transfer/_components/SwapChainsButton.tsx:16-23 | swapping twice restores the chains and clears only the recipient |
| ServiceWorker.ShouldHandleCases | public/service-worker.js:47-60 | a request is handled exactly when it is a same-origin GET outside /api for an asset extension |
| ServiceWorker.ApiAssetNotHandled | public/service-worker.js:52-57 | an /api path is not handled even with an asset extension |
| ServiceWorker.UpperCaseExtensionNotAsset | public/service-worker.js:59 | the extension match is case-sensitive |
| ServiceWorker.ShouldHandle | public/service-worker.js:47-60 | a same-origin GET outside /api whose path ends in one of the nine asset extensions |
| ServiceWorker.StaleKeys | public/service-worker.js:10-15 | the keys deleted are exactly those other than the current cache name |
| ServiceWorker.Activate | public/service-worker.js:8-19 | activation keeps exactly the caches not listed as stale |
| ServiceWorker.ActivationKeepsOnlyCurrent | public/service-worker.js:8-19 | afterwards at most the current cache is left, and it is kept when present |
| ServiceWorker.HandleFetch | public/service-worker.js:21-45 | unhandled requests pass; cached answers come from the cache; on a miss the network's response is the answer, or its error rejects the fetch with the cache unchanged; only an ok network response is stored, under the request's URL |
| ServiceWorker.CachedIgnoresNetwork | public/service-worker.js:29-32 | a cached answer does not depend on the network |
| ServiceWorker.OkResponseServedFromCache | public/service-worker.js:33-38 | after an ok network answer, the next fetch is served from the cache |
| ServiceWorker.FailedResponseNotStored | public/service-worker.js:35-38 | a response that is not ok is returned but not stored |

## Left out

- Toasts, logging and timestamps. Toasts appear as trace effects, and the record's timestamp is dropped.
- The global store is not modelled. `updateTransferStatus` writes into the transfer history; the model keeps each status change as a trace effect instead.
- Concurrency. `Promise.allSettled` over the balance probes is a sequential map over per-candidate outcomes.
- Every SDK, wallet and network call is an oracle parameter. This covers:
  - `toWei`, `fromWei` and `validateTransfer`
  - `getTransferRemoteTxs` and `isDestinationCollateralSufficient`
  - `getTokenCollateral` and `populateApproveTx`
  - sending and confirming
  - `tryGetMsgIdFromTransferReceipt`, `getAccountAddressAndPubKey`, `getChainDisplayName` and `errorToString`
  - `getInitialTokenIndex` and `tryGetValidChainName`
- Tokens.Token: the SDK's token standard appears only as two flags, whether it is collateralised and whether it is an NFT.
- Tokens.TokensWithSameCollateral: the implementation file is not part of this model. Its test (utils.test.ts:158-186) has one candidate, a copy of the origin, so it does not settle whether the destination collateral is compared too. The model compares both ends' lower-cased collaterals, since candidates are (origin, destination) pairs and the deduplication keys on that pair (utils.test.ts:233-242).
- TokenLists.IsMultiChain: a multi-chain token is taken to be one with at least one connection.
- TokenLists.AssembleBySymbol: the chain metadata lookup is left out. Where two tokens of one symbol sit on the same chain, the later one wins.
- Strings.ToLower: lower-cases ASCII letters only.
- Decimal.Parse: accepts only `[+-] digits [. digits]`. The decimal library also accepts other forms, such as exponent notation, surrounding spaces, hexadecimal and infinities. The model treats all of these as not a number.
- Decimal.ToText: prints plain notation. The decimal library switches to exponent notation for very large and very small numbers.
- Validation.BelowPruvMinimum: reads the amount with the strict decimal grammar rather than `parseFloat`. `parseFloat` also accepts a numeric prefix such as "5abc".
- Validation.ValidateForm: the pruv minimum reads the amount with the strict decimal grammar rather than `parseFloat`. `parseFloat` also accepts a numeric prefix such as "5abc".
- Validation.ValidateForm: the minimum in the message is the exact decimal's text, not the printed JavaScript number.
- Validation.ValidateForm: a thrown value is always an error carrying a message and a text form.
- Validation.ValidateForm: errors thrown by `getTransferToken`, `isMultiCollateralLimitExceeded`, `fromWei` or the awaited sender public key are not modelled. The model throws only from the amount conversion, the sender lookup and the SDK's validation.
- FormDefaults.InitialValues: `getInitialTokenIndex` also receives the default origin token and the default destination chain; the oracle takes them as fixed by the configuration and the registry.
- Executor.ApprovalFor: the USDC amount `fee * 10^decimals` is exact here. The source computes it in floating point.
- Executor.ExecuteTransfer: the wallet's active chain, the provider protocol lookup and the "Error at stage" log are left out.
- Executor.ExecuteTransfer: a thrown value is always an error carrying a message and a text form. `error.message || error.toString()` on a thrown `null` or `undefined` would itself throw out of the `catch`.
- FormFlow.IndexOfToken: `src/features/tokens/hooks.ts` is not part of this model. The index lookup compares tokens by value, where JavaScript compares object identity.
- FormFlow.SendPressed: the `catch` around the executor only logs, so it is left out. The executor throws nothing that the model can express, since every thrown value here is an error with a message; a thrown `null` or `undefined` would make the executor's own `catch` throw on `error.message`, and that case is not modelled.
- FormDefaults.InitialValues: requires a default origin token or a non-empty registry. The source reads the first token unchecked, so it fails without one.
- ServiceWorker.HandleFetch: the cache is keyed by URL. `install`, `skipWaiting`, `clients.claim`, the Cache and Fetch APIs and the un-awaited `cache.put` are left out.
- Rendering components, `ChainSelectSection`, `MaxButton`, `ReviewDetails`, the remaining presentational files and the test-only files are left out. They hold view code or rely on code that is not part of this model.

## Findings

| source | as written | input that shows it | evidently intended | confidence | as-written member | corrected member |
|---|---|---|---|---|---|---|
| src/features/transfer/_utils/transfer.ts:21 | `/insufficient.[funds\|lamports]/i`: the brackets make a character class, so it matches "insufficient", any character, then one of 13 single characters | the message "insufficient allowance" (`ErrorPatterns.AllowanceMessageMisread`); a form error with that summary and an empty message is shown as "Insufficient funds for gas fees" (`Validation.AllowanceFailureMisreported`, and on a whole form `Validation.AllowanceThrowMisreported`) | `/insufficient.(funds\|lamports)/i`: "insufficient", one character, then the word "funds" or "lamports"; `Validation.ValidateFormIntended` runs the checks with it | high; not executed | Validation.FailureMessageAsWritten | Validation.FailureMessage |

=== FILE: config.dfy ===
/** The deployment configuration the transfer rules read. */
module AppConfig {
  import opened Wrappers
  import opened Decimal

  datatype Config = Config(
    /** Whether the pruv origin fee in USDC is charged at all. */
    enablePruvOriginFeeUsdc: bool,
    /** The fee, in whole USDC, per destination chain name. */
    pruvOriginFeeUsdc: map<string, Dec>,
    /** Address and decimals of the USDC contract on the pruv chains. */
    pruvUsdcAddress: string,
    pruvUsdcDecimals: nat,
    /** Destination chains where a recipient needs no native balance; `None` when unset. */
    gaslessChains: Option<seq<string>>,
    /** Default chains; the empty string stands for "not configured". */
    defaultOriginChain: string,
    defaultDestinationChain: string)
}

=== FILE: decimal.dfy ===
/** Exact decimal numbers and their plain decimal text.

    The application hands amounts around as decimal text and does its
    arithmetic on them with an arbitrary-precision decimal library; this
    module gives those amounts an exact meaning (`Value`, a real number)
    and proves that the text form and the number form agree. */
module Decimal {
  import opened Wrappers

  function Pow10(n: nat): (r: nat)
    ensures r >= 1
  {
    if n == 0 then 1 else 10 * Pow10(n - 1)
  }

  lemma {:induction false} Pow10Add(a: nat, b: nat)
    ensures Pow10(a + b) == Pow10(a) * Pow10(b)
  {
    if b > 0 {
      Pow10Add(a, b - 1);
      assert Pow10(a + b) == 10 * Pow10(a + b - 1);
    }
  }

  /** The number `mant / 10^exp`. */
  datatype Dec = Dec(mant: int, exp: nat)

  const Zero: Dec := Dec(0, 0)

  /** The exact value a decimal denotes. */
  function Value(d: Dec): real {
    d.mant as real / Pow10(d.exp) as real
  }

  lemma DivCancel(a: real, p: real, q: real)
    requires p > 0.0 && q > 0.0
    ensures (a * q) / (p * q) == a / p
  {
    var x := a / p;
    assert a == x * p;
    assert a * q == x * (p * q);
  }

  lemma CastMul(a: int, b: int)
    ensures (a * b) as real == (a as real) * (b as real)
  {
  }

  /** Multiplying numerator and denominator by the same power of ten keeps the value. */
  lemma ScaleKeepsValue(m: int, e: nat, k: nat)
    ensures Value(Dec(m * Pow10(k), e + k)) == Value(Dec(m, e))
  {
    Pow10Add(e, k);
    var p, q := Pow10(e), Pow10(k);
    CastMul(m, q);
    CastMul(p, q);
    DivCancel(m as real, p as real, q as real);
  }

  /** The numerator of `d` over the denominator `10^e`. */
  function Rescale(d: Dec, e: nat): (r: int)
    requires d.exp <= e
    ensures Value(Dec(r, e)) == Value(d)
  {
    ScaleKeepsValue(d.mant, d.exp, e - d.exp);
    d.mant * Pow10(e - d.exp)
  }

  /** Exact addition. */
  function Add(a: Dec, b: Dec): (r: Dec)
    ensures Value(r) == Value(a) + Value(b)
    ensures r.exp == if a.exp < b.exp then b.exp else a.exp
  {
    var e := if a.exp < b.exp then b.exp else a.exp;
    var ra, rb := Rescale(a, e), Rescale(b, e);
    AddSameExp(ra, rb, e);
    Dec(ra + rb, e)
  }

  /** Over a common denominator, numerators add. */
  lemma AddSameExp(x: int, y: int, e: nat)
    ensures Value(Dec(x + y, e)) == Value(Dec(x, e)) + Value(Dec(y, e))
  {
    var p := Pow10(e) as real;
    var a, b := x as real / p, y as real / p;
    assert a * p == x as real && b * p == y as real;
    assert (a + b) * p == (x + y) as real;
  }

  /** Multiplication by `10^k`, exactly: the result, read with `k` more
      fraction digits, is `d` again. */
  function Shift(d: Dec, k: nat): (r: Dec)
    ensures Value(Dec(r.mant, r.exp + k)) == Value(d)
    ensures r.exp <= d.exp
  {
    if k <= d.exp then
      Dec(d.mant, d.exp - k)
    else
      ScaleKeepsValue(d.mant, d.exp, k - d.exp);
      Dec(d.mant * Pow10(k - d.exp), 0)
  }

  /** No trailing zero in the fraction: the form in which the decimal
      library keeps its numbers. */
  predicate IsNormal(d: Dec) {
    d.exp == 0 || d.mant % 10 != 0
  }

  /** Drops trailing zeros of the fraction. */
  function Normalize(d: Dec): (r: Dec)
    ensures IsNormal(r)
    ensures Value(r) == Value(d)
    ensures r.exp <= d.exp
    decreases d.exp
  {
    if d.exp > 0 && d.mant % 10 == 0 then
      var q := d.mant / 10;
      assert d.mant == q * Pow10(1);
      ScaleKeepsValue(q, d.exp - 1, 1);
      Normalize(Dec(q, d.exp - 1))
    else
      d
  }

  // ---------------------------------------------------------------------
  // Digits

  predicate IsDigit(c: char) {
    '0' <= c <= '9'
  }

  predicate AllDigits(s: string) {
    forall i :: 0 <= i < |s| ==> IsDigit(s[i])
  }

  function DigitChar(n: nat): (c: char)
    requires n < 10
    ensures IsDigit(c)
  {
    ('0' as int + n) as char
  }

  function DigitValue(c: char): (n: nat)
    requires IsDigit(c)
    ensures n < 10
  {
    c as int - '0' as int
  }

  /** The number a digit string denotes (the empty string denotes 0). */
  function DigitsToNat(s: string): nat
    requires AllDigits(s)
  {
    if s == [] then 0 else 10 * DigitsToNat(s[..|s| - 1]) + DigitValue(s[|s| - 1])
  }

  /** The shortest digit string of a number. */
  function NatToDigits(n: nat): (r: string)
    ensures |r| > 0 && AllDigits(r)
  {
    if n < 10 then [DigitChar(n)] else NatToDigits(n / 10) + [DigitChar(n % 10)]
  }

  lemma {:induction false} DigitsRoundTrip(n: nat)
    ensures DigitsToNat(NatToDigits(n)) == n
  {
    if n >= 10 {
      var s := NatToDigits(n);
      assert s[..|s| - 1] == NatToDigits(n / 10);
      DigitsRoundTrip(n / 10);
    }
  }

  /** A number below `10^w` needs at most `w` digits. */
  lemma {:induction false} DigitsFit(n: nat, w: nat)
    requires w >= 1 && n < Pow10(w)
    ensures |NatToDigits(n)| <= w
  {
    if n >= 10 {
      assert Pow10(w) == 10 * Pow10(w - 1);
      assert n / 10 < Pow10(w - 1);
      assert Pow10(0) == 1;
      DigitsFit(n / 10, w - 1);
    }
  }

  function Zeros(k: nat): (r: string)
    ensures |r| == k && AllDigits(r)
    ensures forall i :: 0 <= i < k ==> r[i] == '0'
  {
    seq(k, i => '0')
  }

  /** Leading zeros do not change the number a digit string denotes. */
  lemma {:induction false} LeadingZeros(k: nat, s: string)
    requires AllDigits(s)
    ensures AllDigits(Zeros(k) + s)
    ensures DigitsToNat(Zeros(k) + s) == DigitsToNat(s)
  {
    var t := Zeros(k) + s;
    if s == [] {
      assert t == Zeros(k);
      if k > 0 {
        assert t[..|t| - 1] == Zeros(k - 1) + [];
        LeadingZeros(k - 1, []);
      }
    } else {
      assert t[..|t| - 1] == Zeros(k) + s[..|s| - 1];
      LeadingZeros(k, s[..|s| - 1]);
    }
  }

  /** The digits of `n` padded on the left with zeros to `w` places. */
  function PadDigits(n: nat, w: nat): (r: string)
    requires w >= 1 && n < Pow10(w)
    ensures |r| == w && AllDigits(r)
    ensures DigitsToNat(r) == n
  {
    DigitsFit(n, w);
    DigitsRoundTrip(n);
    LeadingZeros(w - |NatToDigits(n)|, NatToDigits(n));
    Zeros(w - |NatToDigits(n)|) + NatToDigits(n)
  }

  // ---------------------------------------------------------------------
  // Text

  /** Quotient and remainder, with the identity that links them. */
  function DivMod(n: nat, p: nat): (qr: (nat, nat))
    requires p > 0
    ensures qr.1 < p && qr.0 * p + qr.1 == n
  {
    (n / p, n % p)
  }

  /** Text of `n / 10^e` without sign, with exactly `e` fraction digits. */
  function UnsignedText(n: nat, e: nat): (r: string)
    ensures |r| > 0 && IsDigit(r[0])
  {
    var p := Pow10(e);
    var (q, r) := DivMod(n, p);
    var whole := NatToDigits(q);
    if e == 0 then whole
    else whole + "." + PadDigits(r, e)
  }

  /** Plain decimal text of `d` with exactly `d.exp` fraction digits. */
  function Render(d: Dec): string {
    WithSign(d.mant < 0, UnsignedText(Magnitude(d.mant), d.exp))
  }

  function Magnitude(m: int): nat {
    if m < 0 then -m else m
  }

  /** A minus sign in front of `u` when `negative`. */
  function WithSign(negative: bool, u: string): string {
    if negative then "-" + u else u
  }

  /** The decimal library's `toString()` for numbers whose exponent stays
      in plain-notation range. */
  function ToText(d: Dec): (r: string)
    ensures Parse(r) == Some(Normalize(d))
  {
    RenderRoundTrip(Normalize(d));
    Render(Normalize(d))
  }

  /** Position of the first `.` in `s`. */
  function FindDot(s: string): (r: Option<nat>)
    ensures r.Some? ==> r.value < |s| && s[r.value] == '.'
    ensures r.Some? ==> forall i :: 0 <= i < r.value ==> s[i] != '.'
    ensures r.None? ==> forall i :: 0 <= i < |s| ==> s[i] != '.'
  {
    if s == [] then None
    else if s[0] == '.' then Some(0)
    else match FindDot(s[1..])
      case Some(k) => Some(k + 1)
      case None => None
  }

  /** Unsigned decimal text: digits with at most one `.`, and at least one digit. */
  function ParseUnsigned(s: string): (r: Option<Dec>)
    ensures r.Some? ==> r.value.mant >= 0
  {
    match FindDot(s)
    case None =>
      if |s| > 0 && AllDigits(s) then Some(Dec(DigitsToNat(s), 0)) else None
    case Some(k) =>
      var w, f := s[..k], s[k + 1..];
      if AllDigits(w) && AllDigits(f) && |w| + |f| > 0 then
        Some(Dec(DigitsToNat(w) * Pow10(|f|) + DigitsToNat(f), |f|))
      else None
  }

  /** Reads decimal text with an optional sign. `None` stands for every text
      the decimal library would read as not-a-number. */
  function Parse(s: string): (r: Option<Dec>)
    ensures |s| == 0 ==> r.None?
    ensures |s| > 0 && AllDigits(s) ==> r == Some(Dec(DigitsToNat(s), 0))
    ensures r.Some? && s[0] == '-' ==> r.value.mant <= 0
    ensures r.Some? && s[0] != '-' ==> r.value.mant >= 0
  {
    if |s| > 0 && s[0] == '-' then
      match ParseUnsigned(s[1..])
      case Some(d) => Some(Dec(-d.mant, d.exp))
      case None => None
    else if |s| > 0 && s[0] == '+' then ParseUnsigned(s[1..])
    else ParseUnsigned(s)
  }

  lemma UnsignedRoundTrip(n: nat, e: nat)
    ensures ParseUnsigned(UnsignedText(n, e)) == Some(Dec(n, e))
  {
    var p := Pow10(e);
    var (q, r) := DivMod(n, p);
    var whole := NatToDigits(q);
    DigitsRoundTrip(q);
    if e == 0 {
      assert FindDot(whole) == None;
    } else {
      var frac := PadDigits(r, e);
      var u := whole + "." + frac;
      assert u == UnsignedText(n, e);
      DotAfterDigits(whole, frac);
      assert u[..|whole|] == whole;
      assert u[|whole| + 1..] == frac;
    }
  }

  lemma {:induction false} DotAfterDigits(w: string, f: string)
    requires AllDigits(w)
    ensures FindDot(w + "." + f) == Some(|w|)
  {
    if w != [] {
      assert (w + "." + f)[1..] == w[1..] + "." + f;
      DotAfterDigits(w[1..], f);
    }
  }

  /** Reading back the text of a decimal gives the same decimal. */
  lemma RenderRoundTrip(d: Dec)
    ensures Parse(Render(d)) == Some(d)
  {
    var n := Magnitude(d.mant);
    UnsignedRoundTrip(n, d.exp);
    SignedRoundTrip(d.mant < 0, UnsignedText(n, d.exp), Dec(n, d.exp));
  }

  /** A sign in front of unsigned text is read back as that sign. */
  lemma SignedRoundTrip(negative: bool, u: string, m: Dec)
    requires |u| > 0 && IsDigit(u[0])
    requires ParseUnsigned(u) == Some(m)
    ensures Parse(WithSign(negative, u)) == Some(if negative then Dec(-m.mant, m.exp) else m)
  {
    if negative {
      assert ("-" + u)[1..] == u;
    }
  }

  /** The text the decimal library prints reads back as the same number. */
  lemma ToTextRoundTrip(d: Dec)
    ensures Parse(ToText(d)).Some?
    ensures Parse(ToText(d)).value == Normalize(d)
    ensures Value(Parse(ToText(d)).value) == Value(d)
  {
    RenderRoundTrip(Normalize(d));
  }
}

=== FILE: error_patterns.dfy ===
/** The message patterns the form validator uses to recognise a failure
    caused by missing gas funds. */
module ErrorPatterns {
  import opened Strings

  const InsufficientWord := "insufficient"

  /** Characters a JavaScript `.` does not match. */
  predicate IsLineTerminator(c: char) {
    c == '\n' || c == '\r' || c == '\U{2028}' || c == '\U{2029}'
  }

  /** The characters the bracket `[funds|lamports]` admits: a bracket is a
      character class, so this is one character out of these thirteen. */
  const ClassChars: set<char> := {'f', 'u', 'n', 'd', 's', '|', 'l', 'a', 'm', 'p', 'o', 'r', 't'}

  /** `/insufficient.[funds|lamports]/i` as written: "insufficient", any
      character but a line terminator, then one character of the class. */
  predicate InsufficientFundsAsWritten(s: string) {
    var l := ToLower(s);
    exists i :: 0 <= i <= |l| && OccursAt(l, InsufficientWord, i) && i + 14 <= |l|
      && !IsLineTerminator(l[i + 12]) && l[i + 13] in ClassChars
  }

  /** The same pattern as evidently intended, `/insufficient.(funds|lamports)/i`:
      "insufficient", one character, then the word "funds" or "lamports". */
  predicate InsufficientFundsIntended(s: string) {
    var l := ToLower(s);
    exists i :: 0 <= i <= |l| && OccursAt(l, InsufficientWord, i) && i + 13 <= |l|
      && !IsLineTerminator(l[i + 12]) && (OccursAt(l, "funds", i + 13) || OccursAt(l, "lamports", i + 13))
  }

  /** `/AccountNotFound/i` */
  predicate AccountNotFound(s: string) {
    Contains(ToLower(s), "accountnotfound")
  }

  /** Every message the intended pattern recognises, the written one recognises too. */
  lemma IntendedImpliesAsWritten(s: string)
    requires InsufficientFundsIntended(s)
    ensures InsufficientFundsAsWritten(s)
  {
    var l := ToLower(s);
    var i :| 0 <= i <= |l| && OccursAt(l, InsufficientWord, i) && i + 13 <= |l|
      && !IsLineTerminator(l[i + 12]) && (OccursAt(l, "funds", i + 13) || OccursAt(l, "lamports", i + 13));
    if OccursAt(l, "funds", i + 13) {
      assert l[i + 13] == "funds"[0];
    } else {
      assert l[i + 13] == "lamports"[0];
    }
  }

  /** Lower-cased, `s` starts with "insufficient", then any character but a
      line terminator, then `next`. */
  predicate StartsInsufficient(s: string, next: char) {
    |s| >= 14
    && (forall j :: 0 <= j < 12 ==> LowerChar(s[j]) == InsufficientWord[j])
    && !IsLineTerminator(LowerChar(s[12])) && LowerChar(s[13]) == next
  }

  /** Lower-cased, "in" occurs in `s` only at its start. */
  predicate InOnlyAtStart(s: string) {
    forall i :: 0 <= i && i + 2 <= |s| && LowerChar(s[i]) == 'i' && LowerChar(s[i + 1]) == 'n' ==> i == 0
  }

  /** Lower-cased, no "a" in `s` starts early enough to begin "accountnotfound". */
  predicate NoEarlyA(s: string) {
    forall i :: 0 <= i && i + 15 <= |s| ==> LowerChar(s[i]) != 'a'
  }

  /** The written pattern recognises every text that starts with
      "insufficient", a character, and a character of the class. */
  lemma AsWrittenAtStart(s: string, next: char)
    requires StartsInsufficient(s, next) && next in ClassChars
    ensures InsufficientFundsAsWritten(s)
  {
    var l := ToLower(s);
    assert forall j :: 0 <= j < 12 ==> l[..12][j] == InsufficientWord[j];
    assert l[..12] == InsufficientWord;
    assert OccursAt(l, InsufficientWord, 0);
  }

  /** The intended pattern rejects a text whose only "insufficient" is at the
      start and is followed by a character and then `next`, when `next`
      begins neither "funds" nor "lamports". */
  lemma NotIntendedAtStart(s: string, next: char)
    requires StartsInsufficient(s, next) && InOnlyAtStart(s) && next != 'f' && next != 'l'
    ensures !InsufficientFundsIntended(s)
  {
    var l := ToLower(s);
    forall i | 0 <= i <= |l| && OccursAt(l, InsufficientWord, i) && i + 13 <= |l|
      ensures !(OccursAt(l, "funds", i + 13) || OccursAt(l, "lamports", i + 13))
    {
      assert l[i..i + 12][0] == l[i] && l[i..i + 12][1] == l[i + 1];
      assert LowerChar(s[i]) == 'i' && LowerChar(s[i + 1]) == 'n';
      FirstCharMismatch(l, "funds", 13);
      FirstCharMismatch(l, "lamports", 13);
    }
  }

  /** The account pattern rejects a text with no early "a". */
  lemma NoAccountWithoutEarlyA(s: string)
    requires NoEarlyA(s)
    ensures !AccountNotFound(s)
  {
    var l := ToLower(s);
    forall i | 0 <= i <= |l| ensures !OccursAt(l, "accountnotfound", i) {
      if i + 15 <= |l| {
        FirstCharMismatch(l, "accountnotfound", i);
      }
    }
  }

  const AllowanceMessage := "insufficient allowance"

  /** The text the form matches when the error's summary is the allowance
      message and its own message is empty: the summary and a space. */
  const AllowanceFormText := AllowanceMessage + " "

  lemma AllowancePrefixAt(j: nat)
    requires j < 12
    ensures LowerChar(AllowanceMessage[j]) == InsufficientWord[j]
  {
  }

  lemma AllowanceInAt(i: nat)
    requires i + 2 <= |AllowanceMessage|
    requires LowerChar(AllowanceMessage[i]) == 'i' && LowerChar(AllowanceMessage[i + 1]) == 'n'
    ensures i == 0
  {
  }

  lemma AllowanceNoEarlyAAt(i: nat)
    requires i < 9
    ensures LowerChar(AllowanceMessage[i]) != 'a'
  {
  }

  lemma AllowanceMessageShape()
    ensures StartsInsufficient(AllowanceMessage, 'a') && InOnlyAtStart(AllowanceMessage)
  {
    var s := AllowanceMessage;
    forall j | 0 <= j < 12 ensures LowerChar(s[j]) == InsufficientWord[j] {
      AllowancePrefixAt(j);
    }
    assert LowerChar(s[12]) == ' ' && LowerChar(s[13]) == 'a';
    forall i | 0 <= i && i + 2 <= |s| && LowerChar(s[i]) == 'i' && LowerChar(s[i + 1]) == 'n' ensures i == 0 {
      AllowanceInAt(i);
    }
  }

  /** The form text is the message with a space after it, so it has the same shape. */
  lemma AllowanceFormTextShape()
    ensures StartsInsufficient(AllowanceFormText, 'a') && InOnlyAtStart(AllowanceFormText)
    ensures NoEarlyA(AllowanceFormText)
  {
    var m, t := AllowanceMessage, AllowanceFormText;
    AllowanceMessageShape();
    assert |t| == |m| + 1 && t[|m|] == ' ';
    assert forall j :: 0 <= j < |m| ==> t[j] == m[j];
    forall i | 0 <= i && i + 2 <= |t| && LowerChar(t[i]) == 'i' && LowerChar(t[i + 1]) == 'n' ensures i == 0 {
      if i + 2 <= |m| {
        AllowanceInAt(i);
      }
    }
    forall i | 0 <= i && i + 15 <= |t| ensures LowerChar(t[i]) != 'a' {
      AllowanceNoEarlyAAt(i);
    }
  }

  /** The written pattern also recognises an allowance failure, which has
      nothing to do with gas funds: the character after the space is `a`. */
  lemma AllowanceMessageMisread()
    ensures InsufficientFundsAsWritten(AllowanceMessage)
    ensures !InsufficientFundsIntended(AllowanceMessage)
  {
    AllowanceMessageShape();
    AsWrittenAtStart(AllowanceMessage, 'a');
    NotIntendedAtStart(AllowanceMessage, 'a');
  }

  /** The written pattern reads the allowance failure as missing gas funds;
      the intended one, and the account pattern, do not. */
  lemma AllowanceFormTextMisread()
    ensures InsufficientFundsAsWritten(AllowanceFormText)
    ensures !InsufficientFundsIntended(AllowanceFormText)
    ensures !AccountNotFound(AllowanceFormText)
  {
    AllowanceFormTextShape();
    AsWrittenAtStart(AllowanceFormText, 'a');
    NotIntendedAtStart(AllowanceFormText, 'a');
    NoAccountWithoutEarlyA(AllowanceFormText);
  }
}

=== FILE: executor.dfy ===
/** `executeTransfer`: one run of a warp transfer, from the button press to
    the last status update, as the sequence of effects it has on the UI and
    the transfer history. The wallet, the SDK and the chains answer through
    the oracles in `WalletEnv`. */
module Executor {
  import opened Wrappers
  import opened Strings
  import opened Decimal
  import opened AppConfig
  import opened Tokens
  import opened PruvFee
  import opened TransferTypes

  datatype TxCategory = Approval | Revoke | Transfer

  /** Only the Starknet provider type changes how transactions are sent. */
  datatype ProviderType = Starknet | OtherProvider(name: string)

  /** What the USDC contract on the origin is asked to approve: `spender`
      may take `amount` smallest units of the USDC token at `token`. */
  datatype ApprovalRequest = ApprovalRequest(chain: string, token: string, spender: string, amount: Dec)

  datatype Payload =
    | Remote(id: string)
    | Approve(request: ApprovalRequest, populated: string)

  datatype Tx = Tx(category: TxCategory, provider: ProviderType, payload: Payload)

  type Receipt = string

  /** The amount handed to the SDK: smallest units, or the id of an NFT. */
  datatype TokenAmount = Units(wei: int) | TokenId(id: string)

  /** The effects a run has, in order. `ConfirmedWith` is the status update
      to `ConfirmedTransfer` that also carries the transfer's details;
      `ErrorNotice` and `SentNotice` are the error and success toasts. */
  datatype Event =
    | LoadingSet(on: bool)
    | StatusSet(status: TransferStatus)
    | TransferAdded(context: TransferContext)
    | ConfirmedWith(originTxHash: Option<string>, msgId: Option<string>)
    | ErrorNotice(message: string)
    | SentNotice(category: TxCategory, hash: string)
    | DoneCalled

  /** Everything a run asks of the SDK, the wallet and the chains. */
  datatype WalletEnv = WalletEnv(
    registry: seq<Token>,
    /** Decimal text to smallest units; may throw. A typed negative amount gives a negative count. */
    toWei: (string, nat) -> Fallible<int>,
    /** The connected account on the origin chain, if any. */
    sender: Option<string>,
    /** `isDestinationCollateralSufficient`; may throw. */
    collateralSufficient: (TokenAmount, string) -> Fallible<bool>,
    /** `getTransferRemoteTxs(amount, destination, sender, recipient)`; may throw. */
    remoteTxs: (TokenAmount, string, string, string) -> Fallible<seq<Tx>>,
    /** The provider type of the origin chain. */
    originProvider: ProviderType,
    /** `populateApproveTx` on the USDC contract; may throw. */
    populateApprove: ApprovalRequest -> Fallible<string>,
    /** Signing and sending the transaction at a position of the list, and waiting for it. */
    send: (nat, Tx) -> Fallible<string>,
    confirm: (nat, Tx) -> Fallible<Receipt>,
    /** The same for the whole list sent as one batch. */
    sendBatch: seq<Tx> -> Fallible<string>,
    confirmBatch: seq<Tx> -> Fallible<Receipt>,
    /** `tryGetMsgIdFromTransferReceipt` */
    msgIdOf: Receipt -> Option<string>,
    /** The origin chain's display name. */
    originDisplayName: string)

  /** Where a run stopped and what was thrown there. */
  datatype Stop = Stop(stage: TransferStatus, error: Failure)

  /** The part of a run inside the `try`: its effects, and where it threw, if it did. */
  datatype Attempt = Attempt(events: seq<Event>, stop: Option<Stop>)

  const NoRouteMessage := "No token route found between chains"
  const NoAccountMessage := "No active account found for origin chain"
  const CollateralNotice := "Insufficient collateral on destination for transfer"
  const CollateralMessage := "Insufficient destination collateral"
  const ChainMismatchMarker := "ChainMismatchError"
  const TimeoutMarker1 := "block height exceeded"
  const TimeoutMarker2 := "timeout"
  const WrongChainNotice := "Wallet must be connected to origin chain"
  const GenericNotice := "Unable to transfer tokens."

  /** `new Error(message)`, as it reports itself. */
  function ErrorOf(message: string): Failure {
    Failure(message, "Error: " + message)
  }

  /** `txCategoryToStatuses`: the signing and the confirming status of a category. */
  function CategoryStatuses(c: TxCategory): (TransferStatus, TransferStatus) {
    match c
    case Approval => (SigningApprove, ConfirmingApprove)
    case Revoke => (SigningRevoke, ConfirmingRevoke)
    case Transfer => (SigningTransfer, ConfirmingTransfer)
  }

  predicate IsSigning(s: TransferStatus) {
    s == SigningApprove || s == SigningRevoke || s == SigningTransfer
  }

  predicate IsConfirming(s: TransferStatus) {
    s == ConfirmingApprove || s == ConfirmingRevoke || s == ConfirmingTransfer
  }

  /** The signing status that belongs to a confirming status. */
  function SigningFor(s: TransferStatus): TransferStatus
    requires IsConfirming(s)
  {
    match s
    case ConfirmingApprove => SigningApprove
    case ConfirmingRevoke => SigningRevoke
    case _ => SigningTransfer
  }

  /** Each category's pair is a signing status and the confirming status that follows it. */
  lemma CategoryStatusesPaired(c: TxCategory)
    ensures IsSigning(CategoryStatuses(c).0) && IsConfirming(CategoryStatuses(c).1)
    ensures SigningFor(CategoryStatuses(c).1) == CategoryStatuses(c).0
  {
  }

  /** `errorMessages`: the toast for a failure at a stage; the revoke stages
      and the final statuses have none. */
  function StageMessage(s: TransferStatus): (r: Option<string>)
    ensures r.Some? <==> s in {Preparing, CreatingTxs, SigningApprove, ConfirmingApprove, SigningTransfer, ConfirmingTransfer}
  {
    match s
    case Preparing => Some("Error while preparing the transactions.")
    case CreatingTxs => Some("Error while creating the transactions.")
    case SigningApprove => Some("Error while signing the approve transaction.")
    case ConfirmingApprove => Some("Error while confirming the approve transaction.")
    case SigningTransfer => Some("Error while signing the transfer transaction.")
    case ConfirmingTransfer => Some("Error while confirming the transfer transaction.")
    case _ => None
  }

  /** `error.message || error.toString()` */
  function ErrorDetails(e: Failure): string {
    if e.message != "" then e.message else e.text
  }

  function TimeoutNotice(chainName: string): string {
    "Transaction timed out, " + chainName + " may be busy. Please try again."
  }

  /** The toast shown when a run fails. */
  function FailureNotice(stage: TransferStatus, details: string, chainName: string): (r: string)
    ensures Contains(details, ChainMismatchMarker) ==> r == WrongChainNotice
    ensures !Contains(details, ChainMismatchMarker) && (Contains(details, TimeoutMarker1) || Contains(details, TimeoutMarker2)) ==>
      r == TimeoutNotice(chainName)
    ensures !Contains(details, ChainMismatchMarker) && !Contains(details, TimeoutMarker1) && !Contains(details, TimeoutMarker2) ==>
      r == StageMessage(stage).GetOr(GenericNotice)
  {
    if Contains(details, ChainMismatchMarker) then WrongChainNotice
    else if Contains(details, TimeoutMarker1) || Contains(details, TimeoutMarker2) then TimeoutNotice(chainName)
    else StageMessage(stage).GetOr(GenericNotice)
  }

  /** A failure during a revoke, or one whose stage has no message, gets the generic toast. */
  lemma UnlistedStagesGetGenericNotice(stage: TransferStatus, details: string, chainName: string)
    requires stage in {SigningRevoke, ConfirmingRevoke, ConfirmedTransfer, Failed}
    requires !Contains(details, ChainMismatchMarker) && !Contains(details, TimeoutMarker1) && !Contains(details, TimeoutMarker2)
    ensures FailureNotice(stage, details, chainName) == GenericNotice
  {
  }

  /** The selected token and the token it reaches on the destination. */
  function RouteOf(registry: seq<Token>, values: FormValues): (r: Option<(Token, Token)>)
    ensures r.Some? <==> TokenAt(registry, values.tokenIndex).Some? && ConnectionFor(TokenAt(registry, values.tokenIndex).value, values.destination).Some?
    ensures r.Some? ==> r.value.0 == registry[values.tokenIndex.value] && Some(r.value.1) == ConnectionFor(r.value.0, values.destination)
  {
    match TokenAt(registry, values.tokenIndex)
    case None => None
    case Some(token) =>
      match ConnectionFor(token, values.destination)
      case None => None
      case Some(connection) => Some((token, connection))
  }

  /** The amount the transfer sends: an NFT's id as typed; otherwise the typed
      amount with the pruv USDC bonus added, in smallest units. */
  function AmountFor(cfg: Config, env: WalletEnv, values: FormValues, token: Token): (r: Fallible<TokenAmount>)
    ensures token.standard.nft ==> r == Ok(TokenId(values.amount))
    ensures !token.standard.nft && r.Ok? ==> (r.value.Units? &&
      env.toWei(AmountWithUsdcBonus(cfg, values.amount, values.origin, values.destination, Some(token.symbol)), token.decimals) == Ok(r.value.wei))
    ensures !token.standard.nft ==>
      (r.Ok? <==> env.toWei(AmountWithUsdcBonus(cfg, values.amount, values.origin, values.destination, Some(token.symbol)), token.decimals).Ok?)
  {
    if token.standard.nft then Ok(TokenId(values.amount))
    else
      match env.toWei(AmountWithUsdcBonus(cfg, values.amount, values.origin, values.destination, Some(token.symbol)), token.decimals)
      case Threw(e) => Threw(e)
      case Ok(wei) => Ok(Units(wei))
  }

  /** The extra USDC approval a transfer of a token other than USDC needs when
      it leaves the pruv chains with a positive fee: the token's router may
      take the fee, in USDC's smallest units. */
  function ApprovalFor(cfg: Config, values: FormValues, token: Token): (r: Option<ApprovalRequest>)
    ensures r.Some? <==>
      LeavesPruv(cfg, values.origin, values.destination) && token.symbol != UsdcSymbol && Value(OriginFeeUsdc(cfg, values.destination)) > 0.0
    ensures r.Some? ==>
      && r.value.chain == values.origin
      && r.value.token == cfg.pruvUsdcAddress
      && r.value.spender == token.addressOrDenom
      && Value(Dec(r.value.amount.mant, r.value.amount.exp + cfg.pruvUsdcDecimals)) == Value(OriginFeeUsdc(cfg, values.destination))
  {
    if LeavesPruv(cfg, values.origin, values.destination) && token.symbol != UsdcSymbol then
      var fee := OriginFeeUsdc(cfg, values.destination);
      if Value(fee) > 0.0 then
        Some(ApprovalRequest(values.origin, cfg.pruvUsdcAddress, token.addressOrDenom, Shift(fee, cfg.pruvUsdcDecimals)))
      else None
    else None
  }

  /** The SDK's transactions, with the USDC approval put first when one is needed. */
  function WithApproval(cfg: Config, env: WalletEnv, values: FormValues, token: Token, remote: seq<Tx>): (r: Fallible<seq<Tx>>)
    ensures ApprovalFor(cfg, values, token).None? ==> r == Ok(remote)
    ensures ApprovalFor(cfg, values, token).Some? && r.Ok? ==>
      && |r.value| == |remote| + 1
      && r.value[1..] == remote
      && r.value[0].category == Approval
      && r.value[0].provider == env.originProvider
      && r.value[0].payload.Approve?
      && r.value[0].payload.request == ApprovalFor(cfg, values, token).value
  {
    match ApprovalFor(cfg, values, token)
    case None => Ok(remote)
    case Some(request) =>
      match env.populateApprove(request)
      case Threw(e) => Threw(e)
      case Ok(populated) => Ok([Tx(Approval, env.originProvider, Approve(request, populated))] + remote)
  }

  /** The approval is for non-USDC tokens and the bonus for USDC, so a
      transfer never gets both. */
  lemma ApprovalAndBonusExclusive(cfg: Config, values: FormValues, token: Token)
    ensures !(ApprovalFor(cfg, values, token).Some? && ShouldApplyUsdcBonus(cfg, values.origin, values.destination, Some(token.symbol)))
  {
  }

  /** Sends go in one batch only for several transactions that are all Starknet ones. */
  predicate Batched(txs: seq<Tx>) {
    |txs| > 1 && forall i :: 0 <= i < |txs| ==> txs[i].provider == Starknet
  }

  /** The effects of sending, the hashes sent, the last receipt and where it threw. */
  datatype Sends = Sends(events: seq<Event>, hashes: seq<string>, receipt: Option<Receipt>, stop: Option<Stop>)

  /** Every confirming status is set right after the matching signing status. */
  predicate SigningPrecedesConfirming(events: seq<Event>) {
    forall i :: 0 <= i < |events| && events[i].StatusSet? && IsConfirming(events[i].status) ==>
      0 < i && events[i - 1] == StatusSet(SigningFor(events[i].status))
  }

  lemma SigningPrecedesConfirmingConcat(a: seq<Event>, b: seq<Event>)
    requires SigningPrecedesConfirming(a) && SigningPrecedesConfirming(b)
    ensures SigningPrecedesConfirming(a + b)
  {
    forall i | 0 <= i < |a + b| && (a + b)[i].StatusSet? && IsConfirming((a + b)[i].status)
      ensures 0 < i && (a + b)[i - 1] == StatusSet(SigningFor((a + b)[i].status))
    {
      if i >= |a| {
        assert (a + b)[i] == b[i - |a|];
        assert (a + b)[i - 1] == b[i - |a| - 1];
      }
    }
  }

  /** The only effects of sending: signing and confirming statuses and success toasts. */
  predicate SendEffects(events: seq<Event>) {
    forall i :: 0 <= i < |events| ==>
      (events[i].StatusSet? && (IsSigning(events[i].status) || IsConfirming(events[i].status))) || events[i].SentNotice?
  }

  /** A failure while sending is at a signing or a confirming stage. */
  predicate SendStage(stop: Option<Stop>) {
    stop.Some? ==> IsSigning(stop.value.stage) || IsConfirming(stop.value.stage)
  }

  /** The transactions from position `k` on, one after the other: the signing
      status, the send, the confirming status, the wait, the success toast. */
  function SendEach(env: WalletEnv, txs: seq<Tx>, k: nat, last: Option<Receipt>): (r: Sends)
    requires k <= |txs|
    ensures SigningPrecedesConfirming(r.events)
    ensures SendEffects(r.events)
    ensures SendStage(r.stop)
    ensures |r.hashes| <= |txs| - k
    ensures r.stop.None? ==> |r.hashes| == |txs| - k
    ensures forall j :: 0 <= j < |r.hashes| ==> env.send(k + j, txs[k + j]) == Ok(r.hashes[j])
    ensures r.stop.None? && k < |txs| ==> r.receipt.Some? && env.confirm(|txs| - 1, txs[|txs| - 1]) == Ok(r.receipt.value)
    ensures r.stop.None? && k == |txs| ==> r.receipt == last
    decreases |txs| - k
  {
    if k == |txs| then Sends([], [], last, None)
    else
      var tx := txs[k];
      var (signing, confirming) := CategoryStatuses(tx.category);
      CategoryStatusesPaired(tx.category);
      match env.send(k, tx)
      case Threw(e) => Sends([StatusSet(signing)], [], None, Some(Stop(signing, e)))
      case Ok(hash) =>
        var sent := [StatusSet(signing), StatusSet(confirming)];
        match env.confirm(k, tx)
        case Threw(e) => Sends(sent, [], None, Some(Stop(confirming, e)))
        case Ok(receipt) =>
          var rest := SendEach(env, txs, k + 1, Some(receipt));
          var step := sent + [SentNotice(tx.category, hash)];
          SigningPrecedesConfirmingConcat(step, rest.events);
          Sends(step + rest.events, [hash] + rest.hashes, rest.receipt, rest.stop)
  }

  /** How sending the transaction at `n` failed: its signing status and a
      failed send, or both its statuses, a send and a failed wait. */
  predicate FailedStep(env: WalletEnv, txs: seq<Tx>, n: nat, tail: seq<Event>, stop: Stop) {
    n < |txs| &&
    var (signing, confirming) := CategoryStatuses(txs[n].category);
    || (env.send(n, txs[n]).Threw? && tail == [StatusSet(signing)] && stop == Stop(signing, env.send(n, txs[n]).error))
    || (&& env.send(n, txs[n]).Ok? && env.confirm(n, txs[n]).Threw?
        && tail == [StatusSet(signing), StatusSet(confirming)] && stop == Stop(confirming, env.confirm(n, txs[n]).error))
  }

  /** The effects of sending one transaction of category `c` that went through. */
  function StepEvents(c: TxCategory, hash: string): seq<Event> {
    [StatusSet(CategoryStatuses(c).0), StatusSet(CategoryStatuses(c).1), SentNotice(c, hash)]
  }

  /** The j-th hash belongs to the transaction at `k + j`, and the effects
      hold, three per transaction, that transaction's own signing status,
      its confirming status and its success toast. */
  predicate SentInOrder(txs: seq<Tx>, k: nat, events: seq<Event>, hashes: seq<string>) {
    forall j :: 0 <= j < |hashes| ==> SentAt(txs, k, events, hashes, j)
  }

  predicate SentAt(txs: seq<Tx>, k: nat, events: seq<Event>, hashes: seq<string>, j: nat)
    requires j < |hashes|
  {
    && k + j < |txs| && 3 * j + 2 < |events|
    && events[3 * j] == StatusSet(CategoryStatuses(txs[k + j].category).0)
    && events[3 * j + 1] == StatusSet(CategoryStatuses(txs[k + j].category).1)
    && events[3 * j + 2] == SentNotice(txs[k + j].category, hashes[j])
  }

  lemma SentInOrderCons(txs: seq<Tx>, k: nat, hash: string, events: seq<Event>, hashes: seq<string>)
    requires k < |txs|
    requires SentInOrder(txs, k + 1, events, hashes)
    ensures SentInOrder(txs, k, StepEvents(txs[k].category, hash) + events, [hash] + hashes)
  {
    var ev, hs := StepEvents(txs[k].category, hash) + events, [hash] + hashes;
    forall j | 0 <= j < |hs| ensures SentAt(txs, k, ev, hs, j) {
      if j > 0 {
        assert SentAt(txs, k + 1, events, hashes, j - 1);
        assert hs[j] == hashes[j - 1];
        assert k + j == (k + 1) + (j - 1);
        assert ev[3 * j] == events[3 * (j - 1)];
        assert ev[3 * j + 1] == events[3 * (j - 1) + 1];
        assert ev[3 * j + 2] == events[3 * (j - 1) + 2];
      }
    }
  }

  /** Sending one by one: every transaction sent got its own category's
      signing status, then its confirming status, then its success toast;
      a failure happened at the next transaction, under that transaction's
      category, and nothing was sent after it. */
  lemma {:induction false} SendEachFollowsCategories(env: WalletEnv, txs: seq<Tx>, k: nat, last: Option<Receipt>)
    requires k <= |txs|
    ensures FollowsCategories(env, txs, k, SendEach(env, txs, k, last))
    decreases |txs| - k
  {
    var r := SendEach(env, txs, k, last);
    if k < |txs| {
      var tx := txs[k];
      if env.send(k, tx).Ok? && env.confirm(k, tx).Ok? {
        var hash, receipt := env.send(k, tx).value, env.confirm(k, tx).value;
        SendEachFollowsCategories(env, txs, k + 1, Some(receipt));
        var rest := SendEach(env, txs, k + 1, Some(receipt));
        assert r.events == StepEvents(tx.category, hash) + rest.events;
        FollowsCategoriesCons(env, txs, k, hash, rest, r);
      } else {
        assert r.events[3 * |r.hashes|..] == r.events;
      }
    }
  }

  /** The sends from `k` on: the sent transactions' effects in order, then,
      on a stop, the effects of the step that failed. */
  predicate FollowsCategories(env: WalletEnv, txs: seq<Tx>, k: nat, r: Sends) {
    && SentInOrder(txs, k, r.events, r.hashes)
    && (r.stop.None? ==> |r.events| == 3 * |r.hashes|)
    && (r.stop.Some? ==>
          3 * |r.hashes| <= |r.events| && FailedStep(env, txs, k + |r.hashes|, r.events[3 * |r.hashes|..], r.stop.value))
  }

  /** One more successful step in front keeps the sends following their categories. */
  lemma FollowsCategoriesCons(env: WalletEnv, txs: seq<Tx>, k: nat, hash: string, rest: Sends, r: Sends)
    requires k < |txs|
    requires FollowsCategories(env, txs, k + 1, rest)
    requires r.events == StepEvents(txs[k].category, hash) + rest.events
    requires r.hashes == [hash] + rest.hashes && r.stop == rest.stop
    ensures FollowsCategories(env, txs, k, r)
  {
    SentInOrderCons(txs, k, hash, rest.events, rest.hashes);
    if r.stop.Some? {
      assert r.events[3 * |r.hashes|..] == rest.events[3 * |rest.hashes|..];
    }
  }

  /** The whole list in one batch, reported under the transfer statuses. */
  function SendBatch(env: WalletEnv, txs: seq<Tx>): (r: Sends)
    ensures SigningPrecedesConfirming(r.events)
    ensures SendEffects(r.events)
    ensures SendStage(r.stop)
    ensures r.stop.None? ==> |r.hashes| == 1 && env.sendBatch(txs) == Ok(r.hashes[0])
    ensures r.stop.None? ==> r.receipt.Some? && env.confirmBatch(txs) == Ok(r.receipt.value)
    ensures |r.events| > 0 && r.events[0] == StatusSet(SigningTransfer)
    ensures env.sendBatch(txs).Ok? ==> |r.events| > 1 && r.events[1] == StatusSet(ConfirmingTransfer)
    ensures env.sendBatch(txs).Threw? ==>
      r.events == [StatusSet(SigningTransfer)] && r.stop == Some(Stop(SigningTransfer, env.sendBatch(txs).error))
    ensures env.sendBatch(txs).Ok? && env.confirmBatch(txs).Threw? ==>
      r.stop == Some(Stop(ConfirmingTransfer, env.confirmBatch(txs).error))
    ensures forall i :: 0 <= i < |r.events| && r.events[i].StatusSet? ==>
      r.events[i].status == SigningTransfer || r.events[i].status == ConfirmingTransfer
    ensures r.stop.None? ==> r.events[|r.events| - 1] == SentNotice(Transfer, r.hashes[0])
  {
    match env.sendBatch(txs)
    case Threw(e) => Sends([StatusSet(SigningTransfer)], [], None, Some(Stop(SigningTransfer, e)))
    case Ok(hash) =>
      var sent := [StatusSet(SigningTransfer), StatusSet(ConfirmingTransfer)];
      match env.confirmBatch(txs)
      case Threw(e) => Sends(sent, [], None, Some(Stop(ConfirmingTransfer, e)))
      case Ok(receipt) => Sends(sent + [SentNotice(Transfer, hash)], [hash], Some(receipt), None)
  }

  function SendAll(env: WalletEnv, txs: seq<Tx>): (r: Sends)
    ensures SigningPrecedesConfirming(r.events)
    ensures SendEffects(r.events)
    ensures SendStage(r.stop)
  {
    if Batched(txs) then SendBatch(env, txs) else SendEach(env, txs, 0, None)
  }

  /** Sending stops at the status it set last. */
  lemma SendAllStopsAtLastStatus(env: WalletEnv, txs: seq<Tx>)
    ensures SendAll(env, txs).stop.Some? ==> LastStatus(SendAll(env, txs).events) == Some(SendAll(env, txs).stop.value.stage)
  {
    if !Batched(txs) {
      SendEachStopsAtLastStatus(env, txs, 0, None);
    }
  }

  /** Sending one by one stops at the status it set last. */
  lemma {:induction false} SendEachStopsAtLastStatus(env: WalletEnv, txs: seq<Tx>, k: nat, last: Option<Receipt>)
    requires k <= |txs|
    ensures SendEach(env, txs, k, last).stop.Some? ==>
      LastStatus(SendEach(env, txs, k, last).events) == Some(SendEach(env, txs, k, last).stop.value.stage)
    decreases |txs| - k
  {
    var r := SendEach(env, txs, k, last);
    if k < |txs| && r.stop.Some? {
      var tx := txs[k];
      var (signing, confirming) := CategoryStatuses(tx.category);
      if env.send(k, tx).Threw? {
        assert r.events == [StatusSet(signing)] && r.stop.value.stage == signing;
      } else if env.confirm(k, tx).Threw? {
        assert r.events == [StatusSet(signing), StatusSet(confirming)] && r.stop.value.stage == confirming;
      } else {
        var hash, receipt := env.send(k, tx).value, env.confirm(k, tx).value;
        SendEachStopsAtLastStatus(env, txs, k + 1, Some(receipt));
        var rest := SendEach(env, txs, k + 1, Some(receipt));
        var step := StepEvents(tx.category, hash);
        assert r.events == step + rest.events;
        LastStatusConcat(step, rest.events);
      }
    }
  }

  /** `hashes.at(-1)` */
  function LastOf(s: seq<string>): (r: Option<string>)
    ensures r.Some? <==> |s| > 0
    ensures |s| > 0 ==> r.value == s[|s| - 1]
  {
    if |s| == 0 then None else Some(s[|s| - 1])
  }

  function MsgIdFor(env: WalletEnv, receipt: Option<Receipt>): Option<string> {
    match receipt
    case None => None
    case Some(rc) => env.msgIdOf(rc)
  }

  /** The history record added once the checks before sending have passed. */
  function ContextFor(values: FormValues, token: Token, connection: Token, sender: string): TransferContext {
    TransferContext(Preparing, values.origin, values.destination, token.addressOrDenom, connection.addressOrDenom,
                    sender, values.recipient, values.amount)
  }

  /** What the checks before sending establish. */
  datatype Ready = Ready(token: Token, connection: Token, amount: TokenAmount, sender: string)

  /** The outcome of a phase: go on with a value, or stop after some effects. */
  datatype Phase<T> = Proceed(value: T) | Halt(events: seq<Event>, stop: Stop)

  /** The checks before the transfer is recorded, all at the `Preparing`
      stage: a route, the amount, a connected sender, enough collateral on
      the destination. */
  function Prepare(cfg: Config, env: WalletEnv, values: FormValues): (r: Phase<Ready>)
    ensures r.Halt? ==> r.stop.stage == Preparing
    ensures r.Halt? ==> forall e :: e in r.events ==> e == ErrorNotice(CollateralNotice)
  {
    match RouteOf(env.registry, values)
    case None => Halt([], Stop(Preparing, ErrorOf(NoRouteMessage)))
    case Some((token, connection)) =>
      match AmountFor(cfg, env, values, token)
      case Threw(e) => Halt([], Stop(Preparing, e))
      case Ok(amount) =>
        if env.sender.None? || env.sender.value == "" then Halt([], Stop(Preparing, ErrorOf(NoAccountMessage)))
        else
          match env.collateralSufficient(amount, values.destination)
          case Threw(e) => Halt([], Stop(Preparing, e))
          case Ok(false) => Halt([ErrorNotice(CollateralNotice)], Stop(Preparing, ErrorOf(CollateralMessage)))
          case Ok(true) => Proceed(Ready(token, connection, amount, env.sender.value))
  }

  /** The checks `Prepare` passes are exactly a route, an amount, a non-empty
      sender and a destination that reports enough collateral for that amount. */
  lemma PrepareProceedsIffChecksPass(cfg: Config, env: WalletEnv, values: FormValues)
    ensures Prepare(cfg, env, values).Proceed? <==>
      && RouteOf(env.registry, values).Some?
      && AmountFor(cfg, env, values, RouteOf(env.registry, values).value.0).Ok?
      && env.sender.Some? && env.sender.value != ""
      && env.collateralSufficient(AmountFor(cfg, env, values, RouteOf(env.registry, values).value.0).value, values.destination) == Ok(true)
    ensures Prepare(cfg, env, values).Proceed? ==>
      var ready := Prepare(cfg, env, values).value;
      && (ready.token, ready.connection) == RouteOf(env.registry, values).value
      && ready.sender == env.sender.value
      && ready.amount == AmountFor(cfg, env, values, ready.token).value
  {
  }

  /** The transactions to send: the SDK's, with the USDC approval first when needed. */
  function CreateTxs(cfg: Config, env: WalletEnv, values: FormValues, ready: Ready): (r: Fallible<seq<Tx>>)
    ensures
      var remote := env.remoteTxs(ready.amount, values.destination, ready.sender, values.recipient);
      var approval := ApprovalFor(cfg, values, ready.token);
      r.Ok? <==> remote.Ok? && (approval.None? || env.populateApprove(approval.value).Ok?)
    ensures
      var remote := env.remoteTxs(ready.amount, values.destination, ready.sender, values.recipient);
      var approval := ApprovalFor(cfg, values, ready.token);
      && (remote.Threw? ==> r == Threw(remote.error))
      && (remote.Ok? && approval.Some? && env.populateApprove(approval.value).Threw? ==> r == Threw(env.populateApprove(approval.value).error))
      && (r.Ok? && approval.None? ==> r.value == remote.value)
      && (r.Ok? && approval.Some? ==>
            |r.value| == |remote.value| + 1 && r.value[1..] == remote.value
            && r.value[0] == Tx(Approval, env.originProvider, Approve(approval.value, env.populateApprove(approval.value).value)))
  {
    match env.remoteTxs(ready.amount, values.destination, ready.sender, values.recipient)
    case Threw(e) => Threw(e)
    case Ok(remote) => WithApproval(cfg, env, values, ready.token, remote)
  }

  /** The record added, and the status set, once `Prepare` has passed. */
  function Recorded(values: FormValues, ready: Ready): seq<Event> {
    [TransferAdded(ContextFor(values, ready.token, ready.connection, ready.sender)), StatusSet(CreatingTxs)]
  }

  /** After the record, the last status set is the last one the sends set,
      or `CreatingTxs` when they set none. */
  lemma RecordedLastStatus(values: FormValues, ready: Ready, sent: seq<Event>)
    ensures LastStatus([StatusSet(Preparing)] + (Recorded(values, ready) + sent)) ==
      if LastStatus(sent).Some? then LastStatus(sent) else Some(CreatingTxs)
  {
    var head := [StatusSet(Preparing)] + Recorded(values, ready);
    assert [StatusSet(Preparing)] + (Recorded(values, ready) + sent) == head + sent;
    assert StatusOf(head[|head| - 1]) == Some(CreatingTxs);
    LastStatusConcat(head, sent);
  }

  /** The part of a run inside the `try`. It stops at `Preparing` exactly
      when the checks of `Prepare` fail; later it can only stop while creating
      the transactions or at a signing or confirming stage. */
  function TryTransfer(cfg: Config, env: WalletEnv, values: FormValues): (r: Attempt)
    ensures Prepare(cfg, env, values).Halt? <==> r.stop.Some? && r.stop.value.stage == Preparing
    ensures r.stop.Some? ==>
      var st := r.stop.value.stage;
      st == Preparing || st == CreatingTxs || IsSigning(st) || IsConfirming(st)
  {
    match Prepare(cfg, env, values)
    case Halt(events, stop) => Attempt(events, Some(stop))
    case Proceed(ready) =>
      match CreateTxs(cfg, env, values, ready)
      case Threw(e) => Attempt(Recorded(values, ready), Some(Stop(CreatingTxs, e)))
      case Ok(txs) =>
        var sends := SendAll(env, txs);
        if sends.stop.Some? then Attempt(Recorded(values, ready) + sends.events, sends.stop)
        else Attempt(Recorded(values, ready) + sends.events + [ConfirmedWith(LastOf(sends.hashes), MsgIdFor(env, sends.receipt))], None)
  }

  /** Wherever the `try` throws, the stage it stops at is the status it set
      last (`Preparing` when it set none), which is what `transferStatus`
      holds when the `catch` reads it. */
  lemma TryTransferStopsAtLastStatus(cfg: Config, env: WalletEnv, values: FormValues)
    ensures TryTransfer(cfg, env, values).stop.Some? ==>
      LastStatus([StatusSet(Preparing)] + TryTransfer(cfg, env, values).events) == Some(TryTransfer(cfg, env, values).stop.value.stage)
  {
    match Prepare(cfg, env, values)
    case Halt(events, stop) =>
      assert forall i :: 0 <= i < |events| ==> events[i] in events;
      HaltLeavesPreparing(events);
    case Proceed(ready) =>
      match CreateTxs(cfg, env, values, ready)
      case Threw(e) =>
        RecordedLastStatus(values, ready, []);
      case Ok(txs) =>
        SendAllStopsAtLastStatus(env, txs);
        RecordedLastStatus(values, ready, SendAll(env, txs).events);
  }

  /** The effects `Prepare` leaves when it halts set no status, so `Preparing` stays the last one. */
  lemma {:induction false} HaltLeavesPreparing(events: seq<Event>)
    requires forall i :: 0 <= i < |events| ==> events[i] == ErrorNotice(CollateralNotice)
    ensures LastStatus([StatusSet(Preparing)] + events) == Some(Preparing)
    decreases |events|
  {
    var all := [StatusSet(Preparing)] + events;
    if |events| == 0 {
      assert StatusOf(all[|all| - 1]) == Some(Preparing);
    } else {
      var init := events[..|events| - 1];
      assert all[|all| - 1] == events[|events| - 1];
      assert StatusOf(all[|all| - 1]).None?;
      assert all[..|all| - 1] == [StatusSet(Preparing)] + init;
      HaltLeavesPreparing(init);
    }
  }

  /** The effects of the `catch`: the failed status and the error toast, the
      message chosen by the stage the run stopped at. */
  function CatchEvents(env: WalletEnv, stop: Option<Stop>): (r: seq<Event>)
    ensures stop.None? <==> r == []
    ensures stop.Some? ==> |r| == 2 && r[0] == StatusSet(Failed) && r[1].ErrorNotice?
    ensures stop.Some? ==>
      r[1] == ErrorNotice(FailureNotice(stop.value.stage, ErrorDetails(stop.value.error), env.originDisplayName))
  {
    match stop
    case None => []
    case Some(s) => [StatusSet(Failed), ErrorNotice(FailureNotice(s.stage, ErrorDetails(s.error), env.originDisplayName))]
  }

  /** `executeTransfer`: the whole run, with `hasOnDone` telling whether a
      completion callback was given. */
  function ExecuteTransfer(cfg: Config, env: WalletEnv, values: FormValues, hasOnDone: bool): (r: seq<Event>)
    ensures |r| >= 3 && r[0] == LoadingSet(true) && r[1] == StatusSet(Preparing)
    ensures hasOnDone ==> r[|r| - 1] == DoneCalled && r[|r| - 2] == LoadingSet(false)
    ensures !hasOnDone ==> r[|r| - 1] == LoadingSet(false)
  {
    Around(env, TryTransfer(cfg, env, values), hasOnDone)
  }

  /** The effects around the `try`: loading and `Preparing` before it, the
      `catch` after it, then loading cleared and the completion callback. */
  function Around(env: WalletEnv, attempt: Attempt, hasOnDone: bool): seq<Event> {
    [LoadingSet(true), StatusSet(Preparing)] + attempt.events + CatchEvents(env, attempt.stop)
      + [LoadingSet(false)] + (if hasOnDone then [DoneCalled] else [])
  }

  /** The status an effect sets, if it sets one. */
  function StatusOf(e: Event): Option<TransferStatus> {
    match e
    case StatusSet(st) => Some(st)
    case ConfirmedWith(_, _) => Some(ConfirmedTransfer)
    case _ => None
  }

  /** The status the transfer is left in by a sequence of effects. */
  function LastStatus(events: seq<Event>): Option<TransferStatus>
    decreases |events|
  {
    if |events| == 0 then None
    else if StatusOf(events[|events| - 1]).Some? then StatusOf(events[|events| - 1])
    else LastStatus(events[..|events| - 1])
  }

  lemma {:induction false} LastStatusConcat(a: seq<Event>, b: seq<Event>)
    ensures LastStatus(a + b) == if LastStatus(b).Some? then LastStatus(b) else LastStatus(a)
    decreases |b|
  {
    if |b| == 0 {
      assert a + b == a;
    } else {
      assert (a + b)[|a + b| - 1] == b[|b| - 1];
      assert (a + b)[..|a + b| - 1] == a + b[..|b| - 1];
      LastStatusConcat(a, b[..|b| - 1]);
    }
  }

  /** When the `try` throws, the run sets `Failed` and then shows the failure
      toast of the status the run had set last before it: the stage the
      `catch` reads from `transferStatus`. */
  lemma FailureToastNamesLastStage(cfg: Config, env: WalletEnv, values: FormValues, hasOnDone: bool)
    requires TryTransfer(cfg, env, values).stop.Some?
    ensures
      var ev := ExecuteTransfer(cfg, env, values, hasOnDone);
      var stop := TryTransfer(cfg, env, values).stop.value;
      var n := 2 + |TryTransfer(cfg, env, values).events|;
      && n + 1 < |ev|
      && ev[n] == StatusSet(Failed)
      && LastStatus(ev[..n]) == Some(stop.stage)
      && ev[n + 1] == ErrorNotice(FailureNotice(LastStatus(ev[..n]).value, ErrorDetails(stop.error), env.originDisplayName))
  {
    var attempt := TryTransfer(cfg, env, values);
    TryTransferStopsAtLastStatus(cfg, env, values);
    assert ExecuteTransfer(cfg, env, values, hasOnDone) == Around(env, attempt, hasOnDone);
    AroundFailureToast(env, attempt, hasOnDone);
  }

  /** Around a `try` that threw: `Failed`, then the toast of the stop's stage,
      right after the `try`'s effects. */
  lemma AroundFailureToast(env: WalletEnv, attempt: Attempt, hasOnDone: bool)
    requires attempt.stop.Some?
    ensures
      var ev := Around(env, attempt, hasOnDone);
      var n := 2 + |attempt.events|;
      && n + 1 < |ev|
      && ev[n] == StatusSet(Failed)
      && ev[..n] == [LoadingSet(true)] + ([StatusSet(Preparing)] + attempt.events)
      && LastStatus(ev[..n]) == LastStatus([StatusSet(Preparing)] + attempt.events)
      && ev[n + 1] == ErrorNotice(FailureNotice(attempt.stop.value.stage, ErrorDetails(attempt.stop.value.error), env.originDisplayName))
  {
    var ev := Around(env, attempt, hasOnDone);
    var n := 2 + |attempt.events|;
    var before := [StatusSet(Preparing)] + attempt.events;
    var tail := CatchEvents(env, attempt.stop) + [LoadingSet(false)] + (if hasOnDone then [DoneCalled] else []);
    assert ev == [LoadingSet(true)] + before + tail;
    assert ev[..n] == [LoadingSet(true)] + before;
    LastStatusConcat([LoadingSet(true)], before);
    assert LastStatus([LoadingSet(true)]) == LastStatus([]);
    assert ev[n] == tail[0] && ev[n + 1] == tail[1];
  }

  /** A run leaves the transfer confirmed when nothing threw, and failed otherwise. */
  lemma RunEndsConfirmedOrFailed(cfg: Config, env: WalletEnv, values: FormValues, hasOnDone: bool)
    ensures LastStatus(ExecuteTransfer(cfg, env, values, hasOnDone)) ==
      Some(if TryTransfer(cfg, env, values).stop.None? then ConfirmedTransfer else Failed)
  {
    var attempt := TryTransfer(cfg, env, values);
    if attempt.stop.None? {
      AttemptEndsConfirmed(cfg, env, values);
    }
    AroundLastStatus(env, attempt, hasOnDone);
  }

  /** A `try` that threw nothing ends with the confirmation. */
  lemma AttemptEndsConfirmed(cfg: Config, env: WalletEnv, values: FormValues)
    requires TryTransfer(cfg, env, values).stop.None?
    ensures var ev := TryTransfer(cfg, env, values).events;
      |ev| > 0 && StatusOf(ev[|ev| - 1]) == Some(ConfirmedTransfer)
  {
  }

  /** Around a `try`, the last status is the confirmation it ended with, or `Failed` from the `catch`. */
  lemma AroundLastStatus(env: WalletEnv, attempt: Attempt, hasOnDone: bool)
    requires attempt.stop.None? ==>
      |attempt.events| > 0 && StatusOf(attempt.events[|attempt.events| - 1]) == Some(ConfirmedTransfer)
    ensures LastStatus(Around(env, attempt, hasOnDone)) == Some(if attempt.stop.None? then ConfirmedTransfer else Failed)
  {
    var start := [LoadingSet(true), StatusSet(Preparing)];
    var c := CatchEvents(env, attempt.stop);
    var tail := [LoadingSet(false)] + (if hasOnDone then [DoneCalled] else []);
    assert Around(env, attempt, hasOnDone) == (start + attempt.events + c) + tail;
    TailSetsNoStatus(hasOnDone);
    LastStatusConcat(start + attempt.events + c, tail);
    LastStatusConcat(start + attempt.events, c);
    if attempt.stop.None? {
      assert c == [];
      var ev := attempt.events;
      assert LastStatus(ev) == Some(ConfirmedTransfer);
      LastStatusConcat(start, ev);
    } else {
      assert c[..|c| - 1] == [StatusSet(Failed)];
    }
  }

  lemma TailSetsNoStatus(hasOnDone: bool)
    ensures LastStatus([LoadingSet(false)] + (if hasOnDone then [DoneCalled] else [])) == None
  {
    var tail := [LoadingSet(false)] + (if hasOnDone then [DoneCalled] else []);
    assert tail[..|tail| - 1] == [] || tail[..|tail| - 1] == [LoadingSet(false)];
    assert LastStatus([LoadingSet(false)]) == LastStatus([]);
  }

  /** No effect that sets a confirming status. */
  predicate NoConfirming(events: seq<Event>) {
    forall i :: 0 <= i < |events| ==> !(events[i].StatusSet? && IsConfirming(events[i].status))
  }

  /** Throughout a run, each confirming status comes right after its signing status. */
  lemma RunStatusesPaired(cfg: Config, env: WalletEnv, values: FormValues, hasOnDone: bool)
    ensures SigningPrecedesConfirming(ExecuteTransfer(cfg, env, values, hasOnDone))
  {
    AttemptStatusesPaired(cfg, env, values);
    AroundKeepsPairing(env, TryTransfer(cfg, env, values), hasOnDone);
  }

  /** Inside the `try`, each confirming status comes right after its signing status. */
  lemma AttemptStatusesPaired(cfg: Config, env: WalletEnv, values: FormValues)
    ensures SigningPrecedesConfirming(TryTransfer(cfg, env, values).events)
  {
    match Prepare(cfg, env, values)
    case Halt(events, stop) =>
      assert NoConfirming(events);
    case Proceed(ready) =>
      assert NoConfirming(Recorded(values, ready));
      match CreateTxs(cfg, env, values, ready)
      case Threw(e) =>
      case Ok(txs) =>
        var sends := SendAll(env, txs);
        SigningPrecedesConfirmingConcat(Recorded(values, ready), sends.events);
        if sends.stop.None? {
          var done := [ConfirmedWith(LastOf(sends.hashes), MsgIdFor(env, sends.receipt))];
          assert NoConfirming(done);
          SigningPrecedesConfirmingConcat(Recorded(values, ready) + sends.events, done);
        }
  }

  /** The effects around the `try` set no confirming status, so they keep the pairing. */
  lemma AroundKeepsPairing(env: WalletEnv, attempt: Attempt, hasOnDone: bool)
    requires SigningPrecedesConfirming(attempt.events)
    ensures SigningPrecedesConfirming(Around(env, attempt, hasOnDone))
  {
    var start := [LoadingSet(true), StatusSet(Preparing)];
    var tail := [LoadingSet(false)] + (if hasOnDone then [DoneCalled] else []);
    assert NoConfirming(start) && NoConfirming(CatchEvents(env, attempt.stop)) && NoConfirming(tail);
    SigningPrecedesConfirmingConcat(start, attempt.events);
    SigningPrecedesConfirmingConcat(start + attempt.events, CatchEvents(env, attempt.stop));
    SigningPrecedesConfirmingConcat(start + attempt.events + CatchEvents(env, attempt.stop), tail);
    assert Around(env, attempt, hasOnDone) == start + attempt.events + CatchEvents(env, attempt.stop) + tail;
  }

  /** Within the `try`, a signing status comes only after the history record. */
  lemma AttemptSignsAfterRecord(cfg: Config, env: WalletEnv, values: FormValues, k: nat)
    requires k < |TryTransfer(cfg, env, values).events|
    requires TryTransfer(cfg, env, values).events[k].StatusSet?
    requires IsSigning(TryTransfer(cfg, env, values).events[k].status)
    ensures Prepare(cfg, env, values).Proceed?
    ensures 0 < k
    ensures TryTransfer(cfg, env, values).events[0] ==
      TransferAdded(ContextFor(values, Prepare(cfg, env, values).value.token,
        Prepare(cfg, env, values).value.connection, Prepare(cfg, env, values).value.sender))
  {
  }

  /** A run is its two opening effects, the `try` part, then effects that sign nothing. */
  lemma AroundShape(env: WalletEnv, attempt: Attempt, hasOnDone: bool)
    ensures
      var ev := Around(env, attempt, hasOnDone);
      var a := attempt.events;
      && |ev| >= 2 + |a|
      && (forall j :: 0 <= j < |a| ==> ev[2 + j] == a[j])
      && (forall j :: 2 + |a| <= j < |ev| ==> !(ev[j].StatusSet? && IsSigning(ev[j].status)) && !ev[j].TransferAdded?)
  {
    var tail := CatchEvents(env, attempt.stop) + [LoadingSet(false)] + (if hasOnDone then [DoneCalled] else []);
    var ev := Around(env, attempt, hasOnDone);
    assert ev == [LoadingSet(true), StatusSet(Preparing)] + attempt.events + tail;
    assert forall j :: 2 + |attempt.events| <= j < |ev| ==> ev[j] == tail[j - 2 - |attempt.events|];
  }

  /** Nothing is signed before the transfer is recorded: a run that reaches
      a signing status has passed every check of `Prepare`, and its third
      effect is the history record of exactly this transfer. */
  lemma RecordedBeforeSigning(cfg: Config, env: WalletEnv, values: FormValues, hasOnDone: bool, i: nat)
    requires i < |ExecuteTransfer(cfg, env, values, hasOnDone)|
    requires ExecuteTransfer(cfg, env, values, hasOnDone)[i].StatusSet?
    requires IsSigning(ExecuteTransfer(cfg, env, values, hasOnDone)[i].status)
    ensures Prepare(cfg, env, values).Proceed?
    ensures 2 < i
    ensures ExecuteTransfer(cfg, env, values, hasOnDone)[2] ==
      TransferAdded(ContextFor(values, Prepare(cfg, env, values).value.token,
        Prepare(cfg, env, values).value.connection, Prepare(cfg, env, values).value.sender))
  {
    var ev := ExecuteTransfer(cfg, env, values, hasOnDone);
    var a := TryTransfer(cfg, env, values).events;
    AroundShape(env, TryTransfer(cfg, env, values), hasOnDone);
    assert ev[0] == LoadingSet(true) && ev[1] == StatusSet(Preparing);
    assert 2 <= i < 2 + |a|;
    assert ev[i] == a[i - 2];
    AttemptSignsAfterRecord(cfg, env, values, i - 2);
    assert ev[2] == a[0];
  }

  /** Inside the `try`, the history record is the first effect, it is made
      only once every check of `Prepare` passed, and `CreatingTxs` follows it. */
  lemma AttemptRecordsFirst(cfg: Config, env: WalletEnv, values: FormValues, k: nat)
    requires k < |TryTransfer(cfg, env, values).events|
    requires TryTransfer(cfg, env, values).events[k].TransferAdded?
    ensures Prepare(cfg, env, values).Proceed?
    ensures k == 0
    ensures
      var a := TryTransfer(cfg, env, values).events;
      var ready := Prepare(cfg, env, values).value;
      |a| > 1 && a[0] == TransferAdded(ContextFor(values, ready.token, ready.connection, ready.sender))
      && a[1] == StatusSet(CreatingTxs)
  {
    if Prepare(cfg, env, values).Proceed? {
      var ready := Prepare(cfg, env, values).value;
      var created := CreateTxs(cfg, env, values, ready);
      if created.Ok? {
        var sends := SendAll(env, created.value);
      }
    }
  }

  /** Around a `try`, a record can only be one of the `try`'s own effects. */
  lemma AroundRecord(env: WalletEnv, attempt: Attempt, hasOnDone: bool, i: nat)
    requires i < |Around(env, attempt, hasOnDone)|
    requires Around(env, attempt, hasOnDone)[i].TransferAdded?
    ensures 2 <= i < 2 + |attempt.events|
    ensures Around(env, attempt, hasOnDone)[i] == attempt.events[i - 2]
    ensures i + 1 < 2 + |attempt.events| ==> Around(env, attempt, hasOnDone)[i + 1] == attempt.events[i - 1]
  {
    AroundShape(env, attempt, hasOnDone);
  }

  /** A run adds its history record only as its third effect, only when the
      route, the amount, the sender and the collateral were all established,
      and moves on to `CreatingTxs` right after it. */
  lemma RecordedOnlyAfterPreparation(cfg: Config, env: WalletEnv, values: FormValues, hasOnDone: bool, i: nat)
    requires i < |ExecuteTransfer(cfg, env, values, hasOnDone)|
    requires ExecuteTransfer(cfg, env, values, hasOnDone)[i].TransferAdded?
    ensures Prepare(cfg, env, values).Proceed?
    ensures i == 2
    ensures
      var ready := Prepare(cfg, env, values).value;
      var ev := ExecuteTransfer(cfg, env, values, hasOnDone);
      && ev[2] == TransferAdded(ContextFor(values, ready.token, ready.connection, ready.sender))
      && ev[3] == StatusSet(CreatingTxs)
  {
    var attempt := TryTransfer(cfg, env, values);
    assert ExecuteTransfer(cfg, env, values, hasOnDone) == Around(env, attempt, hasOnDone);
    AroundRecord(env, attempt, hasOnDone, i);
    AttemptRecordsFirst(cfg, env, values, i - 2);
  }

  /** The transactions a run sends, when it gets that far. */
  function SentTxs(cfg: Config, env: WalletEnv, values: FormValues): Option<seq<Tx>> {
    match Prepare(cfg, env, values)
    case Halt(_, _) => None
    case Proceed(ready) =>
      match CreateTxs(cfg, env, values, ready)
      case Threw(_) => None
      case Ok(txs) => Some(txs)
  }

  /** A confirmed transfer is recorded with the hash of the last transaction
      sent (the batch's hash when sent as one batch), and with no hash when
      there was nothing to send. */
  lemma ConfirmedCarriesLastHash(cfg: Config, env: WalletEnv, values: FormValues)
    requires TryTransfer(cfg, env, values).stop.None?
    ensures SentTxs(cfg, env, values).Some?
    ensures
      var ev := TryTransfer(cfg, env, values).events;
      var txs := SentTxs(cfg, env, values).value;
      && |ev| > 0 && ev[|ev| - 1].ConfirmedWith?
      && (Batched(txs) ==> env.sendBatch(txs) == Ok(ev[|ev| - 1].originTxHash.value))
      && (!Batched(txs) && |txs| > 0 ==>
            ev[|ev| - 1].originTxHash.Some? && env.send(|txs| - 1, txs[|txs| - 1]) == Ok(ev[|ev| - 1].originTxHash.value))
      && (|txs| == 0 ==> ev[|ev| - 1] == ConfirmedWith(None, None))
  {
  }

  /** A text lacking one of a pattern's characters does not contain the pattern. */
  lemma CharAbsentNotContained(s: string, sub: string, j: nat)
    requires j < |sub|
    requires forall i :: 0 <= i < |s| ==> s[i] != sub[j]
    ensures !Contains(s, sub)
  {
    forall i | 0 <= i <= |s| ensures !OccursAt(s, sub, i) {
      if i + |sub| <= |s| {
        assert s[i..i + |sub|][j] == s[i + j];
      }
    }
  }

  /** A message with no `x`, `m` or `C` carries none of the failure markers. */
  lemma PlainMessageHasNoMarker(m: string)
    requires forall i :: 0 <= i < |m| ==> m[i] != 'x' && m[i] != 'm' && m[i] != 'C'
    ensures !Contains(m, ChainMismatchMarker) && !Contains(m, TimeoutMarker1) && !Contains(m, TimeoutMarker2)
  {
    CharAbsentNotContained(m, ChainMismatchMarker, 0);
    CharAbsentNotContained(m, TimeoutMarker1, 14);
    CharAbsentNotContained(m, TimeoutMarker2, 2);
  }

  lemma NoRouteMessagePlain()
    ensures !Contains(NoRouteMessage, ChainMismatchMarker) && !Contains(NoRouteMessage, TimeoutMarker1)
    ensures !Contains(NoRouteMessage, TimeoutMarker2)
  {
    PlainMessageHasNoMarker(NoRouteMessage);
  }

  lemma CollateralMessagePlain()
    ensures !Contains(CollateralMessage, ChainMismatchMarker) && !Contains(CollateralMessage, TimeoutMarker1)
    ensures !Contains(CollateralMessage, TimeoutMarker2)
  {
    PlainMessageHasNoMarker(CollateralMessage);
  }

  /** A failure during preparation whose message names no wallet problem
      ends the run with `Failed` and the preparation toast. */
  lemma PreparationFailureRun(env: WalletEnv, shown: seq<Event>, m: string, hasOnDone: bool)
    requires m != ""
    requires !Contains(m, ChainMismatchMarker) && !Contains(m, TimeoutMarker1) && !Contains(m, TimeoutMarker2)
    ensures Around(env, Attempt(shown, Some(Stop(Preparing, ErrorOf(m)))), hasOnDone) ==
      [LoadingSet(true), StatusSet(Preparing)] + shown
        + [StatusSet(Failed), ErrorNotice("Error while preparing the transactions."), LoadingSet(false)]
        + (if hasOnDone then [DoneCalled] else [])
  {
    assert ErrorDetails(ErrorOf(m)) == m;
  }

  /** With no route to the destination the run fails at once, before any
      record or transaction, with the preparation toast. */
  lemma NoRouteRun(cfg: Config, env: WalletEnv, values: FormValues)
    requires RouteOf(env.registry, values).None?
    ensures ExecuteTransfer(cfg, env, values, false) ==
      [LoadingSet(true), StatusSet(Preparing), StatusSet(Failed),
       ErrorNotice("Error while preparing the transactions."), LoadingSet(false)]
  {
    assert TryTransfer(cfg, env, values) == Attempt([], Some(Stop(Preparing, ErrorOf(NoRouteMessage))));
    NoRouteMessagePlain();
    PreparationFailureRun(env, [], NoRouteMessage, false);
  }

  /** With too little collateral on the destination the run shows the
      collateral toast, then fails with the preparation toast. */
  lemma LowCollateralRun(cfg: Config, env: WalletEnv, values: FormValues)
    requires RouteOf(env.registry, values).Some?
    requires AmountFor(cfg, env, values, RouteOf(env.registry, values).value.0).Ok?
    requires env.sender.Some? && env.sender.value != ""
    requires env.collateralSufficient(AmountFor(cfg, env, values, RouteOf(env.registry, values).value.0).value, values.destination) == Ok(false)
    ensures ExecuteTransfer(cfg, env, values, true) ==
      [LoadingSet(true), StatusSet(Preparing), ErrorNotice(CollateralNotice), StatusSet(Failed),
       ErrorNotice("Error while preparing the transactions."), LoadingSet(false), DoneCalled]
  {
    assert TryTransfer(cfg, env, values) ==
      Attempt([ErrorNotice(CollateralNotice)], Some(Stop(Preparing, ErrorOf(CollateralMessage))));
    CollateralMessagePlain();
    PreparationFailureRun(env, [ErrorNotice(CollateralNotice)], CollateralMessage, true);
  }
}

=== FILE: form_defaults.dfy ===
/** The values the transfer form starts with, and the swap of its two chains. */
module FormDefaults {
  import opened Wrappers
  import opened AppConfig
  import opened Tokens
  import opened TransferTypes

  /** The raw query parameters of the page, `None` when absent. */
  datatype QueryParams = QueryParams(origin: Option<string>, destination: Option<string>, token: Option<string>, feeToken: Option<string>)

  /** What the defaults consult besides the configuration. */
  datatype DefaultsEnv = DefaultsEnv(
    registry: seq<Token>,
    /** `tryGetValidChainName`: the parameter when it names a known chain. */
    validChain: Option<string> -> Option<string>,
    /** `getInitialTokenIndex` for a token parameter and the two query chains
        as resolved; its other arguments come from the configuration. */
    initialTokenIndex: (Option<string>, Option<string>, Option<string>) -> Option<int>)

  /** A JavaScript string that is defined and non-empty. */
  predicate Truthy(s: Option<string>) {
    s.Some? && s.value != ""
  }

  /** The index a token parameter resolves to, given the page's query chains. */
  function TokenIndexFor(env: DefaultsEnv, params: QueryParams, tokenParam: Option<string>): Option<int> {
    env.initialTokenIndex(tokenParam, env.validChain(params.origin), env.validChain(params.destination))
  }

  /** The first registered token on the configured default origin chain, if one is configured. */
  function DefaultOriginToken(cfg: Config, registry: seq<Token>): (r: Option<Token>)
    ensures r.Some? ==> cfg.defaultOriginChain != "" && r.value in registry && r.value.chainName == cfg.defaultOriginChain
    ensures cfg.defaultOriginChain != "" && (exists t :: t in registry && t.chainName == cfg.defaultOriginChain) ==> r.Some?
    ensures r.Some? ==> exists i :: 0 <= i < |registry| && registry[i] == r.value && FirstOnChainAt(registry, cfg.defaultOriginChain, i)
  {
    FirstOnChainIsFirst(registry, cfg.defaultOriginChain);
    if cfg.defaultOriginChain != "" then FirstOnChain(registry, cfg.defaultOriginChain) else None
  }

  /** `feeTokenIndex`: the resolved index of a non-empty fee-token parameter;
      an index of 0 is falsy and collapses to `None` like a missing one. */
  function FeeTokenIndex(env: DefaultsEnv, params: QueryParams): (r: Option<int>)
    ensures r.Some? <==> Truthy(params.feeToken) && TokenIndexFor(env, params, params.feeToken).Some? && TokenIndexFor(env, params, params.feeToken).value != 0
    ensures r.Some? ==> r == TokenIndexFor(env, params, params.feeToken)
  {
    if !Truthy(params.feeToken) then None
    else
      match TokenIndexFor(env, params, params.feeToken)
      case None => None
      case Some(i) => if i == 0 then None else Some(i)
  }

  /** A fee token found at index 0 is dropped. */
  lemma FeeTokenAtZeroDropped(env: DefaultsEnv, params: QueryParams)
    requires Truthy(params.feeToken) && TokenIndexFor(env, params, params.feeToken) == Some(0)
    ensures FeeTokenIndex(env, params).None?
  {
  }

  /** Both query chains name known chains. */
  predicate QueryChainsValid(env: DefaultsEnv, params: QueryParams) {
    Truthy(env.validChain(params.origin)) && Truthy(env.validChain(params.destination))
  }

  /** The token whose chain is the fallback origin. */
  function FirstToken(cfg: Config, registry: seq<Token>): Token
    requires DefaultOriginToken(cfg, registry).Some? || |registry| > 0
  {
    match DefaultOriginToken(cfg, registry)
    case Some(t) => t
    case None => registry[0]
  }

  /** The fallback destination: the configured default, else the chain of
      the first token's first connection, else the empty string. */
  function FallbackDestination(cfg: Config, first: Token): (r: string)
    ensures cfg.defaultDestinationChain != "" ==> r == cfg.defaultDestinationChain
    ensures cfg.defaultDestinationChain == "" && |first.connections| > 0 ==> r == first.connections[0].chainName
    ensures cfg.defaultDestinationChain == "" && |first.connections| == 0 ==> r == ""
  {
    if cfg.defaultDestinationChain != "" then cfg.defaultDestinationChain
    else if |first.connections| > 0 then first.connections[0].chainName
    else ""
  }

  /** `useFormInitialValues`. The application reads the first token without a
      check, so a registry with no token at all is outside what it handles. */
  function InitialValues(cfg: Config, env: DefaultsEnv, params: QueryParams): (r: FormValues)
    requires DefaultOriginToken(cfg, env.registry).Some? || |env.registry| > 0
    ensures r.amount == "" && r.recipient == ""
    ensures r.tokenIndex == TokenIndexFor(env, params, params.token)
    ensures r.feeTokenIndex == FeeTokenIndex(env, params)
    ensures QueryChainsValid(env, params) ==>
      r.origin == env.validChain(params.origin).value && r.destination == env.validChain(params.destination).value
    ensures !QueryChainsValid(env, params) ==>
      r.origin == FirstToken(cfg, env.registry).chainName && r.destination == FallbackDestination(cfg, FirstToken(cfg, env.registry))
  {
    var first := FirstToken(cfg, env.registry);
    var valid := QueryChainsValid(env, params);
    FormValues(
      if valid then env.validChain(params.origin).value else first.chainName,
      if valid then env.validChain(params.destination).value else FallbackDestination(cfg, first),
      TokenIndexFor(env, params, params.token),
      FeeTokenIndex(env, params),
      "",
      "")
  }

  /** The fee token is resolved as the token would be if it named the fee
      token, on the same query chains, except that index 0 is dropped. */
  lemma FeeTokenResolvedLikeToken(cfg: Config, env: DefaultsEnv, params: QueryParams)
    requires DefaultOriginToken(cfg, env.registry).Some? || |env.registry| > 0
    requires Truthy(params.feeToken)
    ensures
      var asToken := InitialValues(cfg, env, params.(token := params.feeToken)).tokenIndex;
      InitialValues(cfg, env, params).feeTokenIndex == if asToken == Some(0) then None else asToken
  {
  }

  /** Query chains and defaults are never mixed: when the query pair is not
      valid, the chains do not depend on the query chains at all. */
  lemma FallbackIgnoresQueryChains(cfg: Config, env: DefaultsEnv, p1: QueryParams, p2: QueryParams)
    requires DefaultOriginToken(cfg, env.registry).Some? || |env.registry| > 0
    requires !QueryChainsValid(env, p1) && !QueryChainsValid(env, p2)
    ensures InitialValues(cfg, env, p1).origin == InitialValues(cfg, env, p2).origin
    ensures InitialValues(cfg, env, p1).destination == InitialValues(cfg, env, p2).destination
  {
  }

  /** The fallback origin is the configured default origin when a token
      lives there, else the chain of the first registered token. */
  lemma FallbackOrigin(cfg: Config, env: DefaultsEnv, params: QueryParams)
    requires DefaultOriginToken(cfg, env.registry).Some? || |env.registry| > 0
    requires !QueryChainsValid(env, params)
    ensures cfg.defaultOriginChain != "" && (exists t :: t in env.registry && t.chainName == cfg.defaultOriginChain) ==>
      InitialValues(cfg, env, params).origin == cfg.defaultOriginChain
    ensures DefaultOriginToken(cfg, env.registry).None? ==> InitialValues(cfg, env, params).origin == env.registry[0].chainName
  {
  }

  /** The outcome of the swap button: the new values and the callback's arguments, if it was called. */
  datatype Swapped = Swapped(values: FormValues, callback: Option<(string, string)>)

  /** The swap button's `onClick`. */
  function SwapChains(values: FormValues, disabled: bool): (r: Swapped)
    ensures disabled ==> r == Swapped(values, None)
    ensures !disabled ==> r.values.origin == values.destination && r.values.destination == values.origin
    ensures !disabled ==> r.values.recipient == ""
    ensures !disabled ==> r.callback == Some((values.destination, values.origin))
    ensures r.values.tokenIndex == values.tokenIndex && r.values.amount == values.amount && r.values.feeTokenIndex == values.feeTokenIndex
  {
    if disabled then Swapped(values, None)
    else Swapped(values.(origin := values.destination, destination := values.origin, recipient := ""), Some((values.destination, values.origin)))
  }

  /** Swapping twice gives back the chains and clears only the recipient. */
  lemma SwapTwiceRestores(values: FormValues)
    ensures SwapChains(SwapChains(values, false).values, false).values == values.(recipient := "")
    ensures SwapChains(SwapChains(values, false).values, false).callback == Some((values.origin, values.destination))
  {
  }
}

=== FILE: form_flow.dfy ===
/** The transfer form's own state and the handlers around validation and
    sending: what the form remembers between validation and the "Send"
    press, when it enters review, and how it hands the values to the
    executor. */
module FormFlow {
  import opened Wrappers
  import opened AppConfig
  import opened Tokens
  import opened TransferTypes
  import opened Validation
  import opened Executor

  /** Review mode, the global transfer-loading flag, the router token that
      replaces the selected one, and whether the recipient confirmation is open. */
  datatype UiState = UiState(isReview: bool, transferLoading: bool, routeOverride: Option<Token>, confirmationOpen: bool)

  /** The index of a token in the registry, by equality; `None` when absent. */
  function IndexOfToken(registry: seq<Token>, token: Token): (r: Option<int>)
    ensures r.None? <==> token !in registry
    ensures r.Some? ==> 0 <= r.value < |registry| && registry[r.value] == token && token !in registry[..r.value]
    decreases |registry|
  {
    if |registry| == 0 then None
    else if registry[0] == token then Some(0)
    else
      match IndexOfToken(registry[1..], token)
      case None => None
      case Some(i) =>
        assert registry[..i + 1] == [registry[0]] + registry[1..][..i];
        Some(i + 1)
  }

  /** `validate`: the errors go to the form, the override replaces whatever
      override was stored before, even by `None`. */
  function OnValidated(s: UiState, verdict: Verdict): (r: (Option<Errors>, UiState))
    ensures r.0 == verdict.errors
    ensures r.1.routeOverride == verdict.overrideToken
    ensures r.1.isReview == s.isReview && r.1.transferLoading == s.transferLoading && r.1.confirmationOpen == s.confirmationOpen
  {
    (verdict.errors, s.(routeOverride := verdict.overrideToken))
  }

  /** The values the executor receives: the form's, with the token index and
      origin taken from the override when there is one. */
  function HandOff(registry: seq<Token>, values: FormValues, routeOverride: Option<Token>): (r: FormValues)
    ensures routeOverride.None? ==> r == values
    ensures r.destination == values.destination && r.amount == values.amount
    ensures r.recipient == values.recipient && r.feeTokenIndex == values.feeTokenIndex
    ensures routeOverride.Some? ==> r.origin == routeOverride.value.chainName
    ensures routeOverride.Some? && routeOverride.value in registry ==> TokenAt(registry, r.tokenIndex) == routeOverride
    ensures routeOverride.Some? && routeOverride.value !in registry ==> TokenAt(registry, r.tokenIndex).None?
  {
    match routeOverride
    case None => values
    case Some(token) => values.(tokenIndex := IndexOfToken(registry, token), origin := token.chainName)
  }

  /** What `triggerTransactionsHandler` does before the executor runs: the
      state it leaves, and the values it hands over, if it hands any. */
  datatype Triggered = Triggered(state: UiState, handedOver: Option<FormValues>)

  function Trigger(registry: seq<Token>, s: UiState, values: FormValues, sanctioned: bool): (r: Triggered)
    ensures sanctioned ==> r == Triggered(s, None)
    ensures !sanctioned ==> r.handedOver == Some(HandOff(registry, values, s.routeOverride))
    ensures !sanctioned ==> !r.state.isReview && r.state.transferLoading
    ensures r.state.routeOverride == s.routeOverride && r.state.confirmationOpen == s.confirmationOpen
  {
    if sanctioned then Triggered(s, None)
    else Triggered(s.(isReview := false, transferLoading := true), Some(HandOff(registry, values, s.routeOverride)))
  }

  /** `onDoneTransactions` */
  function OnDone(s: UiState): (r: UiState)
    ensures !r.isReview && !r.transferLoading && r.routeOverride.None?
    ensures r.confirmationOpen == s.confirmationOpen
  {
    s.(isReview := false, transferLoading := false, routeOverride := None)
  }

  /** `onEdit`: back to input, without the override; loading is left as it is. */
  function OnEdit(s: UiState): (r: UiState)
    ensures !r.isReview && r.routeOverride.None?
    ensures r.transferLoading == s.transferLoading && r.confirmationOpen == s.confirmationOpen
  {
    s.(isReview := false, routeOverride := None)
  }

  /** The form state after the executor's effects: only the completion
      callback touches it. */
  function AfterRun(s: UiState, events: seq<Event>): UiState
    decreases |events|
  {
    if |events| == 0 then s
    else
      var before := AfterRun(s, events[..|events| - 1]);
      if events[|events| - 1] == DoneCalled then OnDone(before) else before
  }

  /** Pressing "Send": the form state once the run is over, and the run's effects. */
  function SendPressed(cfg: Config, env: WalletEnv, s: UiState, values: FormValues, sanctioned: bool): (r: (UiState, seq<Event>))
    ensures sanctioned ==> r == (s, [])
    ensures !sanctioned ==> r.1 == ExecuteTransfer(cfg, env, HandOff(env.registry, values, s.routeOverride), true)
  {
    var t := Trigger(env.registry, s, values, sanctioned);
    match t.handedOver
    case None => (t.state, [])
    case Some(handed) =>
      var run := ExecuteTransfer(cfg, env, handed, true);
      (AfterRun(t.state, run), run)
  }

  /** A sanctioned account sends nothing and changes nothing. */
  lemma SanctionedSendsNothing(cfg: Config, env: WalletEnv, s: UiState, values: FormValues)
    ensures SendPressed(cfg, env, s, values, true) == (s, [])
  {
  }

  /** Whatever the run does, the form ends out of review, not loading and
      without an override, and the run was given the handed-over values. */
  lemma SendEndsReset(cfg: Config, env: WalletEnv, s: UiState, values: FormValues)
    ensures
      var (after, run) := SendPressed(cfg, env, s, values, false);
      && !after.isReview && !after.transferLoading && after.routeOverride.None?
      && after.confirmationOpen == s.confirmationOpen
      && run == ExecuteTransfer(cfg, env, HandOff(env.registry, values, s.routeOverride), true)
  {
    var t := Trigger(env.registry, s, values, false);
    var run := ExecuteTransfer(cfg, env, t.handedOver.value, true);
    assert run[|run| - 1] == DoneCalled;
    assert AfterRun(t.state, run) == OnDone(AfterRun(t.state, run[..|run| - 1]));
    AfterRunKeepsConfirmation(t.state, run[..|run| - 1]);
  }

  lemma {:induction false} AfterRunKeepsConfirmation(s: UiState, events: seq<Event>)
    ensures AfterRun(s, events).confirmationOpen == s.confirmationOpen
    decreases |events|
  {
    if |events| > 0 {
      AfterRunKeepsConfirmation(s, events[..|events| - 1]);
    }
  }

  /** The override a valid form produced reaches the executor: the handed-over
      index selects exactly that token, and the origin is its chain, which is
      the chain of the token the user selected. */
  lemma ValidatedOverrideReachesExecutor(cfg: Config, venv: ValidationEnv, s: UiState, values: FormValues)
    requires TokenAt(venv.registry, values.tokenIndex).Some?
    requires ConnectionFor(TokenAt(venv.registry, values.tokenIndex).value, values.destination).Some?
    requires ValidateForm(cfg, venv, values).overrideToken.Some?
    ensures
      var stored := OnValidated(s, ValidateForm(cfg, venv, values)).1;
      var handed := Trigger(venv.registry, stored, values, false).handedOver.value;
      && TokenAt(venv.registry, handed.tokenIndex) == ValidateForm(cfg, venv, values).overrideToken
      && handed.origin == TokenAt(venv.registry, values.tokenIndex).value.chainName
      && handed.destination == values.destination && handed.amount == values.amount && handed.recipient == values.recipient
  {
    OverrideSharesCollateral(cfg, venv, values);
  }

  /** What submitting the form leads to. */
  datatype SubmitOutcome = StayInInput | EnterReview | AskConfirmation

  /** The destination is listed as gasless; no list means no gasless chain. */
  predicate IsGasless(cfg: Config, destination: string) {
    cfg.gaslessChains.Some? && destination in cfg.gaslessChains.value
  }

  /** `onSubmitForm`, given the recipient's native balance on the destination
      (`None` when it could not be read). */
  function SubmitDecision(cfg: Config, values: FormValues, balance: Option<nat>): SubmitOutcome {
    match balance
    case None => StayInInput
    case Some(b) => if b > 0 || IsGasless(cfg, values.destination) then EnterReview else AskConfirmation
  }

  function OnSubmit(s: UiState, outcome: SubmitOutcome): (r: UiState)
    ensures outcome == StayInInput ==> r == s
    ensures outcome == EnterReview ==> r == s.(isReview := true)
    ensures outcome == AskConfirmation ==> r == s.(confirmationOpen := true)
  {
    match outcome
    case StayInInput => s
    case EnterReview => s.(isReview := true)
    case AskConfirmation => s.(confirmationOpen := true)
  }

  /** Confirming the recipient in the modal enters review. */
  function OnConfirmRecipient(s: UiState): (r: UiState)
    ensures r.isReview && r.routeOverride == s.routeOverride
  {
    s.(isReview := true)
  }

  /** Review is entered on submit exactly when the balance was read and is
      positive or the destination is gasless; the confirmation is asked for
      exactly when it was read as zero on a chain that is not gasless; an
      unread balance changes nothing. */
  lemma SubmitDecisionCases(cfg: Config, values: FormValues, balance: Option<nat>)
    ensures SubmitDecision(cfg, values, balance) == EnterReview <==>
      balance.Some? && (balance.value > 0 || IsGasless(cfg, values.destination))
    ensures SubmitDecision(cfg, values, balance) == AskConfirmation <==>
      balance == Some(0) && !IsGasless(cfg, values.destination)
    ensures SubmitDecision(cfg, values, balance) == StayInInput <==> balance.None?
  {
  }

  /** Without a gasless list, a zero balance always asks for confirmation. */
  lemma NoGaslessListAsksConfirmation(cfg: Config, values: FormValues)
    requires cfg.gaslessChains.None?
    ensures SubmitDecision(cfg, values, Some(0)) == AskConfirmation
  {
  }

  /** The two ways into review: directly on submit, or through the confirmation. */
  lemma ReviewReachedAfterSubmit(cfg: Config, s: UiState, values: FormValues, balance: nat)
    ensures
      var after := OnSubmit(s, SubmitDecision(cfg, values, Some(balance)));
      after.isReview || (after.confirmationOpen && OnConfirmRecipient(after).isReview)
  {
  }
}

=== FILE: pruv_fee.dfy ===
/** The pruv origin fee in USDC: when a USDC transfer leaves a pruv chain for
    a non-pruv chain, the configured per-destination fee is added on top of
    the amount the user typed. */
module PruvFee {
  import opened Wrappers
  import opened Strings
  import opened Decimal
  import opened AppConfig

  const PruvPrefix := "pruv"
  const UsdcSymbol := "USDC"

  /** `getPruvOriginFeeUSDC`: the configured fee for `destination`, zero when none is configured. */
  function OriginFeeUsdc(cfg: Config, destination: string): (r: Dec)
    ensures destination in cfg.pruvOriginFeeUsdc ==> r == cfg.pruvOriginFeeUsdc[destination]
    ensures destination !in cfg.pruvOriginFeeUsdc ==> Value(r) == 0.0
  {
    if destination in cfg.pruvOriginFeeUsdc then cfg.pruvOriginFeeUsdc[destination] else Zero
  }

  /** The route leaves the pruv chains: origin name starts with the prefix, destination name does not. */
  predicate LeavesPruv(cfg: Config, origin: string, destination: string) {
    cfg.enablePruvOriginFeeUsdc && StartsWith(origin, PruvPrefix) && !StartsWith(destination, PruvPrefix)
  }

  /** `shouldApplyPruvUsdcBonus` */
  predicate ShouldApplyUsdcBonus(cfg: Config, origin: string, destination: string, tokenSymbol: Option<string>) {
    && LeavesPruv(cfg, origin, destination)
    && tokenSymbol == Some(UsdcSymbol)
    && Value(OriginFeeUsdc(cfg, destination)) > 0.0
  }

  /** Leaving the pruv chains is one-way: the reverse route never leaves
      them, so it never gets the bonus. */
  lemma BonusOnlyOneWay(cfg: Config, origin: string, destination: string, tokenSymbol: Option<string>)
    ensures LeavesPruv(cfg, origin, destination) ==> !LeavesPruv(cfg, destination, origin)
    ensures ShouldApplyUsdcBonus(cfg, origin, destination, tokenSymbol) ==>
      !ShouldApplyUsdcBonus(cfg, destination, origin, tokenSymbol)
  {
  }

  /** `getAmountWithPruvUsdcBonus`: the typed amount plus the fee, as the
      decimal library prints it; the amount unchanged when the bonus does not
      apply or the amount is not a finite number. */
  function AmountWithUsdcBonus(cfg: Config, amount: string, origin: string, destination: string, tokenSymbol: Option<string>): (r: string)
    ensures !ShouldApplyUsdcBonus(cfg, origin, destination, tokenSymbol) ==> r == amount
    ensures amount != "" && Parse(amount).None? ==> r == amount
    ensures ShouldApplyUsdcBonus(cfg, origin, destination, tokenSymbol) && Parse(amount).Some? ==>
      Parse(r).Some? && Value(Parse(r).value) == Value(Parse(amount).value) + Value(OriginFeeUsdc(cfg, destination))
    ensures ShouldApplyUsdcBonus(cfg, origin, destination, tokenSymbol) && amount == "" ==>
      Parse(r).Some? && Value(Parse(r).value) == Value(OriginFeeUsdc(cfg, destination))
  {
    if !ShouldApplyUsdcBonus(cfg, origin, destination, tokenSymbol) then amount
    else
      var fee := OriginFeeUsdc(cfg, destination);
      if Value(fee) == 0.0 then amount
      else
        var start := if amount == "" then Some(Zero) else Parse(amount);
        match start
        case None => amount
        case Some(v) =>
          ToTextRoundTrip(Add(v, fee));
          ToText(Add(v, fee))
  }

  /** With a fee of 2 for the destination, "10" becomes "12". */
  lemma BonusExample()
    ensures AmountWithUsdcBonus(
      Config(true, map["ethereum" := Dec(2, 0)], "", 6, None, "", ""),
      "10", "pruvtest", "ethereum", Some("USDC")) == "12"
  {
    var cfg := Config(true, map["ethereum" := Dec(2, 0)], "", 6, None, "", "");
    assert StartsWith("pruvtest", PruvPrefix);
    assert !StartsWith("ethereum", PruvPrefix) by { assert "ethereum"[0] != PruvPrefix[0]; }
    assert Parse("10") == Some(Dec(10, 0)) by {
      assert FindDot("10") == None;
      assert AllDigits("10");
      assert DigitsToNat("10") == 10 by { assert "10"[..1] == "1"; }
    }
    assert Add(Dec(10, 0), Dec(2, 0)) == Dec(12, 0);
    assert NatToDigits(12) == "12";
  }
}

=== FILE: route_selection.dfy ===
/** `getTransferToken`: among the routers that wrap the same collateral,
    pick the one whose destination side holds the most collateral. */
module RouteSelection {
  import opened Wrappers
  import opened Tokens

  /** A successful balance probe: an origin router and the collateral its destination side holds. */
  datatype Probe = Probe(token: Token, balance: nat)

  /** The probes that succeeded, in candidate order; `collateralOf` stands for
      the collateral query, `None` when the query failed. */
  function Probes(cands: seq<Candidate>, collateralOf: Token -> Option<nat>): (r: seq<Probe>)
    ensures |r| <= |cands|
    ensures forall p :: p in r ==> exists c :: c in cands && p.token == c.originToken && collateralOf(c.destinationToken) == Some(p.balance)
    ensures r == [] <==> forall i :: 0 <= i < |cands| ==> collateralOf(cands[i].destinationToken).None?
    ensures forall i :: 0 <= i < |cands| && collateralOf(cands[i].destinationToken).Some? ==>
      Probe(cands[i].originToken, collateralOf(cands[i].destinationToken).value) in r
  {
    if cands == [] then []
    else
      var c := cands[0];
      var rest := Probes(cands[1..], collateralOf);
      assert forall i :: 1 <= i < |cands| ==> cands[i] == cands[1..][i - 1];
      match collateralOf(c.destinationToken)
      case Some(b) => [Probe(c.originToken, b)] + rest
      case None => rest
  }

  /** One candidate gives its probe when the query succeeds, nothing otherwise. */
  lemma ProbesOfOne(c: Candidate, collateralOf: Token -> Option<nat>)
    ensures collateralOf(c.destinationToken).None? ==> Probes([c], collateralOf) == []
    ensures collateralOf(c.destinationToken).Some? ==>
      Probes([c], collateralOf) == [Probe(c.originToken, collateralOf(c.destinationToken).value)]
  {
    assert [c][1..] == [];
  }

  /** Probing keeps candidate order: the probes of a list split in two are the
      probes of the first part followed by those of the second. */
  lemma {:induction false} ProbesAppend(a: seq<Candidate>, b: seq<Candidate>, collateralOf: Token -> Option<nat>)
    ensures Probes(a + b, collateralOf) == Probes(a, collateralOf) + Probes(b, collateralOf)
    decreases |a|
  {
    if a == [] {
      assert a + b == b;
    } else {
      assert (a + b)[0] == a[0];
      assert (a + b)[1..] == a[1..] + b;
      ProbesAppend(a[1..], b, collateralOf);
    }
  }

  // ---------------------------------------------------------------------
  // Stable sort by balance, highest first

  predicate SortedDesc(s: seq<Probe>) {
    forall i, j :: 0 <= i < j < |s| ==> s[i].balance >= s[j].balance
  }

  /** Inserts `x` after every element whose balance is at least `x`'s. */
  function InsertDesc(s: seq<Probe>, x: Probe): (r: seq<Probe>)
    requires SortedDesc(s)
    ensures SortedDesc(r)
    ensures multiset(r) == multiset(s) + multiset{x}
    ensures |r| == |s| + 1
    ensures r[0] == if s != [] && s[0].balance >= x.balance then s[0] else x
  {
    if s == [] then [x]
    else if s[0].balance < x.balance then [x] + s
    else
      var tail := InsertDesc(s[1..], x);
      assert s == [s[0]] + s[1..];
      [s[0]] + tail
  }

  /** `tokenBalances.sort(...)` with the descending comparator; the
      JavaScript sort is stable, and so is this insertion sort. */
  function SortDesc(s: seq<Probe>): (r: seq<Probe>)
    ensures SortedDesc(r)
    ensures multiset(r) == multiset(s)
    ensures |r| == |s|
  {
    if s == [] then []
    else
      assert s == s[..|s| - 1] + [s[|s| - 1]];
      InsertDesc(SortDesc(s[..|s| - 1]), s[|s| - 1])
  }

  /** Reference: the earliest probe with the highest balance. */
  function EarliestMax(s: seq<Probe>): (k: nat)
    requires |s| > 0
    ensures k < |s|
    ensures forall j :: 0 <= j < |s| ==> s[j].balance <= s[k].balance
    ensures forall j :: 0 <= j < k ==> s[j].balance < s[k].balance
  {
    if |s| == 1 then 0
    else
      var k := EarliestMax(s[..|s| - 1]);
      if s[|s| - 1].balance > s[k].balance then |s| - 1 else k
  }

  /** The head of the stable descending sort is the earliest maximum. */
  lemma {:induction false} SortHeadIsEarliestMax(s: seq<Probe>)
    requires |s| > 0
    ensures SortDesc(s)[0] == s[EarliestMax(s)]
  {
    if |s| > 1 {
      var prefix := s[..|s| - 1];
      SortHeadIsEarliestMax(prefix);
      assert forall j :: 0 <= j < |prefix| ==> prefix[j] == s[j];
    }
  }

  // ---------------------------------------------------------------------
  // The selection

  /** `getTransferToken`: the origin token unless it is multi-collateral,
      has another router for its collateral, and some probe succeeded; then the
      router of the first successful probe with the highest balance. */
  function GetTransferToken(registry: seq<Token>, origin: Token, dest: Token, collateralOf: Token -> Option<nat>): (r: Token)
    ensures !IsValidMultiCollateralToken(origin, ToToken(dest)) ==> r == origin
    ensures |TokensWithSameCollateral(registry, origin, dest)| <= 1 ==> r == origin
    ensures Probes(TokensWithSameCollateral(registry, origin, dest), collateralOf) == [] ==> r == origin
    ensures r == origin || exists c :: c in TokensWithSameCollateral(registry, origin, dest) && r == c.originToken
  {
    if !IsValidMultiCollateralToken(origin, ToToken(dest)) then origin
    else
      var cands := TokensWithSameCollateral(registry, origin, dest);
      if |cands| <= 1 then origin
      else
        var probes := Probes(cands, collateralOf);
        if probes == [] then origin
        else
          assert SortDesc(probes)[0] in multiset(probes);
          SortDesc(probes)[0].token
  }

  /** When several routers exist and some probe succeeded, the chosen router
      holds the highest balance, and among equal balances it is the first. */
  lemma SelectsEarliestHighestBalance(registry: seq<Token>, origin: Token, dest: Token, collateralOf: Token -> Option<nat>)
    requires IsValidMultiCollateralToken(origin, ToToken(dest))
    requires |TokensWithSameCollateral(registry, origin, dest)| > 1
    requires Probes(TokensWithSameCollateral(registry, origin, dest), collateralOf) != []
    ensures var probes := Probes(TokensWithSameCollateral(registry, origin, dest), collateralOf);
      var k := EarliestMax(probes);
      && GetTransferToken(registry, origin, dest, collateralOf) == probes[k].token
      && (forall j :: 0 <= j < |probes| ==> probes[j].balance <= probes[k].balance)
      && (forall j :: 0 <= j < k ==> probes[j].balance < probes[k].balance)
  {
    ChoosesSortHead(registry, origin, dest, collateralOf);
    SortHeadIsEarliestMax(Probes(TokensWithSameCollateral(registry, origin, dest), collateralOf));
  }

  lemma ChoosesSortHead(registry: seq<Token>, origin: Token, dest: Token, collateralOf: Token -> Option<nat>)
    requires IsValidMultiCollateralToken(origin, ToToken(dest))
    requires |TokensWithSameCollateral(registry, origin, dest)| > 1
    requires Probes(TokensWithSameCollateral(registry, origin, dest), collateralOf) != []
    ensures GetTransferToken(registry, origin, dest, collateralOf)
      == SortDesc(Probes(TokensWithSameCollateral(registry, origin, dest), collateralOf))[0].token
  {
  }
}

=== FILE: service_worker.dfy ===
/** The service worker's static-asset cache: which requests it answers,
    which caches it drops on activation, and its cache-first fetch over an
    abstract cache. */
module ServiceWorker {
  import opened Wrappers
  import opened Strings

  const CacheName := "static-assets-v2"
  const AssetExtensions: seq<string> := [".png", ".jpg", ".jpeg", ".svg", ".ico", ".woff", ".woff2", ".ttf", ".otf"]

  /** A request: its HTTP method, its URL, and the URL split into origin and path. */
  datatype Request = Request(verb: string, url: string, origin: string, pathname: string)

  /** A path ends with one of the asset extensions; case matters. */
  predicate IsAssetPath(pathname: string) {
    exists i :: 0 <= i < |AssetExtensions| && EndsWith(pathname, AssetExtensions[i])
  }

  /** `shouldHandleRequest` for a worker served from `selfOrigin`. */
  predicate ShouldHandle(req: Request, selfOrigin: string) {
    if req.verb != "GET" then false
    else if req.origin != selfOrigin || StartsWith(req.pathname, "/api") then false
    else IsAssetPath(req.pathname)
  }

  /** A request is answered exactly when it is a same-origin GET outside
      `/api` for an asset path. */
  lemma ShouldHandleCases(req: Request, selfOrigin: string)
    ensures ShouldHandle(req, selfOrigin) <==>
      req.verb == "GET" && req.origin == selfOrigin && !StartsWith(req.pathname, "/api") && IsAssetPath(req.pathname)
  {
  }

  /** An API path is never cached, even when it looks like an asset. */
  lemma ApiAssetNotHandled(selfOrigin: string)
    ensures IsAssetPath("/api/logo.png")
    ensures !ShouldHandle(Request("GET", selfOrigin + "/api/logo.png", selfOrigin, "/api/logo.png"), selfOrigin)
  {
    assert EndsWith("/api/logo.png", AssetExtensions[0]);
    assert StartsWith("/api/logo.png", "/api");
  }

  /** The extension match is case-sensitive. */
  lemma UpperCaseExtensionNotAsset()
    ensures !IsAssetPath("/logo.PNG")
  {
    forall i | 0 <= i < |AssetExtensions| ensures !EndsWith("/logo.PNG", AssetExtensions[i]) {
      var p := "/logo.PNG";
      if |AssetExtensions[i]| <= |p| {
        assert p[|p| - 1] == 'G';
        assert AssetExtensions[i][|AssetExtensions[i]| - 1] != 'G';
        assert p[|p| - |AssetExtensions[i]|..][|AssetExtensions[i]| - 1] == p[|p| - 1];
      }
    }
  }

  /** The cache keys activation deletes: every key but the current one, in order. */
  function StaleKeys(keys: seq<string>): (r: seq<string>)
    ensures forall k :: k in r <==> k in keys && k != CacheName
    ensures |r| <= |keys|
  {
    if keys == [] then []
    else if keys[0] != CacheName then [keys[0]] + StaleKeys(keys[1..])
    else StaleKeys(keys[1..])
  }

  /** The caches left after activation. */
  function Activate(caches: set<string>, keys: seq<string>): (r: set<string>)
    ensures forall k :: k in r <==> k in caches && !(k in keys && k != CacheName)
  {
    caches - set k | k in StaleKeys(keys)
  }

  /** When the keys listed are all the caches there are, activation leaves at
      most the current cache, and keeps it when it was there. */
  lemma ActivationKeepsOnlyCurrent(caches: set<string>, keys: seq<string>)
    requires forall k :: k in caches <==> k in keys
    ensures Activate(caches, keys) <= {CacheName}
    ensures CacheName in caches ==> Activate(caches, keys) == {CacheName}
  {
  }

  datatype Response = Response(ok: bool, body: string)

  /** How a fetch is answered: not at all (the browser fetches as usual), with a response, or with the network's error. */
  datatype Answer = NotHandled | Respond(response: Response) | Reject(error: string)

  /** The answer and the cache afterwards. */
  datatype Fetched = Fetched(answer: Answer, cache: map<string, Response>)

  /** The fetch handler over a cache keyed by URL; `network` is what the
      network would answer for the request. */
  function HandleFetch(cache: map<string, Response>, req: Request, selfOrigin: string, network: Fallible<Response>): (r: Fetched)
    ensures !ShouldHandle(req, selfOrigin) ==> r == Fetched(NotHandled, cache)
    ensures ShouldHandle(req, selfOrigin) && req.url in cache ==> r == Fetched(Respond(cache[req.url]), cache)
    ensures forall u :: u in cache ==> u in r.cache
    ensures forall u :: u in r.cache && u != req.url ==> u in cache && r.cache[u] == cache[u]
    ensures req.url in r.cache && req.url !in cache ==> network.Ok? && network.value.ok && r.cache[req.url] == network.value
    ensures ShouldHandle(req, selfOrigin) && req.url !in cache && network.Threw? ==>
      r == Fetched(Reject(network.error.message), cache)
    ensures ShouldHandle(req, selfOrigin) && req.url !in cache && network.Ok? ==> r.answer == Respond(network.value)
  {
    if !ShouldHandle(req, selfOrigin) then Fetched(NotHandled, cache)
    else if req.url in cache then Fetched(Respond(cache[req.url]), cache)
    else
      match network
      case Threw(e) => Fetched(Reject(e.message), cache)
      case Ok(response) =>
        if response.ok then Fetched(Respond(response), cache[req.url := response])
        else Fetched(Respond(response), cache)
  }

  /** A cached answer does not depend on the network. */
  lemma CachedIgnoresNetwork(cache: map<string, Response>, req: Request, selfOrigin: string, n1: Fallible<Response>, n2: Fallible<Response>)
    requires req.url in cache
    ensures HandleFetch(cache, req, selfOrigin, n1) == HandleFetch(cache, req, selfOrigin, n2)
  {
  }

  /** Once a handled request got an `ok` answer from the network, the next
      fetch of it is answered from the cache with that same response,
      whatever the network does then. */
  lemma OkResponseServedFromCache(cache: map<string, Response>, req: Request, selfOrigin: string,
                                  response: Response, later: Fallible<Response>)
    requires ShouldHandle(req, selfOrigin) && req.url !in cache && response.ok
    ensures
      var first := HandleFetch(cache, req, selfOrigin, Ok(response));
      && first.answer == Respond(response)
      && HandleFetch(first.cache, req, selfOrigin, later) == Fetched(Respond(response), first.cache)
  {
  }

  /** A response that is not `ok` is passed on but not stored. */
  lemma FailedResponseNotStored(cache: map<string, Response>, req: Request, selfOrigin: string, response: Response)
    requires ShouldHandle(req, selfOrigin) && req.url !in cache && !response.ok
    ensures HandleFetch(cache, req, selfOrigin, Ok(response)) == Fetched(Respond(response), cache)
  {
  }
}

=== FILE: strings.dfy ===
/** String predicates used by the application's routing and matching rules. */
module Strings {

  /** `s.startsWith(p)` */
  predicate StartsWith(s: string, p: string) {
    |p| <= |s| && s[..|p|] == p
  }

  /** `s.endsWith(p)` */
  predicate EndsWith(s: string, p: string) {
    |p| <= |s| && s[|s| - |p|..] == p
  }

  /** True when `sub` occurs in `s` starting at position `i`. */
  predicate OccursAt(s: string, sub: string, i: nat) {
    i + |sub| <= |s| && s[i..i + |sub|] == sub
  }

  /** `s.includes(sub)` */
  predicate Contains(s: string, sub: string) {
    exists i :: 0 <= i <= |s| && OccursAt(s, sub, i)
  }

  /** Lower-cases one character; only the ASCII letters are mapped. */
  function LowerChar(c: char): (r: char)
    ensures 'A' <= c <= 'Z' ==> r != c && 'a' <= r <= 'z'
    ensures !('A' <= c <= 'Z') ==> r == c
  {
    if 'A' <= c <= 'Z' then (c as int - 'A' as int + 'a' as int) as char else c
  }

  /** `s.toLowerCase()`, restricted to the ASCII letters. */
  function ToLower(s: string): (r: string)
    ensures |r| == |s|
    ensures forall i :: 0 <= i < |s| ==> r[i] == LowerChar(s[i])
  {
    seq(|s|, i requires 0 <= i < |s| => LowerChar(s[i]))
  }

  /** A word cannot occur where its first character is missing. */
  lemma FirstCharMismatch(s: string, sub: string, i: nat)
    requires |sub| > 0 && i < |s| && s[i] != sub[0]
    ensures !OccursAt(s, sub, i)
  {
    if i + |sub| <= |s| {
      assert s[i..i + |sub|][0] == s[i];
    }
  }
}

=== FILE: token_lists.dfy ===
/** Building the token lists the token picker shows: de-duplication of
    routers that wrap the same collateral, and grouping by symbol and chain. */
module TokenLists {
  import opened Wrappers
  import opened Tokens

  /** A token entry of the picker, with whether it is shown disabled. */
  datatype Listed = Listed(token: Token, disabled: bool)

  /** An (origin collateral, destination collateral) address pair, lower-cased. */
  type Key = (string, string)

  predicate IsMulti(l: Listed, dest: string) {
    IsValidMultiCollateralToken(l.token, ToChain(dest))
  }

  function KeyOf(l: Listed, dest: string): Key
    requires IsMulti(l, dest)
  {
    (CollateralKey(l.token), CollateralKey(ConnectionFor(l.token, dest).value))
  }

  /** The collateral pairs of all multi-collateral entries. */
  function KeySet(items: seq<Listed>, dest: string): set<Key> {
    set i | 0 <= i < |items| && IsMulti(items[i], dest) :: KeyOf(items[i], dest)
  }

  lemma KeySetSnoc(items: seq<Listed>, x: Listed, dest: string)
    ensures KeySet(items + [x], dest) == KeySet(items, dest) + (if IsMulti(x, dest) then {KeyOf(x, dest)} else {})
  {
    var s := items + [x];
    forall k | k in KeySet(s, dest)
      ensures k in KeySet(items, dest) + (if IsMulti(x, dest) then {KeyOf(x, dest)} else {})
    {
      var i :| 0 <= i < |s| && IsMulti(s[i], dest) && KeyOf(s[i], dest) == k;
      if i < |items| {
        assert s[i] == items[i];
      }
    }
    forall k | k in KeySet(items, dest)
      ensures k in KeySet(s, dest)
    {
      var i :| 0 <= i < |items| && IsMulti(items[i], dest) && KeyOf(items[i], dest) == k;
      assert s[i] == items[i];
    }
    if IsMulti(x, dest) {
      assert s[|items|] == x;
    }
  }

  /** The result of `dedupeMultiCollateralTokens`: the entries to show and,
      per collateral pair, every origin token that wraps it. */
  datatype Deduped = Deduped(tokens: seq<Listed>, groups: map<Key, seq<Token>>)

  /** Reference: the last entry is shown when it is not multi-collateral, or
      when no earlier multi-collateral entry has its collateral pair. */
  predicate KeepLast(items: seq<Listed>, dest: string)
    requires |items| > 0
  {
    var x := items[|items| - 1];
    !IsMulti(x, dest) ||
    forall j :: 0 <= j < |items| - 1 && IsMulti(items[j], dest) ==> KeyOf(items[j], dest) != KeyOf(x, dest)
  }

  /** Reference: the entries shown, in input order. */
  function Kept(items: seq<Listed>, dest: string): seq<Listed> {
    if items == [] then []
    else Kept(items[..|items| - 1], dest) + (if KeepLast(items, dest) then [items[|items| - 1]] else [])
  }

  /** Reference: the origin tokens of all multi-collateral entries with pair `k`, in input order. */
  function Group(items: seq<Listed>, dest: string, k: Key): seq<Token> {
    if items == [] then []
    else
      var x := items[|items| - 1];
      Group(items[..|items| - 1], dest, k) + (if IsMulti(x, dest) && KeyOf(x, dest) == k then [x.token] else [])
  }

  /** `dedupeMultiCollateralTokens`: a left fold over the entries. An entry
      that is not multi-collateral is shown as it is; the first entry of each
      collateral pair is shown, and every entry of the pair is recorded under
      that pair. */
  function Dedupe(items: seq<Listed>, dest: string): (r: Deduped)
    ensures r.groups.Keys == KeySet(items, dest)
  {
    if items == [] then Deduped([], map[])
    else
      var prefix, x := items[..|items| - 1], items[|items| - 1];
      assert items == prefix + [x];
      KeySetSnoc(prefix, x, dest);
      var acc := Dedupe(prefix, dest);
      if !IsMulti(x, dest) then
        Deduped(acc.tokens + [x], acc.groups)
      else
        var k := KeyOf(x, dest);
        if k in acc.groups then
          Deduped(acc.tokens, acc.groups[k := acc.groups[k] + [x.token]])
        else
          Deduped(acc.tokens + [x], acc.groups[k := [x.token]])
  }

  /** The last entry is kept exactly when its pair is not yet recorded. */
  lemma KeepLastIffNew(items: seq<Listed>, dest: string)
    requires |items| > 0
    ensures var x := items[|items| - 1];
      KeepLast(items, dest) <==> !IsMulti(x, dest) || KeyOf(x, dest) !in KeySet(items[..|items| - 1], dest)
  {
    var x := items[|items| - 1];
    if IsMulti(x, dest) && KeyOf(x, dest) in KeySet(items[..|items| - 1], dest) {
      SeenPairNotKept(items, dest);
    }
    if !KeepLast(items, dest) {
      NotKeptPairSeen(items, dest);
    }
  }

  lemma SeenPairNotKept(items: seq<Listed>, dest: string)
    requires |items| > 0 && IsMulti(items[|items| - 1], dest)
    requires KeyOf(items[|items| - 1], dest) in KeySet(items[..|items| - 1], dest)
    ensures !KeepLast(items, dest)
  {
    var prefix := items[..|items| - 1];
    var j :| 0 <= j < |prefix| && IsMulti(prefix[j], dest) && KeyOf(prefix[j], dest) == KeyOf(items[|items| - 1], dest);
    assert items[j] == prefix[j];
  }

  lemma NotKeptPairSeen(items: seq<Listed>, dest: string)
    requires |items| > 0 && !KeepLast(items, dest)
    ensures KeyOf(items[|items| - 1], dest) in KeySet(items[..|items| - 1], dest)
  {
    var prefix := items[..|items| - 1];
    var j :| 0 <= j < |items| - 1 && IsMulti(items[j], dest) && KeyOf(items[j], dest) == KeyOf(items[|items| - 1], dest);
    assert prefix[j] == items[j];
  }

  /** The shown entries are exactly the reference selection `Kept`. */
  lemma {:induction false} DedupeTokensAreKept(items: seq<Listed>, dest: string)
    ensures Dedupe(items, dest).tokens == Kept(items, dest)
  {
    if items != [] {
      DedupeTokensAreKept(items[..|items| - 1], dest);
      KeepLastIffNew(items, dest);
    }
  }

  /** The map records, under each pair, exactly the reference group `Group`. */
  lemma {:induction false} DedupeGroupsAreGroups(items: seq<Listed>, dest: string)
    ensures forall k :: k in Dedupe(items, dest).groups ==> Dedupe(items, dest).groups[k] == Group(items, dest, k)
  {
    if items != [] {
      var prefix, x := items[..|items| - 1], items[|items| - 1];
      DedupeGroupsAreGroups(prefix, dest);
      if IsMulti(x, dest) && KeyOf(x, dest) !in Dedupe(prefix, dest).groups {
        GroupOutsideKeySet(prefix, dest, KeyOf(x, dest));
      }
    }
  }

  lemma {:induction false} GroupOutsideKeySet(items: seq<Listed>, dest: string, k: Key)
    requires k !in KeySet(items, dest)
    ensures Group(items, dest, k) == []
  {
    if items != [] {
      var prefix, x := items[..|items| - 1], items[|items| - 1];
      assert items == prefix + [x];
      KeySetSnoc(prefix, x, dest);
      GroupOutsideKeySet(prefix, dest, k);
    }
  }

  lemma {:induction false} KeptFromInput(items: seq<Listed>, dest: string)
    ensures forall y :: y in Kept(items, dest) ==> y in items
  {
    if items != [] {
      var prefix := items[..|items| - 1];
      KeptFromInput(prefix, dest);
      assert forall y :: y in prefix ==> y in items;
    }
  }

  /** Entries that are not multi-collateral are shown. */
  lemma {:induction false} KeptPassesThrough(items: seq<Listed>, dest: string)
    ensures forall i :: 0 <= i < |items| && !IsMulti(items[i], dest) ==> items[i] in Kept(items, dest)
  {
    if items != [] {
      var prefix := items[..|items| - 1];
      KeptPassesThrough(prefix, dest);
      forall i | 0 <= i < |items| && !IsMulti(items[i], dest)
        ensures items[i] in Kept(items, dest)
      {
        if i < |prefix| {
          assert items[i] == prefix[i];
        }
      }
    }
  }

  /** No two shown multi-collateral entries share a collateral pair. */
  predicate PairsDistinct(ks: seq<Listed>, dest: string) {
    forall i, j :: 0 <= i < j < |ks| && IsMulti(ks[i], dest) && IsMulti(ks[j], dest) ==>
      KeyOf(ks[i], dest) != KeyOf(ks[j], dest)
  }

  lemma {:induction false} KeptPairsDistinct(items: seq<Listed>, dest: string)
    ensures PairsDistinct(Kept(items, dest), dest)
  {
    if items != [] {
      var prefix, x := items[..|items| - 1], items[|items| - 1];
      KeptPairsDistinct(prefix, dest);
      KeepLastIffNew(items, dest);
      if KeepLast(items, dest) && IsMulti(x, dest) {
        var kp := Kept(prefix, dest);
        var ks := Kept(items, dest);
        assert ks == kp + [x];
        KeptFromInput(prefix, dest);
        forall i | 0 <= i < |kp| && IsMulti(kp[i], dest)
          ensures KeyOf(kp[i], dest) != KeyOf(x, dest)
        {
          assert kp[i] in prefix;
          var j :| 0 <= j < |prefix| && prefix[j] == kp[i];
          assert KeyOf(prefix[j], dest) in KeySet(prefix, dest);
        }
        forall i, j | 0 <= i < j < |ks| && IsMulti(ks[i], dest) && IsMulti(ks[j], dest)
          ensures KeyOf(ks[i], dest) != KeyOf(ks[j], dest)
        {
          assert ks[i] == kp[i];
          if j < |kp| {
            assert ks[j] == kp[j];
          } else {
            assert ks[j] == x;
            assert KeyOf(kp[i], dest) != KeyOf(x, dest);
          }
        }
      } else if KeepLast(items, dest) {
        var kp := Kept(prefix, dest);
        var ks := Kept(items, dest);
        assert ks == kp + [x];
        forall i, j | 0 <= i < j < |ks| && IsMulti(ks[i], dest) && IsMulti(ks[j], dest)
          ensures KeyOf(ks[i], dest) != KeyOf(ks[j], dest)
        {
          assert ks[i] == kp[i];
          assert j < |kp|;
          assert ks[j] == kp[j];
        }
      } else {
        assert Kept(items, dest) == Kept(prefix, dest);
      }
    }
  }

  /** Some multi-collateral entry of `ks` has pair `k`. */
  predicate Covered(ks: seq<Listed>, dest: string, k: Key) {
    exists y :: y in ks && IsMulti(y, dest) && KeyOf(y, dest) == k
  }

  lemma CoveredGrows(ks: seq<Listed>, more: seq<Listed>, dest: string, k: Key)
    requires Covered(ks, dest, k)
    ensures Covered(ks + more, dest, k)
  {
    var y :| y in ks && IsMulti(y, dest) && KeyOf(y, dest) == k;
    assert y in ks + more;
  }

  /** Every collateral pair of the input is represented among the shown entries. */
  lemma {:induction false} KeptCoversPairs(items: seq<Listed>, dest: string)
    ensures forall i :: 0 <= i < |items| && IsMulti(items[i], dest) ==>
      Covered(Kept(items, dest), dest, KeyOf(items[i], dest))
  {
    if items != [] {
      var prefix, x := items[..|items| - 1], items[|items| - 1];
      var kp := Kept(prefix, dest);
      var added := if KeepLast(items, dest) then [x] else [];
      assert Kept(items, dest) == kp + added;
      KeptCoversPairs(prefix, dest);
      KeepLastIffNew(items, dest);
      forall i | 0 <= i < |items| && IsMulti(items[i], dest)
        ensures Covered(kp + added, dest, KeyOf(items[i], dest))
      {
        if i < |prefix| {
          assert items[i] == prefix[i];
          CoveredGrows(kp, added, dest, KeyOf(prefix[i], dest));
        } else if !KeepLast(items, dest) {
          var j :| 0 <= j < |prefix| && IsMulti(prefix[j], dest) && KeyOf(prefix[j], dest) == KeyOf(x, dest);
          CoveredGrows(kp, added, dest, KeyOf(prefix[j], dest));
        } else {
          assert x in kp + added;
        }
      }
    }
  }

  /** Every multi-collateral entry stays recorded under its pair. */
  lemma {:induction false} GroupHoldsMembers(items: seq<Listed>, dest: string)
    ensures forall i :: 0 <= i < |items| && IsMulti(items[i], dest) ==>
      items[i].token in Group(items, dest, KeyOf(items[i], dest))
  {
    if items != [] {
      var prefix := items[..|items| - 1];
      GroupHoldsMembers(prefix, dest);
      forall i | 0 <= i < |items| && IsMulti(items[i], dest)
        ensures items[i].token in Group(items, dest, KeyOf(items[i], dest))
      {
        if i < |prefix| {
          assert items[i] == prefix[i];
        }
      }
    }
  }

  /** What the picker shows after de-duplication: entries sharing a collateral
      pair collapse to one, every pair keeps all its tokens in the map, a new
      pair gets its own entry, and entries that are not multi-collateral pass
      through and add nothing to the map. */
  lemma DedupeContract(items: seq<Listed>, dest: string)
    ensures var r := Dedupe(items, dest);
      && (forall y :: y in r.tokens ==> y in items)
      && (forall i :: 0 <= i < |items| && !IsMulti(items[i], dest) ==> items[i] in r.tokens)
      && PairsDistinct(r.tokens, dest)
      && (forall i :: 0 <= i < |items| && IsMulti(items[i], dest) ==>
            && KeyOf(items[i], dest) in r.groups
            && items[i].token in r.groups[KeyOf(items[i], dest)]
            && Covered(r.tokens, dest, KeyOf(items[i], dest)))
      && (forall k :: k in r.groups ==> exists i :: 0 <= i < |items| && IsMulti(items[i], dest) && KeyOf(items[i], dest) == k)
  {
    DedupeTokensAreKept(items, dest);
    DedupeGroupsAreGroups(items, dest);
    KeptFromInput(items, dest);
    KeptPassesThrough(items, dest);
    KeptPairsDistinct(items, dest);
    KeptCoversPairs(items, dest);
    GroupHoldsMembers(items, dest);
    var r := Dedupe(items, dest);
    forall i | 0 <= i < |items| && IsMulti(items[i], dest)
      ensures KeyOf(items[i], dest) in r.groups
    {
      assert KeyOf(items[i], dest) in KeySet(items, dest);
    }
  }

  /** A list with no multi-collateral entry is returned as it is, with an empty map. */
  lemma {:induction false} DedupeWithoutMulti(items: seq<Listed>, dest: string)
    requires forall i :: 0 <= i < |items| ==> !IsMulti(items[i], dest)
    ensures Dedupe(items, dest) == Deduped(items, map[])
  {
    if items != [] {
      var prefix := items[..|items| - 1];
      DedupeWithoutMulti(prefix, dest);
      assert prefix + [items[|items| - 1]] == items;
    }
  }

  // ---------------------------------------------------------------------
  // Grouping by symbol and chain

  /** A token that connects to at least one other chain. */
  predicate IsMultiChain(t: Token) {
    |t.connections| > 0
  }

  /** One symbol's entry: the first token seen with the symbol, and per
      enabled chain a token of that symbol on that chain. */
  datatype SymbolChains = SymbolChains(tokenInformation: Token, chains: map<string, Token>)

  /** `assembleTokensBySymbolChainMap`: a left fold over the multi-chain tokens;
      a token on a disabled chain opens its symbol's entry but adds no chain. */
  function AssembleBySymbol(tokens: seq<Token>, disabledChains: set<string>): (r: map<string, SymbolChains>)
    ensures forall s :: s in r ==> exists i :: 0 <= i < |tokens| && IsMultiChain(tokens[i]) && tokens[i].symbol == s
    ensures forall i :: 0 <= i < |tokens| && IsMultiChain(tokens[i]) ==> tokens[i].symbol in r
  {
    if tokens == [] then map[]
    else
      var prefix, t := tokens[..|tokens| - 1], tokens[|tokens| - 1];
      var m := AssembleBySymbol(prefix, disabledChains);
      assert forall i :: 0 <= i < |prefix| ==> prefix[i] == tokens[i];
      if !IsMultiChain(t) then m
      else
        var entry := if t.symbol in m then m[t.symbol] else SymbolChains(t, map[]);
        var entry' := if t.chainName in disabledChains then entry
                      else entry.(chains := entry.chains[t.chainName := t]);
        m[t.symbol := entry']
  }

  /** Reference: the first multi-chain token with symbol `s`. */
  function FirstWithSymbol(tokens: seq<Token>, s: string): (r: Option<Token>)
    ensures r.Some? ==> r.value in tokens && IsMultiChain(r.value) && r.value.symbol == s
    ensures r.None? ==> forall i :: 0 <= i < |tokens| ==> !(IsMultiChain(tokens[i]) && tokens[i].symbol == s)
  {
    if tokens == [] then None
    else
      var prefix, t := tokens[..|tokens| - 1], tokens[|tokens| - 1];
      assert forall i :: 0 <= i < |prefix| ==> prefix[i] == tokens[i];
      match FirstWithSymbol(prefix, s)
      case Some(f) => assert f in tokens; Some(f)
      case None => if IsMultiChain(t) && t.symbol == s then Some(t) else None
  }

  /** Each symbol's entry names the first multi-chain token of that symbol. */
  lemma {:induction false} AssembleFirstToken(tokens: seq<Token>, disabledChains: set<string>)
    ensures var r := AssembleBySymbol(tokens, disabledChains);
      forall s :: s in r ==> FirstWithSymbol(tokens, s) == Some(r[s].tokenInformation)
  {
    if tokens != [] {
      AssembleFirstToken(tokens[..|tokens| - 1], disabledChains);
    }
  }

  /** `t` may be listed for symbol `s` on chain `c`. */
  predicate ListableAs(tokens: seq<Token>, disabledChains: set<string>, s: string, c: string, t: Token) {
    c !in disabledChains && t in tokens && IsMultiChain(t) && t.symbol == s && t.chainName == c
  }

  predicate AllListable(tokens: seq<Token>, disabledChains: set<string>, r: map<string, SymbolChains>) {
    forall s, c :: s in r && c in r[s].chains ==> ListableAs(tokens, disabledChains, s, c, r[s].chains[c])
  }

  /** A chain listed under a symbol is enabled and holds a multi-chain token of that symbol. */
  lemma {:induction false} AssembleChainsSound(tokens: seq<Token>, disabledChains: set<string>)
    ensures AllListable(tokens, disabledChains, AssembleBySymbol(tokens, disabledChains))
  {
    if tokens != [] {
      var prefix, t := tokens[..|tokens| - 1], tokens[|tokens| - 1];
      AssembleChainsSound(prefix, disabledChains);
      var m := AssembleBySymbol(prefix, disabledChains);
      var r := AssembleBySymbol(tokens, disabledChains);
      assert AllListable(prefix, disabledChains, m);
      forall s, c | s in r && c in r[s].chains
        ensures ListableAs(tokens, disabledChains, s, c, r[s].chains[c])
      {
        if IsMultiChain(t) && t.symbol == s && t.chainName == c && c !in disabledChains {
          assert r[s].chains[c] == t;
        } else {
          assert s in m && c in m[s].chains && r[s].chains[c] == m[s].chains[c];
          assert ListableAs(prefix, disabledChains, s, c, m[s].chains[c]);
          assert m[s].chains[c] in prefix;
        }
      }
    }
  }

  /** Every enabled chain of a multi-chain token is listed under the token's symbol. */
  lemma {:induction false} AssembleChainsComplete(tokens: seq<Token>, disabledChains: set<string>)
    ensures var r := AssembleBySymbol(tokens, disabledChains);
      forall i :: 0 <= i < |tokens| && IsMultiChain(tokens[i]) && tokens[i].chainName !in disabledChains ==>
        tokens[i].chainName in r[tokens[i].symbol].chains
  {
    if tokens != [] {
      var prefix := tokens[..|tokens| - 1];
      AssembleChainsComplete(prefix, disabledChains);
      assert forall i :: 0 <= i < |prefix| ==> prefix[i] == tokens[i];
    }
  }

  /** A single token on a disabled chain gives its symbol an entry with no chains. */
  lemma DisabledChainSkipped(t: Token, disabledChains: set<string>)
    requires IsMultiChain(t) && t.chainName in disabledChains
    ensures AssembleBySymbol([t], disabledChains) == map[t.symbol := SymbolChains(t, map[])]
  {
    assert [t][..0] == [];
  }
}

=== FILE: tokens.dfy ===
/** Tokens, their connections to other chains, and the multi-collateral rules
    that decide which router tokens wrap the same collateral. */
module Tokens {
  import opened Wrappers
  import opened Strings

  /** A token standard and how the SDK classifies it. */
  datatype Standard = Standard(name: string, collateralized: bool, nft: bool)

  /** A token on one chain. `connections` holds the paired tokens on other chains. */
  datatype Token = Token(
    chainName: string,
    addressOrDenom: string,
    symbol: string,
    decimals: nat,
    standard: Standard,
    collateralAddressOrDenom: Option<string>,
    connections: seq<Token>)

  /** The first token of `cs` on chain `chain`. */
  function FirstOnChain(cs: seq<Token>, chain: string): (r: Option<Token>)
    ensures r.Some? ==> r.value in cs && r.value.chainName == chain
    ensures r.None? <==> forall i :: 0 <= i < |cs| ==> cs[i].chainName != chain
  {
    if cs == [] then None
    else if cs[0].chainName == chain then Some(cs[0])
    else FirstOnChain(cs[1..], chain)
  }

  /** `cs[i]` is on `chain` and no token before it is. */
  predicate FirstOnChainAt(cs: seq<Token>, chain: string, i: nat)
    requires i < |cs|
  {
    cs[i].chainName == chain && forall j :: 0 <= j < i ==> cs[j].chainName != chain
  }

  /** What `find` returns: the token found is the earliest one on the chain. */
  lemma {:induction false} FirstOnChainIsFirst(cs: seq<Token>, chain: string)
    ensures FirstOnChain(cs, chain).Some? ==>
      exists i :: 0 <= i < |cs| && cs[i] == FirstOnChain(cs, chain).value && FirstOnChainAt(cs, chain, i)
    decreases |cs|
  {
    if cs != [] {
      if cs[0].chainName == chain {
        assert FirstOnChainAt(cs, chain, 0);
      } else if FirstOnChain(cs[1..], chain).Some? {
        FirstOnChainIsFirst(cs[1..], chain);
        var i :| 0 <= i < |cs[1..]| && cs[1..][i] == FirstOnChain(cs[1..], chain).value && FirstOnChainAt(cs[1..], chain, i);
        assert FirstOnChainAt(cs, chain, i + 1);
      }
    }
  }

  /** `token.getConnectionForChain(chain)?.token` */
  function ConnectionFor(t: Token, chain: string): Option<Token> {
    FirstOnChain(t.connections, chain)
  }

  /** A collateral address that is present and non-empty (a truthy string). */
  predicate HasCollateral(t: Token) {
    t.collateralAddressOrDenom.Some? && t.collateralAddressOrDenom.value != ""
  }

  /** The collateral address normalised for comparison: lower-cased. */
  function CollateralKey(t: Token): string
    requires HasCollateral(t)
  {
    ToLower(t.collateralAddressOrDenom.value)
  }

  /** The destination argument of the multi-collateral check: a chain name or a resolved token. */
  datatype Destination = ToChain(name: string) | ToToken(token: Token)

  function DestinationToken(origin: Token, dest: Destination): Option<Token> {
    match dest
    case ToChain(name) => ConnectionFor(origin, name)
    case ToToken(t) => Some(t)
  }

  /** `isValidMultiCollateralToken`: both ends carry a collateral address and
      are of a collateralised standard, and the destination resolves. */
  predicate IsValidMultiCollateralToken(origin: Token, dest: Destination) {
    && HasCollateral(origin)
    && origin.standard.collateralized
    && DestinationToken(origin, dest).Some?
    && HasCollateral(DestinationToken(origin, dest).value)
    && DestinationToken(origin, dest).value.standard.collateralized
  }

  /** Each of the five conditions alone makes the check fail. */
  lemma InvalidWhenAnyConditionFails(origin: Token, dest: Destination)
    ensures !HasCollateral(origin) ==> !IsValidMultiCollateralToken(origin, dest)
    ensures !origin.standard.collateralized ==> !IsValidMultiCollateralToken(origin, dest)
    ensures dest.ToChain? && ConnectionFor(origin, dest.name).None? ==> !IsValidMultiCollateralToken(origin, dest)
    ensures (DestinationToken(origin, dest).Some? && !HasCollateral(DestinationToken(origin, dest).value))
      ==> !IsValidMultiCollateralToken(origin, dest)
    ensures (DestinationToken(origin, dest).Some? && !DestinationToken(origin, dest).value.standard.collateralized)
      ==> !IsValidMultiCollateralToken(origin, dest)
  {
  }

  /** Naming the destination by chain or by its resolved token gives the same verdict. */
  lemma ChainAndTokenDestinationsAgree(origin: Token, chain: string)
    ensures IsValidMultiCollateralToken(origin, ToChain(chain)) <==>
      ConnectionFor(origin, chain).Some? && IsValidMultiCollateralToken(origin, ToToken(ConnectionFor(origin, chain).value))
  {
  }

  // ---------------------------------------------------------------------
  // Tokens with the same collateral

  /** An origin router token together with its paired destination token. */
  datatype Candidate = Candidate(originToken: Token, destinationToken: Token)

  /** `warpCore.getTokensForRoute(origin, destination)`: the registered tokens
      on `origin` that connect to `destination`. */
  function RouteTokens(registry: seq<Token>, origin: string, destination: string): (r: seq<Token>)
    ensures forall t :: t in r <==> t in registry && t.chainName == origin && ConnectionFor(t, destination).Some?
  {
    if registry == [] then []
    else
      var rest := RouteTokens(registry[1..], origin, destination);
      var t := registry[0];
      if t.chainName == origin && ConnectionFor(t, destination).Some? then [t] + rest else rest
  }

  /** `t` is another router on the route to `dest` whose pair of collaterals,
      at the origin and at the destination, is the pair of `origin` and `dest`. */
  predicate SharesCollateral(origin: Token, dest: Token, t: Token)
    requires HasCollateral(origin)
  {
    && ConnectionFor(t, dest.chainName).Some?
    && IsValidMultiCollateralToken(t, ToToken(ConnectionFor(t, dest.chainName).value))
    && CollateralKey(t) == CollateralKey(origin)
    && HasCollateral(dest)
    && CollateralKey(ConnectionFor(t, dest.chainName).value) == CollateralKey(dest)
  }

  function CollectShared(route: seq<Token>, origin: Token, dest: Token): (r: seq<Candidate>)
    requires HasCollateral(origin)
    ensures |r| <= |route|
    ensures forall c :: c in r ==>
      c.originToken in route && SharesCollateral(origin, dest, c.originToken)
      && c.destinationToken == ConnectionFor(c.originToken, dest.chainName).value
    ensures forall t :: t in route && SharesCollateral(origin, dest, t) ==>
      Candidate(t, ConnectionFor(t, dest.chainName).value) in r
  {
    if route == [] then []
    else
      var rest := CollectShared(route[1..], origin, dest);
      var t := route[0];
      if SharesCollateral(origin, dest, t) then [Candidate(t, ConnectionFor(t, dest.chainName).value)] + rest
      else rest
  }

  /** `getTokensWithSameCollateralAddresses`: every route token paired with
      its own connection to the destination chain, where the two wrap the
      same (case-insensitive) collaterals as `origin` and `dest`. */
  function TokensWithSameCollateral(registry: seq<Token>, origin: Token, dest: Token): (r: seq<Candidate>)
    ensures !IsValidMultiCollateralToken(origin, ToToken(dest)) ==> r == []
    ensures forall c :: c in r ==>
      && c.originToken in registry
      && c.originToken.chainName == origin.chainName
      && IsValidMultiCollateralToken(c.originToken, ToToken(c.destinationToken))
      && ConnectionFor(c.originToken, dest.chainName).Some?
      && c.destinationToken == ConnectionFor(c.originToken, dest.chainName).value
      && CollateralKey(c.originToken) == CollateralKey(origin)
      && CollateralKey(c.destinationToken) == CollateralKey(dest)
    ensures IsValidMultiCollateralToken(origin, ToToken(dest)) ==>
      forall t :: t in registry && t.chainName == origin.chainName && SharesCollateral(origin, dest, t) ==>
        Candidate(t, ConnectionFor(t, dest.chainName).value) in r
  {
    if !IsValidMultiCollateralToken(origin, ToToken(dest)) then []
    else CollectShared(RouteTokens(registry, origin.chainName, dest.chainName), origin, dest)
  }

  /** A registered origin routed to `dest` is among its own candidates exactly
      when it passes the check, so the candidates exist exactly then. */
  lemma OriginIsOwnCandidate(registry: seq<Token>, origin: Token, dest: Token)
    requires origin in registry
    requires ConnectionFor(origin, dest.chainName) == Some(dest)
    ensures Candidate(origin, dest) in TokensWithSameCollateral(registry, origin, dest) <==>
      IsValidMultiCollateralToken(origin, ToToken(dest))
    ensures TokensWithSameCollateral(registry, origin, dest) != [] <==> IsValidMultiCollateralToken(origin, ToToken(dest))
  {
    if IsValidMultiCollateralToken(origin, ToToken(dest)) {
      assert SharesCollateral(origin, dest, origin);
    }
  }

  /** An empty route query yields no candidates. */
  lemma NoRouteNoCandidates(registry: seq<Token>, origin: Token, dest: Token)
    requires RouteTokens(registry, origin.chainName, dest.chainName) == []
    ensures TokensWithSameCollateral(registry, origin, dest) == []
  {
  }
}

=== FILE: transfer_types.dfy ===
/** The values the transfer form holds and the statuses a transfer goes through. */
module TransferTypes {
  import opened Wrappers
  import opened Tokens

  /** `TransferFormValues` */
  datatype FormValues = FormValues(
    origin: string,
    destination: string,
    tokenIndex: Option<int>,
    feeTokenIndex: Option<int>,
    amount: string,
    recipient: string)

  /** `TransferStatus` */
  datatype TransferStatus =
    | Preparing
    | CreatingTxs
    | SigningApprove
    | ConfirmingApprove
    | SigningRevoke
    | ConfirmingRevoke
    | SigningTransfer
    | ConfirmingTransfer
    | ConfirmedTransfer
    | Failed

  /** `TransferContext`: the record of a transfer kept in the history; the
      timestamp is left out. `amount` is the amount as the user typed it. */
  datatype TransferContext = TransferContext(
    status: TransferStatus,
    origin: string,
    destination: string,
    originTokenAddressOrDenom: string,
    destTokenAddressOrDenom: string,
    sender: string,
    recipient: string,
    amount: string)

  /** `getTokenByIndex`: the registered token at `index`, if there is one. */
  function TokenAt(registry: seq<Token>, index: Option<int>): (r: Option<Token>)
    ensures r.Some? <==> index.Some? && 0 <= index.value < |registry|
    ensures r.Some? ==> r.value == registry[index.value]
  {
    if index.Some? && 0 <= index.value < |registry| then Some(registry[index.value]) else None
  }
}

=== FILE: validation.dfy ===
/** `validateForm`: the checks the transfer form runs before it lets the user
    review a transfer, in the order the application runs them. */
module Validation {
  import opened Wrappers
  import opened Decimal
  import opened AppConfig
  import opened Tokens
  import opened PruvFee
  import opened RouteSelection
  import opened ErrorPatterns
  import opened TransferTypes

  /** Field name to message; the form shows each message under its field. */
  type Errors = map<string, string>

  /** The pair `validateForm` returns: the errors, or `None` when the form is
      valid, and the router token that should replace the selected one. */
  datatype Verdict = Verdict(errors: Option<Errors>, overrideToken: Option<Token>)

  /** The request handed to the SDK's own transfer validation. */
  datatype TransferRequest = TransferRequest(token: Token, amountWei: int, destination: string, recipient: string, sender: string)

  /** Everything validation asks of the SDK and the wallet layer. */
  datatype ValidationEnv = ValidationEnv(
    /** The registered tokens, in index order. */
    registry: seq<Token>,
    /** Per destination chain, the router addresses that may not receive transfers. */
    routerAddresses: map<string, set<string>>,
    /** The destination collateral query; `None` when it fails. */
    collateralOf: Token -> Option<nat>,
    /** Decimal text to smallest units for a number of decimals; may throw.
        A typed negative amount gives a negative count. */
    toWei: (string, nat) -> Fallible<int>,
    /** The multi-collateral transfer limit, when the amount exceeds it. */
    limitExceeded: (Token, string, int) -> Option<nat>,
    /** Smallest units back to decimal text, for the limit message. */
    fromWei: (nat, nat) -> string,
    /** The sender's address for the origin chain, when an account is connected; may throw. */
    senderAddress: Fallible<Option<string>>,
    /** The SDK's transfer validation; may throw. */
    validateTransfer: TransferRequest -> Fallible<Option<Errors>>,
    /** `errorToString(error, 40)` */
    errorToString: Failure -> string)

  /** `if (multiCollateralLimit)`: a missing limit and a limit of zero are
      both falsy, so only a positive limit is reported. */
  predicate LimitReported(limit: Option<nat>) {
    limit.Some? && limit.value > 0
  }

  const TokenRequired: Errors := map["token" := "Token is required"]
  const RouterRecipient: Errors := map["recipient" := "Warp Route address is not valid as recipient"]
  const GasFundsMessage := "Insufficient funds for gas fees"

  /** The only origin on which the amount must exceed the USDC fee. */
  const PruvTestChain := "pruvtest"

  /** The recipient is a router address of the destination chain. */
  predicate IsRouterRecipient(env: ValidationEnv, values: FormValues) {
    values.destination in env.routerAddresses && values.recipient in env.routerAddresses[values.destination]
  }

  /** On the pruv test origin a USDC amount must exceed the fee; `parseFloat`
      of text that is not a number gives NaN, and NaN fails every comparison. */
  predicate BelowPruvMinimum(cfg: Config, values: FormValues, token: Token) {
    && cfg.enablePruvOriginFeeUsdc
    && values.origin == PruvTestChain
    && token.symbol == UsdcSymbol
    && Value(OriginFeeUsdc(cfg, values.destination)) > 0.0
    && Parse(values.amount).Some?
    && Value(Parse(values.amount).value) <= Value(OriginFeeUsdc(cfg, values.destination))
  }

  /** The form-level message for a thrown error, with the gas-funds pattern as intended. */
  function FailureMessage(summary: string, message: string): (r: string)
    ensures r == GasFundsMessage || r == summary
    ensures InsufficientFundsIntended(summary + " " + message) ==> r == GasFundsMessage
    ensures AccountNotFound(summary + " " + message) ==> r == GasFundsMessage
    ensures r != summary ==> InsufficientFundsIntended(summary + " " + message) || AccountNotFound(summary + " " + message)
    ensures r == GasFundsMessage ==> FailureMessageAsWritten(summary, message) == GasFundsMessage
  {
    var full := summary + " " + message;
    if InsufficientFundsIntended(full) then
      IntendedImpliesAsWritten(full);
      GasFundsMessage
    else if AccountNotFound(full) then GasFundsMessage
    else summary
  }

  /** The same selection with the pattern exactly as the application writes it. */
  function FailureMessageAsWritten(summary: string, message: string): (r: string)
    ensures r == GasFundsMessage || r == summary
  {
    var full := summary + " " + message;
    if InsufficientFundsAsWritten(full) || AccountNotFound(full) then GasFundsMessage else summary
  }

  /** An allowance failure is reported as missing gas funds by the written
      pattern, and shown as it is by the intended one. */
  lemma AllowanceFailureMisreported()
    ensures FailureMessageAsWritten(AllowanceMessage, "") == GasFundsMessage
    ensures FailureMessage(AllowanceMessage, "") == AllowanceMessage
  {
    assert AllowanceMessage + " " + "" == AllowanceFormText;
    AllowanceFormTextMisread();
  }

  /** Which gas-funds pattern picks the message for a thrown error: the one
      the application writes, or the evidently intended one. */
  datatype Reading = AsWritten | Intended

  function FailureText(reading: Reading, summary: string, message: string): string {
    match reading
    case AsWritten => FailureMessageAsWritten(summary, message)
    case Intended => FailureMessage(summary, message)
  }

  /** The verdict for an error thrown inside the checks: a form-level message, no override. */
  function FormFailure(reading: Reading, env: ValidationEnv, e: Failure): Verdict {
    Verdict(Some(map["form" := FailureText(reading, env.errorToString(e), e.message)]), None)
  }

  /** `validateForm`, as the application runs it. */
  function ValidateForm(cfg: Config, env: ValidationEnv, values: FormValues): (r: Verdict)
    ensures TokenAt(env.registry, values.tokenIndex).None? ==> r == Verdict(Some(TokenRequired), None)
    ensures (TokenAt(env.registry, values.tokenIndex).Some? &&
      ConnectionFor(TokenAt(env.registry, values.tokenIndex).value, values.destination).None?) ==>
        r == Verdict(Some(TokenRequired), None)
    ensures r.overrideToken.Some? ==> r.errors.None?
  {
    ValidateWith(AsWritten, cfg, env, values)
  }

  /** `validateForm` with the gas-funds pattern as evidently intended. */
  function ValidateFormIntended(cfg: Config, env: ValidationEnv, values: FormValues): Verdict {
    ValidateWith(Intended, cfg, env, values)
  }

  /** What the `try` block of `validateForm` ends with: the verdict it
      returns, or the error thrown inside it. */
  datatype Outcome = Returned(verdict: Verdict) | Raised(error: Failure)

  /** The `catch`: a thrown error becomes the form-level message `reading` selects. */
  function ValidateWith(reading: Reading, cfg: Config, env: ValidationEnv, values: FormValues): Verdict {
    match TryValidate(cfg, env, values)
    case Returned(v) => v
    case Raised(e) => FormFailure(reading, env, e)
  }

  /** The checks of `validateForm`, in order, up to the first that returns or throws. */
  function TryValidate(cfg: Config, env: ValidationEnv, values: FormValues): (r: Outcome)
    ensures TokenAt(env.registry, values.tokenIndex).None? ==> r == Returned(Verdict(Some(TokenRequired), None))
    ensures (TokenAt(env.registry, values.tokenIndex).Some? &&
      ConnectionFor(TokenAt(env.registry, values.tokenIndex).value, values.destination).None?) ==>
        r == Returned(Verdict(Some(TokenRequired), None))
    ensures r.Returned? && r.verdict.overrideToken.Some? ==> r.verdict.errors.None?
  {
    match TokenAt(env.registry, values.tokenIndex)
    case None => Returned(Verdict(Some(TokenRequired), None))
    case Some(token) =>
      match ConnectionFor(token, values.destination)
      case None => Returned(Verdict(Some(TokenRequired), None))
      case Some(destToken) =>
        if IsRouterRecipient(env, values) then Returned(Verdict(Some(RouterRecipient), None))
        else if BelowPruvMinimum(cfg, values, token) then
          Returned(Verdict(Some(map["amount" := "Amount must be greater than " + ToText(OriginFeeUsdc(cfg, values.destination))]), None))
        else
          TryAmount(env, values, token, GetTransferToken(env.registry, token, destToken, env.collateralOf))
  }

  /** The checks from the amount conversion on, for the selected `token` and
      the `transferToken` chosen for it. */
  function TryAmount(env: ValidationEnv, values: FormValues, token: Token, transferToken: Token): (r: Outcome)
    ensures r.Returned? && r.verdict.overrideToken.Some? ==>
      r.verdict.errors.None? && r.verdict.overrideToken.value == transferToken && transferToken.addressOrDenom != token.addressOrDenom
  {
    match env.toWei(values.amount, transferToken.decimals)
    case Threw(e) => Raised(e)
    case Ok(amountWei) =>
      var limit := env.limitExceeded(token, values.destination, amountWei);
      if LimitReported(limit) then
        Returned(Verdict(Some(map["amount" := "Transfer limit is " + env.fromWei(limit.value, token.decimals) + " " + token.symbol]), None))
      else TrySend(env, values, token, transferToken, amountWei)
  }

  /** The checks from the sender lookup on: the SDK's validation, then the override. */
  function TrySend(env: ValidationEnv, values: FormValues, token: Token, transferToken: Token, amountWei: int): (r: Outcome)
    ensures r.Returned? && r.verdict.overrideToken.Some? ==>
      r.verdict.errors.None? && r.verdict.overrideToken.value == transferToken && transferToken.addressOrDenom != token.addressOrDenom
  {
    match env.senderAddress
    case Threw(e) => Raised(e)
    case Ok(address) =>
      var request := TransferRequest(transferToken, amountWei, values.destination, values.recipient, address.GetOr(""));
      match env.validateTransfer(request)
      case Threw(e) => Raised(e)
      case Ok(Some(errors)) => Returned(Verdict(Some(errors), None))
      case Ok(None) =>
        if transferToken.addressOrDenom == token.addressOrDenom then Returned(Verdict(None, None))
        else Returned(Verdict(None, Some(transferToken)))
  }

  /** The verdict of the checks that need no SDK call, if one of them fails. */
  function LocalVerdict(cfg: Config, env: ValidationEnv, values: FormValues): Option<Verdict> {
    match TokenAt(env.registry, values.tokenIndex)
    case None => Some(Verdict(Some(TokenRequired), None))
    case Some(token) =>
      if ConnectionFor(token, values.destination).None? then Some(Verdict(Some(TokenRequired), None))
      else if IsRouterRecipient(env, values) then Some(Verdict(Some(RouterRecipient), None))
      else if BelowPruvMinimum(cfg, values, token) then
        Some(Verdict(Some(map["amount" := "Amount must be greater than " + ToText(OriginFeeUsdc(cfg, values.destination))]), None))
      else None
  }

  /** Two environments that agree on the registry and the router addresses and
      differ in anything the SDK or the wallet might answer. */
  predicate SameLocalFacts(env1: ValidationEnv, env2: ValidationEnv) {
    env1.registry == env2.registry && env1.routerAddresses == env2.routerAddresses
  }

  /** A router address of the destination is refused as recipient before any amount check. */
  lemma RouterRecipientRefused(cfg: Config, env: ValidationEnv, values: FormValues)
    requires TokenAt(env.registry, values.tokenIndex).Some?
    requires ConnectionFor(TokenAt(env.registry, values.tokenIndex).value, values.destination).Some?
    requires values.destination in env.routerAddresses && values.recipient in env.routerAddresses[values.destination]
    ensures ValidateForm(cfg, env, values).errors == Some(map["recipient" := "Warp Route address is not valid as recipient"])
  {
  }

  /** With the pruv fee on, a USDC amount sent from the pruv test chain that
      parses to no more than the fee is refused, and the message names the fee. */
  lemma PruvMinimumRefused(cfg: Config, env: ValidationEnv, values: FormValues)
    requires TokenAt(env.registry, values.tokenIndex).Some?
    requires ConnectionFor(TokenAt(env.registry, values.tokenIndex).value, values.destination).Some?
    requires !IsRouterRecipient(env, values)
    requires cfg.enablePruvOriginFeeUsdc && values.origin == "pruvtest"
    requires TokenAt(env.registry, values.tokenIndex).value.symbol == "USDC"
    requires values.destination in cfg.pruvOriginFeeUsdc && Value(cfg.pruvOriginFeeUsdc[values.destination]) > 0.0
    requires Parse(values.amount).Some? && Value(Parse(values.amount).value) <= Value(cfg.pruvOriginFeeUsdc[values.destination])
    ensures ValidateForm(cfg, env, values).errors ==
      Some(map["amount" := "Amount must be greater than " + ToText(cfg.pruvOriginFeeUsdc[values.destination])])
  {
  }

  /** When a check that needs no SDK call fails, that is the verdict, whatever
      the SDK and the wallet would have answered: they are not consulted. */
  lemma LocalChecksComeFirst(cfg: Config, env1: ValidationEnv, env2: ValidationEnv, values: FormValues)
    requires SameLocalFacts(env1, env2)
    requires LocalVerdict(cfg, env1, values).Some?
    ensures ValidateForm(cfg, env1, values) == LocalVerdict(cfg, env1, values).value
    ensures ValidateForm(cfg, env1, values) == ValidateForm(cfg, env2, values)
    ensures ValidateForm(cfg, env1, values).errors.Some? && ValidateForm(cfg, env1, values).overrideToken.None?
  {
  }

  /** The token the transfer would actually use, once the selected token and its route exist. */
  function TransferTokenFor(env: ValidationEnv, values: FormValues): Token
    requires TokenAt(env.registry, values.tokenIndex).Some?
    requires ConnectionFor(TokenAt(env.registry, values.tokenIndex).value, values.destination).Some?
  {
    var token := TokenAt(env.registry, values.tokenIndex).value;
    GetTransferToken(env.registry, token, ConnectionFor(token, values.destination).value, env.collateralOf)
  }

  /** Once the checks that need no SDK call pass, the rest of the `try` is
      the amount conversion and what follows it, for the token to transfer. */
  lemma PastLocalChecks(cfg: Config, env: ValidationEnv, values: FormValues)
    requires LocalVerdict(cfg, env, values).None?
    requires TokenAt(env.registry, values.tokenIndex).Some?
    requires ConnectionFor(TokenAt(env.registry, values.tokenIndex).value, values.destination).Some?
    ensures TryValidate(cfg, env, values) ==
      TryAmount(env, values, TokenAt(env.registry, values.tokenIndex).value, TransferTokenFor(env, values))
  {
    var token := TokenAt(env.registry, values.tokenIndex).value;
    assert !IsRouterRecipient(env, values) && !BelowPruvMinimum(cfg, values, token);
  }

  /** An exceeded transfer limit is reported, in the selected token's units,
      without asking for the sender or the SDK's validation. */
  lemma LimitComesBeforeSdk(cfg: Config, env: ValidationEnv, values: FormValues,
                            sender: Fallible<Option<string>>, sdk: TransferRequest -> Fallible<Option<Errors>>)
    requires LocalVerdict(cfg, env, values).None?
    requires TokenAt(env.registry, values.tokenIndex).Some?
    requires ConnectionFor(TokenAt(env.registry, values.tokenIndex).value, values.destination).Some?
    requires env.toWei(values.amount, TransferTokenFor(env, values).decimals).Ok?
    requires LimitReported(env.limitExceeded(TokenAt(env.registry, values.tokenIndex).value, values.destination,
               env.toWei(values.amount, TransferTokenFor(env, values).decimals).value))
    ensures
      var token := TokenAt(env.registry, values.tokenIndex).value;
      var limit := env.limitExceeded(token, values.destination, env.toWei(values.amount, TransferTokenFor(env, values).decimals).value).value;
      ValidateForm(cfg, env, values) ==
        Verdict(Some(map["amount" := "Transfer limit is " + env.fromWei(limit, token.decimals) + " " + token.symbol]), None)
    ensures ValidateForm(cfg, env, values) == ValidateForm(cfg, env.(senderAddress := sender, validateTransfer := sdk), values)
  {
  }

  /** A limit of zero is read as no limit: the form goes on to the sender
      and the SDK exactly as when no limit is returned. */
  lemma ZeroLimitIsNoLimit(cfg: Config, env: ValidationEnv, values: FormValues)
    requires LocalVerdict(cfg, env, values).None?
    requires TokenAt(env.registry, values.tokenIndex).Some?
    requires ConnectionFor(TokenAt(env.registry, values.tokenIndex).value, values.destination).Some?
    requires env.toWei(values.amount, TransferTokenFor(env, values).decimals).Ok?
    requires env.limitExceeded(TokenAt(env.registry, values.tokenIndex).value, values.destination,
               env.toWei(values.amount, TransferTokenFor(env, values).decimals).value) == Some(0)
    ensures ValidateForm(cfg, env, values) == ValidateForm(cfg, env.(limitExceeded := (t: Token, d: string, w: int) => None), values)
  {
    var env2 := env.(limitExceeded := (t: Token, d: string, w: int) => None);
    assert TryValidate(cfg, env2, values) == TryValidate(cfg, env, values) by {
      var token := TokenAt(env.registry, values.tokenIndex).value;
      var transferToken := TransferTokenFor(env, values);
      var wei := env.toWei(values.amount, transferToken.decimals).value;
      assert env2.registry == env.registry && env2.routerAddresses == env.routerAddresses;
      assert env2.collateralOf == env.collateralOf && env2.toWei == env.toWei;
      assert LocalVerdict(cfg, env2, values) == LocalVerdict(cfg, env, values);
      PastLocalChecks(cfg, env, values);
      PastLocalChecks(cfg, env2, values);
      assert TransferTokenFor(env2, values) == transferToken;
      assert TryAmount(env, values, token, transferToken) == TrySend(env, values, token, transferToken, wei);
      assert TryAmount(env2, values, token, transferToken) == TrySend(env2, values, token, transferToken, wei);
      assert TrySend(env2, values, token, transferToken, wei) == TrySend(env, values, token, transferToken, wei);
    }
    SameOutcomeSameVerdict(cfg, env, env2, values);
  }

  /** The `catch` reads only the error's text, so the same outcome of the
      `try` gives the same verdict. */
  lemma SameOutcomeSameVerdict(cfg: Config, env1: ValidationEnv, env2: ValidationEnv, values: FormValues)
    requires TryValidate(cfg, env1, values) == TryValidate(cfg, env2, values)
    requires env1.errorToString == env2.errorToString
    ensures ValidateForm(cfg, env1, values) == ValidateForm(cfg, env2, values)
  {
  }

  /** The form passes only when every check passed: the amount converted, no
      limit was exceeded, the sender was read and the SDK found nothing. */
  lemma ValidMeansEveryCheckPassed(cfg: Config, env: ValidationEnv, values: FormValues)
    requires ValidateForm(cfg, env, values).errors.None?
    ensures LocalVerdict(cfg, env, values).None?
    ensures TokenAt(env.registry, values.tokenIndex).Some?
    ensures ConnectionFor(TokenAt(env.registry, values.tokenIndex).value, values.destination).Some?
    ensures
      var token := TokenAt(env.registry, values.tokenIndex).value;
      var transferToken := GetTransferToken(env.registry, token, ConnectionFor(token, values.destination).value, env.collateralOf);
      && env.toWei(values.amount, transferToken.decimals).Ok?
      && !LimitReported(env.limitExceeded(token, values.destination, env.toWei(values.amount, transferToken.decimals).value))
      && env.senderAddress.Ok?
      && env.validateTransfer(TransferRequest(transferToken, env.toWei(values.amount, transferToken.decimals).value,
           values.destination, values.recipient, env.senderAddress.value.GetOr(""))) == Ok(None)
  {
    assert TokenAt(env.registry, values.tokenIndex).Some?;
    assert ConnectionFor(TokenAt(env.registry, values.tokenIndex).value, values.destination).Some?;
    assert LocalVerdict(cfg, env, values).None? by {
      if LocalVerdict(cfg, env, values).Some? {
        LocalChecksComeFirst(cfg, env, env, values);
      }
    }
    PastLocalChecks(cfg, env, values);
    var token := TokenAt(env.registry, values.tokenIndex).value;
    assert TryValidate(cfg, env, values).Returned? && TryValidate(cfg, env, values).verdict.errors.None?;
    AmountChecksPassed(env, values, token, TransferTokenFor(env, values));
  }

  /** A verdict without errors from the amount step on means each of its checks passed. */
  lemma AmountChecksPassed(env: ValidationEnv, values: FormValues, token: Token, transferToken: Token)
    requires TryAmount(env, values, token, transferToken).Returned?
    requires TryAmount(env, values, token, transferToken).verdict.errors.None?
    ensures env.toWei(values.amount, transferToken.decimals).Ok?
    ensures !LimitReported(env.limitExceeded(token, values.destination, env.toWei(values.amount, transferToken.decimals).value))
    ensures env.senderAddress.Ok?
    ensures env.validateTransfer(TransferRequest(transferToken, env.toWei(values.amount, transferToken.decimals).value,
              values.destination, values.recipient, env.senderAddress.value.GetOr(""))) == Ok(None)
  {
  }

  /** A replacement token is only proposed for a valid form, and it is another
      registered token on the same origin chain that shares the selected
      token's collateral and also routes to the destination. */
  lemma OverrideSharesCollateral(cfg: Config, env: ValidationEnv, values: FormValues)
    requires TokenAt(env.registry, values.tokenIndex).Some?
    requires ConnectionFor(TokenAt(env.registry, values.tokenIndex).value, values.destination).Some?
    requires ValidateForm(cfg, env, values).overrideToken.Some?
    ensures ValidateForm(cfg, env, values).errors.None?
    ensures
      var token := TokenAt(env.registry, values.tokenIndex).value;
      var o := ValidateForm(cfg, env, values).overrideToken.value;
      && o in env.registry
      && o.chainName == token.chainName
      && o.addressOrDenom != token.addressOrDenom
      && HasCollateral(o) && HasCollateral(token) && CollateralKey(o) == CollateralKey(token)
      && ConnectionFor(o, values.destination).Some?
  {
    var token := TokenAt(env.registry, values.tokenIndex).value;
    var dest := ConnectionFor(token, values.destination).value;
    var t := GetTransferToken(env.registry, token, dest, env.collateralOf);
    assert LocalVerdict(cfg, env, values).None? by {
      if LocalVerdict(cfg, env, values).Some? {
        LocalChecksComeFirst(cfg, env, env, values);
      }
    }
    PastLocalChecks(cfg, env, values);
    assert t != token;
    var c :| c in TokensWithSameCollateral(env.registry, token, dest) && t == c.originToken;
    assert dest.chainName == values.destination;
  }

  /** The request the SDK's validation receives once the local checks, the
      amount conversion, the limit and the sender have all passed. */
  function RequestFor(env: ValidationEnv, values: FormValues): TransferRequest
    requires TokenAt(env.registry, values.tokenIndex).Some?
    requires ConnectionFor(TokenAt(env.registry, values.tokenIndex).value, values.destination).Some?
    requires env.toWei(values.amount, TransferTokenFor(env, values).decimals).Ok?
    requires env.senderAddress.Ok?
  {
    var transferToken := TransferTokenFor(env, values);
    TransferRequest(transferToken, env.toWei(values.amount, transferToken.decimals).value,
      values.destination, values.recipient, env.senderAddress.value.GetOr(""))
  }

  /** Once every earlier check passed, the SDK's errors are the verdict as
      they are, with no override; with no SDK errors the form is valid, and
      an override is proposed exactly when the token to transfer is a
      different router from the selected one. */
  lemma SdkVerdictDecides(cfg: Config, env: ValidationEnv, values: FormValues)
    requires LocalVerdict(cfg, env, values).None?
    requires TokenAt(env.registry, values.tokenIndex).Some?
    requires ConnectionFor(TokenAt(env.registry, values.tokenIndex).value, values.destination).Some?
    requires env.toWei(values.amount, TransferTokenFor(env, values).decimals).Ok?
    requires !LimitReported(env.limitExceeded(TokenAt(env.registry, values.tokenIndex).value, values.destination,
               env.toWei(values.amount, TransferTokenFor(env, values).decimals).value))
    requires env.senderAddress.Ok?
    requires env.validateTransfer(RequestFor(env, values)).Ok?
    ensures env.validateTransfer(RequestFor(env, values)).value.Some? ==>
      ValidateForm(cfg, env, values) == Verdict(env.validateTransfer(RequestFor(env, values)).value, None)
    ensures env.validateTransfer(RequestFor(env, values)).value.None? ==>
      && ValidateForm(cfg, env, values).errors.None?
      && (ValidateForm(cfg, env, values).overrideToken.Some? <==>
            TransferTokenFor(env, values).addressOrDenom != TokenAt(env.registry, values.tokenIndex).value.addressOrDenom)
      && (ValidateForm(cfg, env, values).overrideToken.Some? ==>
            ValidateForm(cfg, env, values).overrideToken.value == TransferTokenFor(env, values))
  {
    var token := TokenAt(env.registry, values.tokenIndex).value;
    var transferToken := TransferTokenFor(env, values);
    PastLocalChecks(cfg, env, values);
    assert TryValidate(cfg, env, values) ==
      TrySend(env, values, token, transferToken, env.toWei(values.amount, transferToken.decimals).value);
  }

  /** Once the checks that need no SDK call pass, an error thrown by the
      amount conversion, by reading the sender, or by the SDK's validation is
      reported on the form as a whole, with the message the written pattern
      selects, and with no override. */
  lemma ThrownIsFormError(cfg: Config, env: ValidationEnv, values: FormValues)
    requires LocalVerdict(cfg, env, values).None?
    requires TokenAt(env.registry, values.tokenIndex).Some?
    requires ConnectionFor(TokenAt(env.registry, values.tokenIndex).value, values.destination).Some?
    ensures
      var wei := env.toWei(values.amount, TransferTokenFor(env, values).decimals);
      wei.Threw? ==>
        ValidateForm(cfg, env, values) ==
          Verdict(Some(map["form" := FailureMessageAsWritten(env.errorToString(wei.error), wei.error.message)]), None)
    ensures
      var wei := env.toWei(values.amount, TransferTokenFor(env, values).decimals);
      && wei.Ok?
      && !LimitReported(env.limitExceeded(TokenAt(env.registry, values.tokenIndex).value, values.destination, wei.value))
      && env.senderAddress.Threw? ==>
        ValidateForm(cfg, env, values) ==
          Verdict(Some(map["form" := FailureMessageAsWritten(env.errorToString(env.senderAddress.error), env.senderAddress.error.message)]), None)
    ensures
      var wei := env.toWei(values.amount, TransferTokenFor(env, values).decimals);
      && wei.Ok?
      && !LimitReported(env.limitExceeded(TokenAt(env.registry, values.tokenIndex).value, values.destination, wei.value))
      && env.senderAddress.Ok?
      && env.validateTransfer(RequestFor(env, values)).Threw? ==>
        var e := env.validateTransfer(RequestFor(env, values)).error;
        ValidateForm(cfg, env, values) == Verdict(Some(map["form" := FailureMessageAsWritten(env.errorToString(e), e.message)]), None)
  {
    PastLocalChecks(cfg, env, values);
  }

  /** The two readings of the gas-funds pattern give the same verdict except
      for the message of a thrown error, and where they differ the
      application shows the gas-funds message and the intended reading shows
      something else. */
  lemma ReadingsDifferOnlyOnGasFunds(cfg: Config, env: ValidationEnv, values: FormValues)
    ensures ValidateFormIntended(cfg, env, values).overrideToken == ValidateForm(cfg, env, values).overrideToken
    ensures ValidateFormIntended(cfg, env, values).errors.None? <==> ValidateForm(cfg, env, values).errors.None?
    ensures ValidateFormIntended(cfg, env, values) != ValidateForm(cfg, env, values) ==>
      && ValidateForm(cfg, env, values).errors == Some(map["form" := GasFundsMessage])
      && ValidateFormIntended(cfg, env, values).errors.Some?
      && "form" in ValidateFormIntended(cfg, env, values).errors.value
      && ValidateFormIntended(cfg, env, values).errors.value["form"] != GasFundsMessage
  {
    if TryValidate(cfg, env, values).Raised? {
      FormFailuresCompare(env, TryValidate(cfg, env, values).error);
    }
  }

  /** The two readings on one thrown error. */
  lemma FormFailuresCompare(env: ValidationEnv, e: Failure)
    ensures
      var written, intended := FormFailure(AsWritten, env, e), FormFailure(Intended, env, e);
      && intended.overrideToken == written.overrideToken == None
      && written.errors.Some? && intended.errors.Some?
      && (intended != written ==>
            && written.errors == Some(map["form" := GasFundsMessage])
            && "form" in intended.errors.value
            && intended.errors.value["form"] != GasFundsMessage)
  {
  }

  /** The discrepancy on a whole form: the amount conversion throws an error
      that reads "insufficient allowance" with an empty message. The
      application reports missing gas funds; the intended pattern shows the
      error as it is. */
  lemma AllowanceThrowMisreported(cfg: Config, env: ValidationEnv, values: FormValues, e: Failure)
    requires LocalVerdict(cfg, env, values).None?
    requires TokenAt(env.registry, values.tokenIndex).Some?
    requires ConnectionFor(TokenAt(env.registry, values.tokenIndex).value, values.destination).Some?
    requires env.toWei(values.amount, TransferTokenFor(env, values).decimals) == Threw(e)
    requires env.errorToString(e) == AllowanceMessage && e.message == ""
    ensures ValidateForm(cfg, env, values) == Verdict(Some(map["form" := GasFundsMessage]), None)
    ensures ValidateFormIntended(cfg, env, values) == Verdict(Some(map["form" := AllowanceMessage]), None)
  {
    PastLocalChecks(cfg, env, values);
    assert TryValidate(cfg, env, values) == Raised(e);
    AllowanceFailureMisreported();
  }
}

=== FILE: wrappers.dfy ===
/** Failure-carrying wrappers shared by every module of the model. */
module Wrappers {

  /** An optional value: `undefined` / `null` in the application's terms. */
  datatype Option<+T> = None | Some(value: T) {

    /** Returns the wrapped value, or `default` when there is none. */
    function GetOr(default: T): T {
      match this
      case Some(v) => v
      case None => default
    }
  }

  /** What a thrown JavaScript error carries that the application inspects:
      its `message` property and its string rendering `toString()`. */
  datatype Failure = Failure(message: string, text: string)

  /** The outcome of a call into code outside the model that may throw. */
  datatype Fallible<+T> = Ok(value: T) | Threw(error: Failure)
}
